=== FILE: README.md ===
# A Dafny model of the falling-block roguelike's game state

The game is a browser Tetris variant (`webapp/tetris.js`). Level targets, cards,
items, a pet dinosaur and special mechanics are layered on the usual 10 x 20 grid:

- **Cards.**
  - A cards: line-score multipliers and the A4 landing bonus.
  - B cards: the star meter and the star explosion.
  - C cards: the pet.
  - D cards: colour weights and colour bonuses.
  - E cards: marked cells and the sniper.
- **Items.** Coins buy items: sword, shield, pendant, earring, mask, chalice and hourglass.
- **Failure.** Failing a level costs health, and at 0 health the run ends.

This project models that engine's state and its step functions as immutable
Dafny datatypes and pure functions, and proves properties of them.

**State.** The global variables of the script become one `Game.Session` record,
made of four parts:

- `Field`: the arena, the active piece, the preview piece, the shape streak and the colour weights;
- `Purse`: coins, health and item counts;
- `Effects`: the star, mark, sniper and drop-colour counters;
- `Flow`: the level played, the pause and start flags, failure and success streaks, the level snapshot and the clock.

**Randomness.** Every `Math.random()` call becomes an explicit parameter:

- a `real` in [0, 1) where the value itself is used;
- a `nat` taken modulo n where only `Math.floor(Math.random() * n)` is used.

**Timers.** The game defers three effects with `setTimeout`: the line clear, the
star explosion and the pet's bottom-row eat. A landing returns them as a list of
`Clear.Pending` values, in the order their timers fire. Each deferred body is one
atomic step (`Landing.Fire`), and `Landing.Settle` runs a list to the end.

**The star explosion cannot fire.** The B4 explosion is modelled as written
(`Landing.ExplosionCheck`, `Landing.ExplosionBody`), but no run reaches it. The
star meter (1350-1362) always leaves fewer layers than its threshold, which is
at most 12 (978-983). Every other write of `starLayers` resets it to 0 (756,
1150, 1165, 1857) or lowers it (1018). The explosion check at 1404-1406 needs 35
layers for the hunter and 45 for everyone else, so it never passes, and neither
the explosion nor the hunter's coin at 1408 ever happens. The B4 card text at
1082 promises an explosion at 50 layers. `Landing.StarsLow` (0..11 layers) is
the invariant: the star meter, a landing, every deferred effect, the hard drop,
a restart, a failure and a time-up all keep it (`Landing.LandKeepsStarsLow`,
`Landing.SettleKeepsStarsLow`, `Landing.RestartAndHardDropKeepStarsLow`), and
under it a landing never schedules the explosion.

Modules follow the parts of the script:

| module | what it holds |
|---|---|
| `Util` | `Option`, `Min`/`Max`, real powers |
| `Board` | grid, shapes, rotation, collision, cell packing, merge, full rows and their removal, column height, the grid side of the explosion, the sniper and the eat |
| `Piece` | the active piece: move, rotate with kicks, spawn position, hard-drop descent |
| `Cards` | card identifiers, parsing, per-number statistics, the A-card upgrade merge, score multipliers |
| `Generator` | shape and colour sampling, card offers with the shop wish, task offers |
| `Economy` | coins, health, items, the pet and its feeding |
| `Game` | the session record; card and item effects, levels, failure, rewards, tasks, piece reset |
| `Clear` | the line-clear scan and its deferred body |
| `Landing` | the landing pipeline, the deferred bodies, the sniper shot, the Enter hard drop |
| `Leaderboard` | the insert, sort and truncate of the local leaderboard |

## Model

| member | source | states |
|---|---|---|
| Board.Shape | webapp/tetris.js:34-78 | each of the seven shapes is a square matrix of side 2 to 4 whose cells hold 0 or the shape's id |
| Board.ShapeHasFourCells | webapp/tetris.js:34-78 | every shape has exactly four occupied cells |
| Board.Rotate | webapp/tetris.js:156-163 | transposing then reversing rows (clockwise) or row order (counter-clockwise) moves cell (j, i) to the rotated position, and the matrix stays square |
| Board.RotateInverse | webapp/tetris.js:156-163 | rotating by dir and then by -dir gives back the original matrix |
| Board.CollideScan | webapp/tetris.js:167-180 | the scan reports a hit exactly when some occupied piece cell on or below row 0 lies below the arena, outside a wall or on an occupied cell; cells above row 0 never collide |
| Board.EncodeDecode | webapp/tetris.js:264-270 | decoding a merged cell value recovers its colour index and marked flag, and the value is never 0 |
| Board.MergeScan | webapp/tetris.js:182-198 | the merge loop writes the packed value at every occupied piece cell inside the arena and leaves every other cell unchanged |
| Board.FullRowsBelow | webapp/tetris.js:213-220 | the collected indices are exactly the full rows, from the bottom upwards (strictly decreasing) |
| Board.RemoveRowShifts | webapp/tetris.js:245-249 | one splice-and-unshift puts an empty row on top, shifts the rows above y down by one and keeps the rows below y |
| Board.RemoveRows | webapp/tetris.js:245-249 | the removal loop keeps the arena's ROWS x COLS shape |
| Board.RemoveRowsTopEmpty | webapp/tetris.js:245-249 | removing indices that each lie at or below their rank empties that many rows at the top |
| Board.SingleFullRowRemoved | webapp/tetris.js:213-249 | with exactly one full row, the clear removes that row and no other row is full |
| Board.AdjacentFullRowsLeaveOne | webapp/tetris.js:213-249 | with two adjacent full rows, the second splice hits the row that slid down, so a full row survives the clear |
| Board.TopFullRowsBreakEmptyTop | webapp/tetris.js:213-249 | when rows 0 and 1 are full, the two top rows are not both empty after the clear |
| Board.MaxColumnHeight | webapp/tetris.js:607-615 | the height is at least ROWS - y for every occupied cell at row y, the row it names is occupied, and it is 0 exactly on an empty arena |
| Board.ClearBottom3 | webapp/tetris.js:1006-1013 | the explosion empties the three bottom rows and keeps every other row |
| Board.Bottom3CountIsLoss | webapp/tetris.js:1006-1013 | the explosion's block count equals the number of blocks that disappear from the arena |
| Board.EatBottomRow | webapp/tetris.js:1644-1651 | the eat removes the bottom row, shifts every other row down by one and puts an empty row on top |
| Board.EatCountIsLoss | webapp/tetris.js:1644-1648 | the eat's block count equals the number of blocks that disappear from the arena |
| Board.RowCount | webapp/tetris.js:1648 | the count of a row's non-zero cells is exactly the number of its occupied indices, never more than its width |
| Board.SniperClear | webapp/tetris.js:676-688 | exactly the marked cells (at least 1000) inside both the arena and the 3 x 3 window become 0; the count is the number of blocks lost, at most 9 |
| Piece.PlayerMove | webapp/tetris.js:1420-1423 | the piece moves by dir columns unless that collides, in which case it stays; nothing else changes |
| Piece.Kick | webapp/tetris.js:1429-1437 | the kick search ends with a non-colliding piece, or with the matrix rotated back at the original column |
| Piece.PlayerRotate | webapp/tetris.js:1425-1438 | afterwards either the rotated piece does not collide, or matrix and column are the originals; the row never changes |
| Piece.HardDrop | webapp/tetris.js:1708-1709 | the hard drop passes only through free rows and stops where the next row collides; only the row changes |
| Piece.Spawn | webapp/tetris.js:1458-1459 | a new piece enters at row -1, centred: floor((COLS - width) / 2) fits between the walls |
| Piece.SpawnFitsEmptyArena | webapp/tetris.js:1458-1459 | every shape spawns without collision on an empty arena |
| Cards.ParseCard | webapp/tetris.js:847-852 | a parsed identifier is a valid card whose printed form is the identifier |
| Cards.ParseIff | webapp/tetris.js:847-852 | an identifier parses to a card exactly when it is that card's printed form |
| Cards.CountParsedIsExact | webapp/tetris.js:897-907 | counting cards by their parse agrees with counting the exact identifier |
| Cards.UpgradedBCountsAsPlain | webapp/tetris.js:965-976 | an upgraded B card raises the same per-number count as a plain one |
| Cards.MergePairsCounts | webapp/tetris.js:858-871 | the merge loop for one number leaves the plain count mod 2, adds one upgraded copy per pair, changes no other identifier and keeps the untouched cards in order |
| Cards.UpgradeInvariants | webapp/tetris.js:854-873 | with A3 owned: at most one plain copy of each of A1..A4 is left, plain + 2 x upgraded is kept per number, so the effective A count is kept, and non-A cards keep their order |
| Cards.StageWeight | webapp/tetris.js:854-873 | one merge stage keeps every number's plain + 2 x upgraded tally, leaves at most one plain copy of its own number and leaves the other numbers' plain copies alone |
| Cards.NoUpgradeWithoutA3 | webapp/tetris.js:856-857 | without an exact A3 the merge changes nothing |
| Cards.A3PairMerges | webapp/tetris.js:854-873 | two plain A3 copies merge into one A+3 like any other pair |
| Cards.EffectiveAIsWeights | webapp/tetris.js:908-913 | the effective A count is the sum over numbers 1..4 of plain + 2 x upgraded |
| Cards.PerLineMultiplier | webapp/tetris.js:918-933 | the multiplier is at least 1, and exactly 1 without A1, A+1, A2 or A+2 cards |
| Cards.A4LandingBonus | webapp/tetris.js:940-951 | the bonus is 0 exactly when no A4 or A+4 is owned or the level is 0, and never negative at non-negative levels |
| Cards.StarThreshold | webapp/tetris.js:978-983 | the threshold lies between 3 and 12, and is 12 without B3 cards |
| Cards.StarMultiplier | webapp/tetris.js:985-990 | the star multiplier is at least 1 |
| Generator.Walk | webapp/tetris.js:96-101 | the weighted walk stops at the index whose prefix interval holds r, and falls through only when r reaches the total |
| Generator.WeightedPickIff | webapp/tetris.js:96-101 | with non-negative weights, index i is picked exactly when r lies in [sum of w[..i], sum of w[..i+1]) |
| Generator.WeightedPickTotal | webapp/tetris.js:95-100 | a point inside the total weight always picks an index, so the fallback draw is never used |
| Generator.NextStreak | webapp/tetris.js:102 | a repeated shape extends the streak by one; a new shape restarts it at 1 |
| Generator.GenPieceId | webapp/tetris.js:83-104 | the generated id is 1..7 and the streak is updated for it |
| Generator.PieceWeightPrefix | webapp/tetris.js:86-91 | the prefix sums of the shape weights are one per shape, less 0.95 past a damped shape |
| Generator.GenPieceIdUndamped | webapp/tetris.js:83-104 | without a streak of two, shape id is drawn exactly when u x 7 lies in [id - 1, id) |
| Generator.GenPieceIdDamped | webapp/tetris.js:83-104 | after a shape came twice in a row it keeps an interval of width 0.05 out of 6.05 |
| Generator.SampleColorIndexIff | webapp/tetris.js:117-125 | with non-negative weights of positive sum, colour i is drawn exactly on its share of the total |
| Generator.CapMaxNum | webapp/tetris.js:456 | the number cap lies in 1..4 and equals an in-range request |
| Generator.GenerateRandomCard | webapp/tetris.js:453-472 | the card is a plain A..D card with number 1..cap, and of the test class when one is set |
| Generator.GenerateRandomCardCovers | webapp/tetris.js:465-471 | every offerable card is produced by some draw below the number of combos |
| Generator.CombosDistinct | webapp/tetris.js:465-469 | distinct combo indices give distinct cards, so the pick is uniform over the combos |
| Generator.PickCardsWithWish | webapp/tetris.js:475-499 | the offer has max(count, 1 if a wish was used) cards, all offerable; a number wish above the cap stays pending and every other wish is consumed and fixes the first card |
| Generator.WishCard | webapp/tetris.js:479-494 | a wish yields a forced card exactly when it is not a number above the cap; the card is offerable and carries the wished number or starts with the wished category |
| Generator.PickWithoutWish | webapp/tetris.js:475-499 | without a wish the offer is exactly count independent random cards |
| Generator.RandomInRange | webapp/tetris.js:502 | for u in [0, 1) the value lies in [min, max] |
| Generator.RandomInRangeIff | webapp/tetris.js:502 | each value is hit exactly on an interval of width 1/(max - min + 1) |
| Generator.RandomInRangeCovers | webapp/tetris.js:502 | every value of the range is produced by some u in [0, 1) |
| Generator.GenerateTask | webapp/tetris.js:506-531 | each option's parameters and target lie in its type's bounds, with the shop level's coin range and the card flag |
| Generator.GenerateTaskOptions | webapp/tetris.js:504-534 | three options, each well formed, with the shop level's coin range and the card flag |
| Generator.GenerateTaskCovers | webapp/tetris.js:506-531 | every well-formed task with the shop level's coin range can be offered |
| Economy.Earn | webapp/tetris.js:953-959 | coins rise by n; with earrings health rises by their count, capped at the maximum; the health bound is kept |
| Economy.EarnRepeatSum | webapp/tetris.js:953-959 | k single-coin gains add k coins and heal k x earrings, capped at the maximum |
| Economy.Spend | webapp/tetris.js:1517-1528 | a purchase is refused and changes nothing exactly when coins < n; otherwise n is paid and floor(n/5) x chalices refunded through the coin gain |
| Economy.ChaliceRefundCanExceedPrice | webapp/tetris.js:1520-1525 | with six chalices, a 5-coin purchase leaves one coin more than before |
| Economy.CountItem | webapp/tetris.js:1292 | one more copy of the item; every other item count unchanged |
| Economy.ItemEffect | webapp/tetris.js:1297-1341 | one more copy; the pendant raises the maximum by 20 (from 100 when unset); the mask lowers it by 20 (never below 10) and pays 5 coins; the health bound is kept |
| Economy.GemPendantHeals | webapp/tetris.js:1307-1310 | the pendant raises a positive health by exactly 20 |
| Economy.EnsureDino | webapp/tetris.js:1591-1600 | afterwards a pet exists; an existing pet is untouched, a new one starts at 0 feeds, stage 0, no badge |
| Economy.Evolve | webapp/tetris.js:1607-1615 | evolution never lowers the stage and touches only feed count, stage and badge |
| Economy.Feed | webapp/tetris.js:1602-1633 | feeding adds n feeds, keeps the stage equal to the feed level with the badge exactly at stage 2 and the milestones in range, never loses coins, and pays none without a C2 card |
| Economy.PayC2 | webapp/tetris.js:1616-1623 | with a C2 card owned the coins rise by the multiples of 50 feeds not yet paid and the paid milestone becomes the larger of the old one and the current multiple; without one nothing changes |
| Economy.HealC3 | webapp/tetris.js:1624-1631 | with a C3 card owned the milestone becomes the larger of the old one and the current multiple of 30 and health rises by 5 per new multiple, capped at the maximum; without one nothing changes |
| Economy.FeedAdditive | webapp/tetris.js:1602-1633 | feeding a then b pays the same coins and leaves the same stage, badge and milestones as feeding a + b |
| Game.AddCoins | webapp/tetris.js:953-959 | the session's coins rise by n and nothing outside the purse changes |
| Game.FeedDino | webapp/tetris.js:1602-1633 | only the pet and the purse change, as the feed rule says |
| Game.ApplyItem | webapp/tetris.js:1297-1341 | the purse takes the item's effect; the hourglass sets the time limit to (limit or 90) + 15 and refills the clock; nothing else changes |
| Game.AddItem | webapp/tetris.js:1291-1295 | buying keeps the health bounds, and only purse and clock change |
| Game.AddItemCountsTwice | webapp/tetris.js:1291-1299 | every item bought raises its own count by two and no other count |
| Game.CCardEffect | webapp/tetris.js:798-818 | C1 creates the pet or feeds it 5; C4 creates it and feeds 40 before the badge; other numbers do nothing; the pet's invariant is kept |
| Game.ApplyCardEffect | webapp/tetris.js:783-845 | colour weights never fall and only a D card changes them; non-A cards keep their order and the effective A count follows the merge; outside category C the purse gains exactly one coin (with the earring heal) for a new base identifier and nothing for a known one, and the pet is untouched; a parsed C card runs its pet effect on that purse; an unparsable C identifier skips the merge; only field weights, purse, cards and pet change |
| Game.CardSideEffect | webapp/tetris.js:795-835 | colour weights never fall; a well-formed pet stays well-formed and coins never fall; health stays in bounds; a card outside category C leaves pet and purse alone and one outside category D leaves the weights alone; a parsed C card has exactly its pet effect |
| Game.UpgradeKeeps | webapp/tetris.js:854-873 | with or without A3, the merge keeps non-A cards in order and the effective A count |
| Game.DCardRaisesItsColor | webapp/tetris.js:820-836 | a D card of number 1..4 adds 10 to exactly its colour's weight |
| Game.LevelTarget | webapp/tetris.js:363-367 | levels below 1 use the first entry, levels past the table its last, others their own |
| Game.LevelTargetMonotone | webapp/tetris.js:1680 | targets never fall as the level rises |
| Game.CheckLevelProgress | webapp/tetris.js:369-438 | a started level whose target is reached stops, pauses and stops the level clock for the reward; otherwise nothing changes |
| Game.RewardStopRenewsSnapshot | webapp/tetris.js:1460-1466 | after the reward stops the clock, the next spawn restarts it and snapshots the score and lines reached |
| Game.DropTime | webapp/tetris.js:1493 | the drop interval is at least 120, at most 1000 from level 1, and 120 exactly from level 12 |
| Game.DropTimeMonotone | webapp/tetris.js:1493 | higher levels never drop slower |
| Game.GameOver | webapp/tetris.js:1694-1697 | game over only pauses the run |
| Game.StartLevelTimer | webapp/tetris.js:618-633 | the clock runs again from the level's limit |
| Game.NextPiece | webapp/tetris.js:1440-1459 | the preview becomes the active piece at the spawn position, a new preview in range is drawn, and arena and weights are kept |
| Game.PlayerReset | webapp/tetris.js:1440-1467 | the piece is reset; a stopped clock starts, and score and lines are snapshotted |
| Game.FailDamage | webapp/tetris.js:734-740 | the damage of the 1st, 2nd, 3rd and later failures is 10, 20, 40 and 50 |
| Game.FailDamageEscalates | webapp/tetris.js:734-740 | each further failure hurts at least as much |
| Game.HpAfterFail | webapp/tetris.js:741-746 | health after a failure is never negative, never higher, and loses damage minus shields |
| Game.RestartLevel | webapp/tetris.js:751-762 | the restart empties the arena and the star layers, restores score and lines from the snapshot unless it holds 0, unpauses and restarts the clock; with the clock stopped, the reset at 757 snapshots the rolled-back score and lines (1461-1465), otherwise the old snapshot stays |
| Game.OnLevelFail | webapp/tetris.js:731-763 | a failure is counted and the success streak reset; at 0 health the run pauses with the board and score as they were; otherwise the level restarts, and when entered with the clock stopped it snapshots the rolled-back score and lines |
| Game.OnLevelTimeUp | webapp/tetris.js:634-640 | the clock stops before the failure, so a surviving restart always runs the clock again with a snapshot equal to the score and lines it rolled back to; at 0 health the run pauses with the clock stopped |
| Game.SecondTimeUpRollsBackToFirst | webapp/tetris.js:634-640 | after a survived time-up that kept a level-start score of 0, the next time-up rolls back to the score the first one kept, whatever was scored in between |
| Game.ZeroSnapshotKeepsScore | webapp/tetris.js:752-753 | a zero level-start score keeps the current score on restart |
| Game.ApplyCharacterClearEffects | webapp/tetris.js:765-781 | the success streak grows by one; from the second success Superman heals 30 (capped) below the maximum, and at or above it raises the maximum by 10 up to 200 and heals 10 up to the new maximum; for everyone else, and for Superman's first success, only the streak changes |
| Game.SupermanCapCanLowerMax | webapp/tetris.js:772-775 | at full health above 200 the Superman bonus lowers the maximum to 200 |
| Game.SelectReward | webapp/tetris.js:421-435 | taking a card pays at least 2 coins, resets the failure count, grows the success streak, and promises a card in the next task after levels 2, 5 and 8 |
| Game.ChooseTask | webapp/tetris.js:560-562 | the chosen task starts at progress 0 and consumes the card promise |
| Game.AwardTaskReward | webapp/tetris.js:587-596 | a running task pays coins from its range (at least the low end) and a card when promised, and ends; the board and score stay |
| Game.CheckTaskCompletion | webapp/tetris.js:598-605 | a task whose progress reached its target pays out; otherwise nothing changes |
| Clear.ColorTalliesPartition | webapp/tetris.js:262-276 | the four colour tallies of the removed rows add up to the removed blocks |
| Clear.MergedRowTallies | webapp/tetris.js:262-276 | a row of marked cells of one colour counts every cell in its colour and as marked |
| Clear.Sweep | webapp/tetris.js:209-232 | without a full row nothing happens; otherwise the game pauses and one clear is scheduled with the full rows, bottom first, and copies of them |
| Clear.SweepRemovesFullRows | webapp/tetris.js:213-264 | the scheduled clear counts ten removed blocks per full row |
| Clear.LineBase | webapp/tetris.js:238-242 | the base is 100, 300, 500 and 800 for 1, 2, 3 and 4 or more rows |
| Clear.ClearGain | webapp/tetris.js:234-243 | the gain is at least base x level, and exactly that without A cards |
| Clear.LuckyLoop | webapp/tetris.js:305 | the lucky-cat loop leaves less than 100 in the counter and never loses coins |
| Clear.LuckyLoopCloses | webapp/tetris.js:305 | the loop pays one coin per whole hundred and keeps the remainder |
| Clear.StartSniper | webapp/tetris.js:655-666 | the sniper is armed; if it was not, the game pauses |
| Clear.SniperLoopCloses | webapp/tetris.js:322-326 | the E3 loop keeps the banked total mod 15, arms the sniper once 15 were banked, and does nothing below 15 |
| Clear.ClearRemove | webapp/tetris.js:233-253 | the collected rows are removed in order, score rises by the gain, lines by the row count, and the level becomes lines / 10 + 1 |
| Clear.ClearTaskProgress | webapp/tetris.js:278-287 | a colour task advances by that colour's removed cells, a lines task by the row count, others unchanged |
| Clear.LuckyCat | webapp/tetris.js:302-306 | the banked blocks keep their remainder mod 100 and pay one coin per hundred |
| Clear.BlockBonus | webapp/tetris.js:289-302 | each sword pays exactly 50 per removed block; D1 cards add nothing without blue (or wildcard orange) cells, and when every removed cell decodes to a colour each D1 card adds at most 20 per removed block |
| Clear.ClearBonuses | webapp/tetris.js:288-306 | score rises by D1's blue bonus and the sword's per-block bonus; the board is untouched; with nothing removed nothing changes |
| Clear.MarkGain | webapp/tetris.js:309-315 | each marked cell pays at least 100, exactly 100 without E cards |
| Clear.MarkEffects | webapp/tetris.js:307-327 | marked cells pay their points, raise the mark chance by E2's share and bank the total, kept mod 15 with E3 |
| Clear.ClearFinish | webapp/tetris.js:328-338 | the pet eats the removed blocks, the height task takes the column height, the level check runs and the game resumes |
| Clear.ResolveClear | webapp/tetris.js:233-341 | the deferred clear removes the collected rows, raises lines and level, pays at least base x level plus 100 per marked cell, and resumes |
| Clear.ResolveSingleRow | webapp/tetris.js:245-249 | clearing a single full row removes exactly that row |
| Clear.ResolveClearTopEmpty | webapp/tetris.js:245-249 | when each collected row lies at or below its rank, the top row-count rows are empty afterwards |
| Landing.A4Paid | webapp/tetris.js:199-201 | the landing bonus paid is never negative, and 0 without A4 cards |
| Landing.MergePiece | webapp/tetris.js:182-206 | piece cells inside the arena take the packed colour, shape and roll-decided mark; all other cells stay; score rises by the A4 bonus |
| Landing.StarAward | webapp/tetris.js:1359-1360 | each filled star meter pays at least 200, exactly 200 without B2 cards |
| Landing.StarLoop | webapp/tetris.js:1353-1361 | the star loop leaves fewer layers than the threshold |
| Landing.StarLoopCloses | webapp/tetris.js:1353-1361 | the star loop keeps the layers mod the threshold and pays the award once per whole threshold |
| Landing.StarMeter | webapp/tetris.js:1349-1363 | with B1 cards the layers become (old + b1) mod T and the award is paid (old + b1) / T times; without, nothing changes |
| Landing.StarMeterBelowThreshold | webapp/tetris.js:1349-1363 | below the threshold the layers grow by b1 and nothing is paid |
| Landing.LandingTaskProgress | webapp/tetris.js:1371-1378 | a shape task counts a drop of its shape, a height task takes the new height, others unchanged |
| Landing.LandingTasks | webapp/tetris.js:1371-1380 | the task step keeps the board, the piece and the score |
| Landing.ColorBonuses | webapp/tetris.js:1380-1399 | D2 pays 100 per card for a red landing; D3 pays 50 per card from the second green landing in a row; other colours reset the run to 1 |
| Landing.SecondGreenPays | webapp/tetris.js:1388-1396 | two green landings in a row pay the D3 bonus on the second |
| Landing.TriggerExplosion | webapp/tetris.js:992-998 | unless one is running, the explosion is marked running, the game pauses and the explosion is scheduled |
| Landing.ExplosionCheck | webapp/tetris.js:1402-1410 | with B4 and at least the threshold of layers, the explosion is scheduled unless running, and the hunter gains a coin either way |
| Landing.ExplosionThresholdInclusive | webapp/tetris.js:1404-1407 | the hunter's check fires at exactly 35 layers and never below |
| Landing.StarMeterKeepsStarsLow | webapp/tetris.js:1350-1362 | the meter leaves its layers below the threshold, so layers that start in 0..11 stay in 0..11 |
| Landing.LowStarsNeverExplode | webapp/tetris.js:1402-1410 | with fewer than 12 layers the explosion check neither schedules the explosion nor pays the hunter, since both thresholds are at least 35 |
| Landing.LandFirstKeepsStarsLow | webapp/tetris.js:1345-1399 | the first half of a landing keeps the layers in 0..11: only the star meter writes them |
| Landing.LandSecondKeepsStarsLow | webapp/tetris.js:1400-1415 | the reset, scan, explosion check and pet count leave the layers alone and schedule no explosion |
| Landing.LandKeepsStarsLow | webapp/tetris.js:1345-1415 | a whole landing keeps the layers in 0..11 and never schedules the explosion |
| Landing.FireKeepsStarsLow | webapp/tetris.js:1004-1020 | the deferred clear, eat and explosion keep the layers in 0..11; the explosion only lowers them |
| Landing.SettleKeepsStarsLow | webapp/tetris.js:1004-1020 | firing every waiting effect in turn keeps the layers in 0..11 |
| Landing.RestartAndHardDropKeepStarsLow | webapp/tetris.js:751-757 | the hard drop leaves the layers alone, and a restart, a failure and a time-up keep them in 0..11 |
| Landing.DinoLanding | webapp/tetris.js:1639-1642 | the pet counts the landing and, from stage 1, schedules an eat exactly on every 15th |
| Landing.LandFirst | webapp/tetris.js:1345-1399 | the merge, star meter, task step and colour bonuses keep the piece, and never lower the score |
| Landing.ResetAndScan | webapp/tetris.js:1400-1401 | the next piece comes in and a clear is scheduled exactly when the merged arena has a full row |
| Landing.AfterScan | webapp/tetris.js:1402-1415 | the explosion check and pet count keep the board and score, and a colliding new piece pauses the game |
| Landing.LandSecond | webapp/tetris.js:1400-1415 | the deferred effects come in firing order, the eat first; a clear is among them exactly when the arena has a full row |
| Landing.Land | webapp/tetris.js:1345-1415 | a landing merges the piece, brings in the preview piece at row -1, never lowers the score, and pauses on a colliding spawn |
| Landing.PlayerDrop | webapp/tetris.js:1343-1418 | the piece moves down a row when that is free; otherwise it lands where it is |
| Landing.ExplosionBody | webapp/tetris.js:1004-1020 | the bottom three rows are emptied, 300 points per removed block, 40 layers spent (never below 0), and the game resumes |
| Landing.EatPerBlock | webapp/tetris.js:1653-1656 | an eaten block is worth at least 200, exactly 200 without badge or C4 |
| Landing.EatGain | webapp/tetris.js:1653-1657 | the eat pays at least 200 per eaten block |
| Landing.EatRow | webapp/tetris.js:1643-1660 | the bottom row goes, its blocks are paid and fed to the pet |
| Landing.EatBody | webapp/tetris.js:1643-1662 | the eat then runs a new line-clear scan of the shifted arena |
| Landing.Fire | webapp/tetris.js:230-1662 | a deferred effect fires; only an eat can schedule more, and never another eat |
| Landing.Settle | webapp/tetris.js:230-1662 | every waiting effect fires in order until none is left, keeping the session well formed |
| Landing.SniperFire | webapp/tetris.js:668-700 | an armed sniper disarms, clears the marked cells of the window, pays their mark gain and resumes; unarmed, nothing happens |
| Landing.HardDropLanding | webapp/tetris.js:1707-1713 | the Enter drop merges at the rest position, pays the A4 bonus and scans, with no star, colour, task, pet or game-over step |
| Leaderboard.Insert | webapp/tetris.js:708-709 | inserting keeps the entries as a multiset plus the new one, and keeps a descending list descending |
| Leaderboard.Sort | webapp/tetris.js:709 | the sort is a permutation and descending by score |
| Leaderboard.SortSorted | webapp/tetris.js:709 | sorting a descending list changes nothing, so equal scores keep their order |
| Leaderboard.SaveEntry | webapp/tetris.js:706-713 | the saved list has min(50, n + 1) entries, descending, drawn from the old list plus the new entry |
| Leaderboard.SaveKeepsNewWhenRoom | webapp/tetris.js:706-713 | with fewer than 50 entries the new entry is kept |
| Leaderboard.SaveKeepsTheBest | webapp/tetris.js:706-713 | every dropped entry scores no more than every kept one |
| Leaderboard.FullBoardDropsTies | webapp/tetris.js:706-713 | on a full board whose last entry scores at least as much, the new entry is dropped |

## Left out

- `webapp/serve.js`: the static HTTP file server is I/O plumbing with no game state.
- Drawing, DOM overlays, modals and animations (`draw`, `drawMatrix`, `animateFloatingScore`, the reward, shop, task and leaderboard dialogs): only the state changes their handlers make are modelled.
- Timer scheduling and the interleaving of timers with key presses: each deferred body is one atomic step in firing order, and input between timers is not modelled.
- The 0.25-second ticks of the level clock (618-633): only the limit, the refill and whether the clock runs are kept; `Game.OnLevelTimeUp` is the step taken when the clock reaches 0.
- Game.OnLevelTimeUp: the eleventh-level branch (636-638) is not modelled, because `level11Active` is set only in test mode (1154-1159), and the test mode and `finishLevel11` are left out below.
- `stopLevelTimer` is called (438, 631, 635) but never defined in `webapp/tetris.js`. As written, every `startLevelTimer` call therefore throws a ReferenceError at 631, before `levelTimerId` is set, so every `playerReset` throws as well (1461-1462). That exception aborts each caller past that point: the rest of `playerDrop` after the reset, namely the sweep, the star-explosion check, the pet eat and the game-over test (1401-1415); the hard drop's sweep (1712); the tail of `onLevelFail` after its reset, namely `paused = false`, `gameStarted = true` and the clock restart (758-762); the startup `updateInfo(); update();` (1882-1883); and `showRewardModal` after 438, namely the cowboy skip button and the dialog itself. The model does not reproduce these aborts. It follows the evident intent, in which `stopLevelTimer` clears the interval and forgets it as 1862-1863 do: `Game.StartLevelTimer` and `Game.PlayerReset` start the clock and take the snapshot, and `Game.CheckLevelProgress` stops the clock at 438 when the reward opens (`Game.RewardStopRenewsSnapshot`). The stop at 631 has no effect in the model. The one at 635 is modelled by `Game.OnLevelTimeUp`: it is what lets the restart in `onLevelFail` take a fresh snapshot (`Game.SecondTimeUpRollsBackToFirst`).
- `checkBananaTriggers` (875-895): it relies on a blocking `confirm()`, and the banana item is never offered by the shop.
- `orangeActive`, `watermelonChosenCategory`, `activeEffects`, the shop's stock and prices, the cowboy's skip button, the test-mode toggle and `finishLevel11`: UI or unreachable state.
- `Math.random` itself: draws are parameters, and distributions are stated only as the interval each outcome occupies.
- Floating-point rounding of 1.08, 0.03, 0.15, 1.25 and 0.05: the model uses exact reals before `Math.floor`.
- `localStorage`, `JSON.parse` and `Date.now()` in the leaderboard: only the list transformation is modelled, with the time stamp as a parameter.
- Leaderboard.SaveEntry: the score is an integer in the model, since every gain is rounded down; `Math.floor` is therefore the identity.
- Board.MergeScan: writes at columns outside 0..COLS-1 (a JavaScript array would grow a property there) are not modelled, since a merged piece never collides.
- Piece.HardDrop: requires a piece with an occupied cell; with an empty matrix the source's loop would not terminate.
- Landing.HardDropLanding: requires a piece with an occupied cell, for the same reason.
- Clear.ResolveClearTopEmpty: the top rows are shown empty only when each collected row lies at or below its rank (`rows[i] >= i`), which excludes full rows lying within i rows of the top. Without that restriction the promise fails: two full rows at the top, collected as [1, 0], leave row 1 full after the removal (`Board.TopFullRowsBreakEmptyTop`). Adjacent full rows lower down, such as [19, 18], meet the restriction and do leave the top empty; what they break is that every full row is removed (`Board.AdjacentFullRowsLeaveOne`).
- Generator.GenPieceId: a streak id outside 1..7 cannot arise and is not given a special case.
- Landing.Settle: states only that the session stays well formed and the health bound holds; what each effect does is stated by `Landing.Fire` and the bodies it calls.
- `getBStats` counts cards of number 5..9 into a field it never initialised; only the numbers 1..4 that the game reads are modelled.

=== FILE: board.dfy ===
/**
 * The playing field of the falling-block game: a ROWS x COLS grid of packed
 * integers, the seven piece matrices, rotation, collision, merging a landed
 * piece, and the row-level operations that line clears, the star explosion,
 * the sniper shot and the pet's bottom-row eat perform on the grid.
 *
 * A cell is 0 when empty; a landed cell holds (colour + 1) * 10 + shapeId,
 * plus MARK_FLAG when the cell was marked on landing.
 */
module Board {

  const COLS: int := 10
  const ROWS: int := 20
  const MARK_FLAG: int := 1000

  type Matrix = seq<seq<int>>

  /** A non-empty n x n matrix (every piece matrix is one). */
  predicate IsSquare(m: Matrix) {
    |m| > 0 && forall i :: 0 <= i < |m| ==> |m[i]| == |m|
  }

  /** The shape every arena has: ROWS rows of COLS cells. */
  predicate IsArena(a: Matrix) {
    |a| == ROWS && forall y :: 0 <= y < |a| ==> |a[y]| == COLS
  }

  predicate RowEmpty(row: seq<int>) {
    forall x :: 0 <= x < |row| ==> row[x] == 0
  }

  /** A row is full when no cell of it is 0. */
  predicate RowFull(row: seq<int>) {
    forall x :: 0 <= x < |row| ==> row[x] != 0
  }

  predicate AllEmpty(a: Matrix) {
    forall y :: 0 <= y < |a| ==> RowEmpty(a[y])
  }

  /** The rows k above which (0 <= i < k) are all empty. */
  predicate TopEmpty(a: Matrix, k: int) {
    forall i :: 0 <= i < k && i < |a| ==> RowEmpty(a[i])
  }

  function EmptyRow(): (row: seq<int>)
    ensures |row| == COLS && RowEmpty(row)
  {
    seq(COLS, _ => 0)
  }

  function EmptyArena(): (a: Matrix)
    ensures IsArena(a) && AllEmpty(a)
  {
    seq(ROWS, _ => EmptyRow())
  }

  // ---------------------------------------------------------------------------
  // Counting occupied cells

  /** The indices of the non-zero cells of a row. */
  function Occupied(row: seq<int>): set<int> {
    set j | 0 <= j < |row| && row[j] != 0
  }

  /** Number of non-zero cells of a row: exactly the number of occupied indices. */
  function RowCount(row: seq<int>): (n: nat)
    ensures n <= |row|
    ensures n == |Occupied(row)|
    decreases |row|
  {
    if row == [] then
      assert Occupied(row) == {};
      0
    else
      OccupiedSnoc(row);
      RowCount(row[..|row| - 1]) + (if row[|row| - 1] != 0 then 1 else 0)
  }

  /** Appending a cell adds its index to the occupied set exactly when it is non-zero. */
  lemma OccupiedSnoc(row: seq<int>)
    requires row != []
    ensures |Occupied(row)| == |Occupied(row[..|row| - 1])| + (if row[|row| - 1] != 0 then 1 else 0)
  {
    var p, k := row[..|row| - 1], |row| - 1;
    var extra: set<int> := if row[k] != 0 then {k} else {};
    forall j ensures j in Occupied(row) <==> j in Occupied(p) + extra {
      if 0 <= j < k {
        assert p[j] == row[j];
      }
    }
    assert Occupied(row) == Occupied(p) + extra;
    assert k !in Occupied(p);
  }

  /** Number of non-zero cells of a matrix. */
  function CellCount(m: Matrix): nat
    decreases |m|
  {
    if m == [] then 0 else CellCount(m[..|m| - 1]) + RowCount(m[|m| - 1])
  }

  lemma {:induction false} CellCountAppend(m1: Matrix, m2: Matrix)
    ensures CellCount(m1 + m2) == CellCount(m1) + CellCount(m2)
    decreases |m2|
  {
    if m2 == [] {
      assert m1 + m2 == m1;
    } else {
      var last := |m2| - 1;
      assert (m1 + m2)[..|m1 + m2| - 1] == m1 + m2[..last];
      CellCountAppend(m1, m2[..last]);
    }
  }

  lemma {:induction false} RowCountEmpty(row: seq<int>)
    requires RowEmpty(row)
    ensures RowCount(row) == 0
    decreases |row|
  {
    if row != [] {
      RowCountEmpty(row[..|row| - 1]);
    }
  }

  lemma {:induction false} RowCountFull(row: seq<int>)
    requires RowFull(row)
    ensures RowCount(row) == |row|
    decreases |row|
  {
    if row != [] {
      RowCountFull(row[..|row| - 1]);
    }
  }

  lemma {:induction false} CellCountEmptyRows(m: Matrix)
    requires AllEmpty(m)
    ensures CellCount(m) == 0
    decreases |m|
  {
    if m != [] {
      RowCountEmpty(m[|m| - 1]);
      CellCountEmptyRows(m[..|m| - 1]);
    }
  }

  /** Setting one non-zero cell of a row to 0 removes exactly one occupied cell. */
  lemma {:induction false} RowCountClearOne(row: seq<int>, x: int)
    requires 0 <= x < |row| && row[x] != 0
    ensures RowCount(row[x := 0]) == RowCount(row) - 1
    decreases |row|
  {
    var last := |row| - 1;
    if x < last {
      assert row[x := 0][..last] == row[..last][x := 0];
      RowCountClearOne(row[..last], x);
    } else {
      assert row[x := 0][..last] == row[..last];
    }
  }

  /** Setting one non-zero cell of a matrix to 0 removes exactly one occupied cell. */
  lemma {:induction false} CellCountClearOne(m: Matrix, y: int, x: int)
    requires 0 <= y < |m| && 0 <= x < |m[y]| && m[y][x] != 0
    ensures CellCount(m[y := m[y][x := 0]]) == CellCount(m) - 1
    decreases |m|
  {
    var last := |m| - 1;
    if y < last {
      assert m[y := m[y][x := 0]][..last] == m[..last][y := m[y][x := 0]];
      CellCountClearOne(m[..last], y, x);
    } else {
      assert m[y := m[y][x := 0]][..last] == m[..last];
      RowCountClearOne(m[y], x);
    }
  }

  // ---------------------------------------------------------------------------
  // Pieces

  /** The matrix of shape `id` (1=I, 2=O, 3=T, 4=J, 5=L, 6=S, 7=Z); cells hold 0 or the id. */
  function Shape(id: int): (m: Matrix)
    requires 1 <= id <= 7
    ensures IsSquare(m) && 2 <= |m| <= 4
    ensures forall y, x :: 0 <= y < |m| && 0 <= x < |m| ==> m[y][x] == 0 || m[y][x] == id
  {
    if id == 1 then [[0, 0, 0, 0], [1, 1, 1, 1], [0, 0, 0, 0], [0, 0, 0, 0]]
    else if id == 2 then [[2, 2], [2, 2]]
    else if id == 3 then [[0, 3, 0], [3, 3, 3], [0, 0, 0]]
    else if id == 4 then [[4, 0, 0], [4, 4, 4], [0, 0, 0]]
    else if id == 5 then [[0, 0, 5], [5, 5, 5], [0, 0, 0]]
    else if id == 6 then [[0, 6, 6], [6, 6, 0], [0, 0, 0]]
    else [[7, 7, 0], [0, 7, 7], [0, 0, 0]]
  }

  function Ind(row: seq<int>, i: int): nat {
    if 0 <= i < |row| && row[i] != 0 then 1 else 0
  }

  lemma {:induction false} RowCountSmall(row: seq<int>)
    requires |row| <= 4
    ensures RowCount(row) == Ind(row, 0) + Ind(row, 1) + Ind(row, 2) + Ind(row, 3)
    decreases |row|
  {
    if row != [] {
      var p := row[..|row| - 1];
      RowCountSmall(p);
      assert forall i :: 0 <= i < |p| ==> p[i] == row[i];
    }
  }

  lemma {:induction false} CellCountSmall(m: Matrix)
    requires |m| <= 4
    ensures CellCount(m) == (if |m| > 0 then RowCount(m[0]) else 0) + (if |m| > 1 then RowCount(m[1]) else 0)
                          + (if |m| > 2 then RowCount(m[2]) else 0) + (if |m| > 3 then RowCount(m[3]) else 0)
    decreases |m|
  {
    if m != [] {
      var p := m[..|m| - 1];
      CellCountSmall(p);
      assert forall i :: 0 <= i < |p| ==> p[i] == m[i];
    }
  }

  /** The cell count of a matrix of at most 4 x 4, cell by cell. */
  lemma CountByRows(m: Matrix)
    requires |m| <= 4 && forall y :: 0 <= y < |m| ==> |m[y]| <= 4
    ensures CellCount(m) == (if |m| > 0 then Ind(m[0], 0) + Ind(m[0], 1) + Ind(m[0], 2) + Ind(m[0], 3) else 0)
      + (if |m| > 1 then Ind(m[1], 0) + Ind(m[1], 1) + Ind(m[1], 2) + Ind(m[1], 3) else 0)
      + (if |m| > 2 then Ind(m[2], 0) + Ind(m[2], 1) + Ind(m[2], 2) + Ind(m[2], 3) else 0)
      + (if |m| > 3 then Ind(m[3], 0) + Ind(m[3], 1) + Ind(m[3], 2) + Ind(m[3], 3) else 0)
  {
    CellCountSmall(m);
    if |m| > 0 { RowCountSmall(m[0]); }
    if |m| > 1 { RowCountSmall(m[1]); }
    if |m| > 2 { RowCountSmall(m[2]); }
    if |m| > 3 { RowCountSmall(m[3]); }
  }

  /** Every piece is a tetromino: exactly four occupied cells. */
  lemma ShapeHasFourCells(id: int)
    requires 1 <= id <= 7
    ensures CellCount(Shape(id)) == 4
  {
    match id
    case 1 => CountByRows(Shape(1));
    case 2 => CountByRows(Shape(2));
    case 3 => CountByRows(Shape(3));
    case 4 => CountByRows(Shape(4));
    case 5 => CountByRows(Shape(5));
    case 6 => CountByRows(Shape(6));
    case 7 => CountByRows(Shape(7));
  }

  function Reverse<T>(s: seq<T>): (r: seq<T>)
    ensures |r| == |s| && forall i :: 0 <= i < |s| ==> r[i] == s[|s| - 1 - i]
  {
    seq(|s|, i requires 0 <= i < |s| => s[|s| - 1 - i])
  }

  /** The in-place swap loop over the lower triangle, for a square matrix. */
  function Transpose(m: Matrix): (t: Matrix)
    requires IsSquare(m)
    ensures IsSquare(t) && |t| == |m|
    ensures forall i, j :: 0 <= i < |m| && 0 <= j < |m| ==> t[i][j] == m[j][i]
  {
    seq(|m|, i requires 0 <= i < |m| => seq(|m|, j requires 0 <= j < |m| => m[j][i]))
  }

  /**
   * Transpose, then reverse every row (dir > 0, clockwise) or reverse the
   * order of the rows (otherwise, counter-clockwise).
   */
  function Rotate(m: Matrix, dir: int): (r: Matrix)
    requires IsSquare(m)
    ensures IsSquare(r) && |r| == |m|
    ensures dir > 0 ==> forall i, j :: 0 <= i < |m| && 0 <= j < |m| ==> r[i][j] == m[|m| - 1 - j][i]
    ensures dir <= 0 ==> forall i, j :: 0 <= i < |m| && 0 <= j < |m| ==> r[i][j] == m[j][|m| - 1 - i]
  {
    var t := Transpose(m);
    if dir > 0 then seq(|t|, i requires 0 <= i < |t| => Reverse(t[i])) else Reverse(t)
  }

  /** Rotating one way and then the other way restores the matrix. */
  lemma RotateInverse(m: Matrix, dir: int)
    requires IsSquare(m) && dir != 0
    ensures Rotate(Rotate(m, dir), -dir) == m
  {
    var r := Rotate(Rotate(m, dir), -dir);
    assert |r| == |m|;
    forall i | 0 <= i < |m|
      ensures r[i] == m[i]
    {
      assert |r[i]| == |m[i]|;
    }
  }

  /** Occupied cell (y, x) of a piece matrix. */
  predicate PieceCell(m: Matrix, y: int, x: int) {
    0 <= y < |m| && 0 <= x < |m[y]| && m[y][x] != 0
  }

  // ---------------------------------------------------------------------------
  // Collision

  /**
   * Arena position (ay, ax), ay >= 0, cannot take a piece cell: it is below
   * the last row, left or right of the walls, or already occupied.
   */
  predicate Blocked(a: Matrix, ay: int, ax: int)
    requires ay >= 0
  {
    ay >= |a| || ax < 0 || ax >= |a[ay]| || a[ay][ax] != 0
  }

  /** Some occupied piece cell at offset (ox, oy) on or below row 0 is blocked. */
  predicate Collides(a: Matrix, m: Matrix, ox: int, oy: int) {
    exists y, x :: 0 <= y < |m| && 0 <= x < |m[y]| && m[y][x] != 0 && y + oy >= 0 && Blocked(a, y + oy, x + ox)
  }

  /** The scan of every piece cell that `collide` performs, stopping at the first hit. */
  method CollideScan(a: Matrix, m: Matrix, ox: int, oy: int) returns (hit: bool)
    ensures hit == Collides(a, m, ox, oy)
    ensures (forall y, x :: PieceCell(m, y, x) ==> y + oy < 0) ==> !hit
    ensures (exists y, x :: PieceCell(m, y, x) && y + oy >= 0 &&
              (y + oy >= |a| || x + ox < 0 || x + ox >= |a[y + oy]| || a[y + oy][x + ox] != 0)) ==> hit
  {
    var y := 0;
    while y < |m|
      invariant 0 <= y <= |m|
      invariant forall y', x' :: 0 <= y' < y && 0 <= x' < |m[y']| && m[y'][x'] != 0 && y' + oy >= 0 ==> !Blocked(a, y' + oy, x' + ox)
    {
      var x := 0;
      while x < |m[y]|
        invariant 0 <= x <= |m[y]|
        invariant forall y', x' :: 0 <= y' < y && 0 <= x' < |m[y']| && m[y'][x'] != 0 && y' + oy >= 0 ==> !Blocked(a, y' + oy, x' + ox)
        invariant forall x' :: 0 <= x' < x && m[y][x'] != 0 && y + oy >= 0 ==> !Blocked(a, y + oy, x' + ox)
      {
        if m[y][x] != 0 {
          var ay := y + oy;
          var ax := x + ox;
          if ay >= 0 && (ay >= |a| || ax < 0 || ax >= |a[ay]| || a[ay][ax] != 0) {
            assert PieceCell(m, y, x) && Blocked(a, ay, ax);
            return true;
          }
        }
        x := x + 1;
      }
      y := y + 1;
    }
    return false;
  }

  // ---------------------------------------------------------------------------
  // Cell encoding and merge

  /** The packed value merge writes: (colour + 1) * 10 + shapeId, plus MARK_FLAG when marked. */
  function Encode(color: int, shapeId: int, marked: bool): int {
    (color + 1) * 10 + shapeId + (if marked then MARK_FLAG else 0)
  }

  /** The colour index the line clear reads back from a cell. */
  function DecodeColor(v: int): int {
    var raw := if v >= MARK_FLAG then v - MARK_FLAG else v;
    if raw >= 10 then raw / 10 - 1 else 0
  }

  /** The marked flag the line clear and the sniper read back from a cell. */
  predicate DecodeMarked(v: int) {
    v >= MARK_FLAG
  }

  /** Decoding a merged cell recovers its colour and marked flag, and the cell is occupied. */
  lemma EncodeDecode(color: int, shapeId: int, marked: bool)
    requires 0 <= color < 4 && 1 <= shapeId <= 7
    ensures Encode(color, shapeId, marked) != 0
    ensures DecodeColor(Encode(color, shapeId, marked)) == color
    ensures DecodeMarked(Encode(color, shapeId, marked)) == marked
  {
    var raw := (color + 1) * 10 + shapeId;
    assert raw / 10 == color + 1 by {
      assert raw == (color + 1) * 10 + shapeId && 0 <= shapeId < 10;
    }
  }

  /**
   * The arena after writing a piece at offset (ox, oy): each occupied piece
   * cell that falls inside the arena gets its packed value; `marked` says, per
   * piece cell, whether the landing roll marked it.
   */
  function Merge(a: Matrix, m: Matrix, ox: int, oy: int, color: int, shapeId: int,
                 marked: (int, int) -> bool): Matrix
  {
    seq(|a|, ay requires 0 <= ay < |a| =>
      seq(|a[ay]|, ax requires 0 <= ax < |a[ay]| =>
        if PieceCell(m, ay - oy, ax - ox) then Encode(color, shapeId, marked(ay - oy, ax - ox)) else a[ay][ax]))
  }

  /** Piece cell (y, x) has been visited once the scan reached row py, column px. */
  predicate Visited(y: int, x: int, py: int, px: int) {
    y < py || (y == py && x < px)
  }

  /** The row-by-row, cell-by-cell writing loop of `merge`. */
  method MergeScan(a: Matrix, m: Matrix, ox: int, oy: int, color: int, shapeId: int,
                   marked: (int, int) -> bool) returns (r: Matrix)
    ensures |r| == |a| && forall ay :: 0 <= ay < |a| ==> |r[ay]| == |a[ay]|
    ensures forall y, x :: PieceCell(m, y, x) && 0 <= y + oy < |a| && 0 <= x + ox < |a[y + oy]| ==>
              r[y + oy][x + ox] == Encode(color, shapeId, marked(y, x))
    ensures forall ay, ax :: 0 <= ay < |a| && 0 <= ax < |a[ay]| && !PieceCell(m, ay - oy, ax - ox) ==>
              r[ay][ax] == a[ay][ax]
    ensures r == Merge(a, m, ox, oy, color, shapeId, marked)
  {
    r := a;
    var y := 0;
    while y < |m|
      invariant 0 <= y <= |m|
      invariant |r| == |a| && forall ay :: 0 <= ay < |a| ==> |r[ay]| == |a[ay]|
      invariant forall ay, ax :: 0 <= ay < |a| && 0 <= ax < |a[ay]| ==>
        r[ay][ax] == (if PieceCell(m, ay - oy, ax - ox) && Visited(ay - oy, ax - ox, y, 0)
                      then Encode(color, shapeId, marked(ay - oy, ax - ox)) else a[ay][ax])
    {
      var x := 0;
      while x < |m[y]|
        invariant 0 <= x <= |m[y]|
        invariant |r| == |a| && forall ay :: 0 <= ay < |a| ==> |r[ay]| == |a[ay]|
        invariant forall ay, ax :: 0 <= ay < |a| && 0 <= ax < |a[ay]| ==>
          r[ay][ax] == (if PieceCell(m, ay - oy, ax - ox) && Visited(ay - oy, ax - ox, y, x)
                        then Encode(color, shapeId, marked(ay - oy, ax - ox)) else a[ay][ax])
      {
        if m[y][x] != 0 {
          var ay := y + oy;
          var ax := x + ox;
          if 0 <= ay < |r| && 0 <= ax < |r[ay]| {
            r := r[ay := r[ay][ax := Encode(color, shapeId, marked(y, x))]];
          }
        }
        x := x + 1;
      }
      y := y + 1;
    }
    var g := Merge(a, m, ox, oy, color, shapeId, marked);
    forall ay | 0 <= ay < |a|
      ensures r[ay] == g[ay]
    {
      assert |r[ay]| == |g[ay]|;
    }
  }

  // ---------------------------------------------------------------------------
  // Full rows and row removal

  /** The full rows among 0 .. n-1, collected from the bottom (n-1) upwards. */
  function FullRowsBelow(a: Matrix, n: int): (ys: seq<int>)
    requires 0 <= n <= |a|
    ensures forall i :: 0 <= i < |ys| ==> 0 <= ys[i] < n && RowFull(a[ys[i]])
    ensures forall y :: 0 <= y < n && RowFull(a[y]) ==> y in ys
    ensures forall i, j :: 0 <= i < j < |ys| ==> ys[i] > ys[j]
    decreases n
  {
    if n == 0 then []
    else if RowFull(a[n - 1]) then [n - 1] + FullRowsBelow(a, n - 1)
    else FullRowsBelow(a, n - 1)
  }

  /** The indices the line clear collects before removing anything, bottom row first. */
  function FullRows(a: Matrix): seq<int> {
    FullRowsBelow(a, |a|)
  }

  /** `arena.splice(y, 1)` followed by `arena.unshift(emptyRow)`. */
  function RemoveRow(a: Matrix, y: int): (r: Matrix)
    requires 0 <= y < |a|
    ensures |r| == |a|
    ensures IsArena(a) ==> IsArena(r)
  {
    [EmptyRow()] + a[..y] + a[y + 1..]
  }

  /** One removal shifts the rows above `y` down by one and leaves the rows below it in place. */
  lemma RemoveRowShifts(a: Matrix, y: int)
    requires 0 <= y < |a|
    ensures RemoveRow(a, y)[0] == EmptyRow()
    ensures forall i :: 0 <= i < y ==> RemoveRow(a, y)[i + 1] == a[i]
    ensures forall i :: y < i < |a| ==> RemoveRow(a, y)[i] == a[i]
  {
  }

  /** The removal loop of the line clear: each collected index, in order, on the arena as it is by then. */
  function RemoveRows(a: Matrix, ys: seq<int>): (r: Matrix)
    requires forall i :: 0 <= i < |ys| ==> 0 <= ys[i] < |a|
    ensures |r| == |a|
    ensures IsArena(a) ==> IsArena(r)
    decreases |ys|
  {
    if ys == [] then a else RemoveRows(RemoveRow(a, ys[0]), ys[1..])
  }

  lemma RemoveRowTopEmpty(a: Matrix, y: int, k: int)
    requires 0 <= y < |a| && 0 <= k <= y && TopEmpty(a, k)
    ensures TopEmpty(RemoveRow(a, y), k + 1)
  {
    RemoveRowShifts(a, y);
  }

  /**
   * Removing the collected rows empties the top |ys| rows provided each index
   * is still at or below the rows already emptied when its turn comes
   * (ys[i] >= i); the bottom-up full-row indices satisfy this unless full
   * rows reach the top |ys| - 1 rows of the arena.
   */
  lemma {:induction false} RemoveRowsTopEmpty(a: Matrix, ys: seq<int>, k: int)
    requires forall i :: 0 <= i < |ys| ==> 0 <= ys[i] < |a|
    requires forall i :: 0 <= i < |ys| ==> ys[i] >= k + i
    requires 0 <= k && TopEmpty(a, k)
    ensures TopEmpty(RemoveRows(a, ys), k + |ys|)
    decreases |ys|
  {
    if ys != [] {
      RemoveRowTopEmpty(a, ys[0], k);
      RemoveRowsTopEmpty(RemoveRow(a, ys[0]), ys[1..], k + 1);
    }
  }

  /** Strictly decreasing indices ending at or above |ys| - 1 satisfy ys[i] >= i. */
  lemma DecreasingIndicesAboveRank(ys: seq<int>)
    requires forall i, j :: 0 <= i < j < |ys| ==> ys[i] > ys[j]
    requires ys != [] ==> ys[|ys| - 1] >= |ys| - 1
    ensures forall i :: 0 <= i < |ys| ==> ys[i] >= i
  {
    forall i | 0 <= i < |ys|
      ensures ys[i] >= i
    {
      var j := |ys| - 1;
      var d := j - i;
      assert ys[i] >= ys[j] + d by {
        DecreasingGap(ys, i, j);
      }
    }
  }

  lemma {:induction false} DecreasingGap(ys: seq<int>, i: int, j: int)
    requires forall p, q :: 0 <= p < q < |ys| ==> ys[p] > ys[q]
    requires 0 <= i <= j < |ys|
    ensures ys[i] >= ys[j] + (j - i)
    decreases j - i
  {
    if i < j {
      DecreasingGap(ys, i + 1, j);
    }
  }

  /** With a single full row, the line clear removes exactly that row. */
  lemma SingleFullRowRemoved(a: Matrix)
    requires IsArena(a) && |FullRows(a)| == 1
    ensures var y := FullRows(a)[0];
      && RowFull(a[y])
      && (forall y' :: 0 <= y' < |a| && y' != y ==> !RowFull(a[y']))
      && RemoveRows(a, FullRows(a)) == RemoveRow(a, y)
  {
    var ys := FullRows(a);
    assert ys[1..] == [];
  }

  /**
   * With two vertically adjacent full rows y - 1 and y collected as [y, y - 1],
   * the second removal hits the row that slid into y - 1, so a full row
   * (the one from y - 1) is left at index y.
   */
  lemma AdjacentFullRowsLeaveOne(a: Matrix, y: int)
    requires IsArena(a) && 1 <= y < |a|
    requires RowFull(a[y]) && RowFull(a[y - 1])
    ensures RowFull(RemoveRows(a, [y, y - 1])[y])
    ensures RemoveRows(a, [y, y - 1])[y] == a[y - 1]
  {
    var a1 := RemoveRow(a, y);
    RemoveRowShifts(a, y);
    assert a1[y] == a[y - 1];
    RemoveRowShifts(a1, y - 1);
    assert [y, y - 1][1..] == [y - 1];
    assert [y - 1][1..] == [];
    assert RemoveRows(a, [y, y - 1]) == RemoveRows(a1, [y - 1]);
    assert RemoveRows(a1, [y - 1]) == RemoveRows(RemoveRow(a1, y - 1), []);
  }

  /** Two full rows at the very top (rows 0 and 1): after the clear, row 1 still holds a full row. */
  lemma TopFullRowsBreakEmptyTop(a: Matrix)
    requires IsArena(a) && RowFull(a[0]) && RowFull(a[1])
    ensures !TopEmpty(RemoveRows(a, [1, 0]), 2)
  {
    AdjacentFullRowsLeaveOne(a, 1);
    var r := RemoveRows(a, [1, 0]);
    assert r[1][0] != 0;
  }

  // ---------------------------------------------------------------------------
  // Heights

  /** ROWS minus the first occupied row of column x at or below row y, or 0. */
  function ColumnHeightFrom(a: Matrix, x: int, y: int): (h: int)
    requires IsArena(a) && 0 <= x < COLS && 0 <= y <= ROWS
    ensures 0 <= h <= ROWS - y
    ensures forall y' :: y <= y' < ROWS && a[y'][x] != 0 ==> h >= ROWS - y'
    ensures h > 0 ==> a[ROWS - h][x] != 0
    decreases ROWS - y
  {
    if y == ROWS then 0
    else if a[y][x] != 0 then ROWS - y
    else ColumnHeightFrom(a, x, y + 1)
  }

  /** The largest column height over columns x .. COLS - 1. */
  function MaxHeightFrom(a: Matrix, x: int): (h: int)
    requires IsArena(a) && 0 <= x <= COLS
    ensures 0 <= h <= ROWS
    ensures forall y, x' :: 0 <= y < ROWS && x <= x' < COLS && a[y][x'] != 0 ==> h >= ROWS - y
    ensures h > 0 ==> !RowEmpty(a[ROWS - h])
    decreases COLS - x
  {
    if x == COLS then 0
    else
      var here := ColumnHeightFrom(a, x, 0);
      var rest := MaxHeightFrom(a, x + 1);
      MaxHeightStep(a, x, here, rest);
      if here > rest then
        assert a[ROWS - here][x] != 0 && |a[ROWS - here]| == COLS;
        here
      else
        rest
  }

  /** Column x's height and the tallest of the columns after it bound every occupied cell from column x on. */
  lemma MaxHeightStep(a: Matrix, x: int, here: int, rest: int)
    requires IsArena(a) && 0 <= x < COLS
    requires forall y :: 0 <= y < ROWS && a[y][x] != 0 ==> here >= ROWS - y
    requires forall y, x' :: 0 <= y < ROWS && x + 1 <= x' < COLS && a[y][x'] != 0 ==> rest >= ROWS - y
    ensures forall y, x' :: 0 <= y < ROWS && x <= x' < COLS && a[y][x'] != 0 ==> (if here > rest then here else rest) >= ROWS - y
  {
    forall y, x' | 0 <= y < ROWS && x <= x' < COLS && a[y][x'] != 0 ensures (if here > rest then here else rest) >= ROWS - y {
      if x' == x {
        assert here >= ROWS - y;
      } else {
        assert rest >= ROWS - y;
      }
    }
  }

  /** A height bounding every occupied cell, and naming an occupied row when positive, is 0 exactly on an empty arena. */
  lemma HeightZeroIffEmpty(a: Matrix, h: int)
    requires IsArena(a) && 0 <= h <= ROWS
    requires forall y, x :: 0 <= y < ROWS && 0 <= x < COLS && a[y][x] != 0 ==> h >= ROWS - y
    requires h > 0 ==> !RowEmpty(a[ROWS - h])
    ensures h == 0 <==> AllEmpty(a)
  {
    if h == 0 {
      forall y | 0 <= y < ROWS ensures RowEmpty(a[y]) {
        forall x | 0 <= x < |a[y]| ensures a[y][x] == 0 {
          assert x < COLS;
        }
      }
    }
  }

  /** `getMaxColumnHeight`: the height of the tallest column. */
  function MaxColumnHeight(a: Matrix): (h: int)
    requires IsArena(a)
    ensures 0 <= h <= ROWS
    ensures forall y, x :: 0 <= y < ROWS && 0 <= x < COLS && a[y][x] != 0 ==> h >= ROWS - y
    ensures h > 0 ==> !RowEmpty(a[ROWS - h])
    ensures h == 0 <==> AllEmpty(a)
  {
    var h := MaxHeightFrom(a, 0);
    HeightZeroIffEmpty(a, h);
    h
  }

  // ---------------------------------------------------------------------------
  // Star explosion, sniper shot and pet eat on the grid

  /** The three bottom rows set to 0; every other row untouched. */
  function ClearBottom3(a: Matrix): (r: Matrix)
    requires IsArena(a)
    ensures IsArena(r)
    ensures forall y :: ROWS - 3 <= y < ROWS ==> RowEmpty(r[y])
    ensures forall y :: 0 <= y < ROWS - 3 ==> r[y] == a[y]
  {
    a[..ROWS - 3] + [EmptyRow(), EmptyRow(), EmptyRow()]
  }

  /** The blocks the explosion counts in the bottom three rows, row by row. */
  function Bottom3Count(a: Matrix): nat
    requires IsArena(a)
  {
    RowCount(a[ROWS - 1]) + RowCount(a[ROWS - 2]) + RowCount(a[ROWS - 3])
  }

  /** The explosion's count is exactly the number of blocks that disappear. */
  lemma Bottom3CountIsLoss(a: Matrix)
    requires IsArena(a)
    ensures Bottom3Count(a) == CellCount(a) - CellCount(ClearBottom3(a))
  {
    var top := a[..ROWS - 3];
    assert a == top + [a[ROWS - 3]] + [a[ROWS - 2]] + [a[ROWS - 1]];
    CellCountAppend(top + [a[ROWS - 3]] + [a[ROWS - 2]], [a[ROWS - 1]]);
    CellCountAppend(top + [a[ROWS - 3]], [a[ROWS - 2]]);
    CellCountAppend(top, [a[ROWS - 3]]);
    assert CellCount([a[ROWS - 1]]) == RowCount(a[ROWS - 1]) by { assert [a[ROWS - 1]][..0] == []; }
    assert CellCount([a[ROWS - 2]]) == RowCount(a[ROWS - 2]) by { assert [a[ROWS - 2]][..0] == []; }
    assert CellCount([a[ROWS - 3]]) == RowCount(a[ROWS - 3]) by { assert [a[ROWS - 3]][..0] == []; }
    var e := [EmptyRow(), EmptyRow(), EmptyRow()];
    CellCountAppend(top, e);
    CellCountEmptyRows(e);
  }

  /** The pet's eat: the bottom row is removed and an empty row enters at the top. */
  function EatBottomRow(a: Matrix): (r: Matrix)
    requires IsArena(a)
    ensures IsArena(r)
    ensures RowEmpty(r[0])
    ensures forall y :: 1 <= y < ROWS ==> r[y] == a[y - 1]
  {
    RemoveRow(a, ROWS - 1)
  }

  /** The eat's count of the bottom row is exactly the number of blocks that disappear. */
  lemma EatCountIsLoss(a: Matrix)
    requires IsArena(a)
    ensures RowCount(a[ROWS - 1]) == CellCount(a) - CellCount(EatBottomRow(a))
  {
    var keep := a[..ROWS - 1];
    assert a == keep + [a[ROWS - 1]];
    CellCountAppend(keep, [a[ROWS - 1]]);
    assert CellCount([a[ROWS - 1]]) == RowCount(a[ROWS - 1]) by { assert [a[ROWS - 1]][..0] == []; }
    assert EatBottomRow(a) == [EmptyRow()] + keep;
    CellCountAppend([EmptyRow()], keep);
    assert CellCount([EmptyRow()]) == 0 by {
      assert [EmptyRow()][..0] == [];
      RowCountEmpty(EmptyRow());
    }
  }

  /** Cell (y, x) lies inside the arena and in the 3 x 3 window centred on (cx, cy). */
  predicate InWindow(y: int, x: int, cx: int, cy: int) {
    0 <= y < ROWS && 0 <= x < COLS && cy - 1 <= y <= cy + 1 && cx - 1 <= x <= cx + 1
  }

  /**
   * The sniper's scan of the 3 x 3 window: marked cells (at least MARK_FLAG)
   * inside the arena become 0 and are counted.
   */
  method SniperClear(a: Matrix, cx: int, cy: int) returns (r: Matrix, removed: nat)
    requires IsArena(a)
    ensures IsArena(r)
    ensures forall y, x :: 0 <= y < ROWS && 0 <= x < COLS ==>
              r[y][x] == (if InWindow(y, x, cx, cy) && a[y][x] >= MARK_FLAG then 0 else a[y][x])
    ensures removed == CellCount(a) - CellCount(r)
    ensures removed <= 9
  {
    r := a;
    removed := 0;
    var dy := -1;
    while dy <= 1
      invariant -1 <= dy <= 2
      invariant IsArena(r)
      invariant CellCount(r) + removed == CellCount(a)
      invariant removed <= 3 * (dy + 1)
      invariant forall y, x :: 0 <= y < ROWS && 0 <= x < COLS ==>
        r[y][x] == (if InWindow(y, x, cx, cy) && y < cy + dy && a[y][x] >= MARK_FLAG then 0 else a[y][x])
    {
      var dx := -1;
      while dx <= 1
        invariant -1 <= dx <= 2
        invariant IsArena(r)
        invariant CellCount(r) + removed == CellCount(a)
        invariant removed <= 3 * (dy + 1) + (dx + 1)
        invariant forall y, x :: 0 <= y < ROWS && 0 <= x < COLS ==>
          r[y][x] == (if InWindow(y, x, cx, cy) && (y < cy + dy || (y == cy + dy && x < cx + dx)) && a[y][x] >= MARK_FLAG
                      then 0 else a[y][x])
      {
        var x := cx + dx;
        var y := cy + dy;
        if y >= 0 && y < ROWS && x >= 0 && x < COLS {
          var v := r[y][x];
          if v != 0 && v >= MARK_FLAG {
            CellCountClearOne(r, y, x);
            removed := removed + 1;
            r := r[y := r[y][x := 0]];
          }
        }
        dx := dx + 1;
      }
      dy := dy + 1;
    }
  }
}

=== FILE: cards.dfy ===
/**
 * The card registry: card identifiers ("A1", "A+1", ...), their parse,
 * the per-number statistics the score rules read, the A-card upgrade merge,
 * and the score multipliers derived from the owned cards.
 *
 * Owned cards are kept as the raw identifier strings, in acquisition order,
 * because the game stores and counts them that way: some rules parse the
 * identifier, others match a prefix ("D1" also matches "D1x" but not "D+1"),
 * one matches an exact string ("A3").
 */
module Cards {
  import opened Util

  type CardId = string

  /** A parsed identifier: category letter, number digit, upgraded ("+") or plain. */
  datatype Card = Card(cat: char, num: int, upgraded: bool)

  predicate IsUpper(c: char) { 'A' <= c <= 'Z' }

  predicate IsDigit(c: char) { '0' <= c <= '9' }

  function DigitChar(n: int): char
    requires 0 <= n <= 9
  {
    (n + '0' as int) as char
  }

  predicate ValidCard(c: Card) {
    IsUpper(c.cat) && 0 <= c.num <= 9
  }

  /** The identifier of a card: letter, "+" when upgraded, digit. */
  function Format(c: Card): CardId
    requires ValidCard(c)
  {
    [c.cat] + (if c.upgraded then "+" else "") + [DigitChar(c.num)]
  }

  /** `parseCard`: an upper-case letter, an optional "+", one digit, nothing else. */
  function ParseCard(id: CardId): (r: Option<Card>)
    ensures r.Some? ==> ValidCard(r.value) && Format(r.value) == id
  {
    if |id| == 2 && IsUpper(id[0]) && IsDigit(id[1]) then
      Some(Card(id[0], id[1] as int - '0' as int, false))
    else if |id| == 3 && IsUpper(id[0]) && id[1] == '+' && IsDigit(id[2]) then
      Some(Card(id[0], id[2] as int - '0' as int, true))
    else None
  }

  /** Parsing a formatted card gives the card back. */
  lemma ParseFormat(c: Card)
    requires ValidCard(c)
    ensures ParseCard(Format(c)) == Some(c)
  {
    var id := Format(c);
    if c.upgraded {
      assert id == [c.cat, '+', DigitChar(c.num)];
    } else {
      assert id == [c.cat, DigitChar(c.num)];
    }
  }

  /** An identifier parses to a given card exactly when it is that card's format. */
  lemma ParseIff(id: CardId, c: Card)
    requires ValidCard(c)
    ensures ParseCard(id) == Some(c) <==> id == Format(c)
  {
    if id == Format(c) {
      ParseFormat(c);
    }
  }

  // ---------------------------------------------------------------------------
  // Counting

  /** Owned cards matching `/^p/`. */
  function CountPrefix(cards: seq<CardId>, p: string): nat
    decreases |cards|
  {
    if cards == [] then 0 else (if p <= cards[0] then 1 else 0) + CountPrefix(cards[1..], p)
  }

  /** Owned cards equal to `id`. */
  function CountExact(cards: seq<CardId>, id: CardId): nat
    decreases |cards|
  {
    if cards == [] then 0 else (if cards[0] == id then 1 else 0) + CountExact(cards[1..], id)
  }

  /** Owned cards that parse to `c`. */
  function CountParsed(cards: seq<CardId>, c: Card): nat
    decreases |cards|
  {
    if cards == [] then 0 else (if ParseCard(cards[0]) == Some(c) then 1 else 0) + CountParsed(cards[1..], c)
  }

  /** Owned cards that parse to category `cat` and number `num`, upgraded or not. */
  function CountParsedAny(cards: seq<CardId>, cat: char, num: int): nat
    decreases |cards|
  {
    if cards == [] then 0
    else
      (if ParseCard(cards[0]).Some? && ParseCard(cards[0]).value.cat == cat && ParseCard(cards[0]).value.num == num
       then 1 else 0) + CountParsedAny(cards[1..], cat, num)
  }

  lemma {:induction false} CountExactAppend(s: seq<CardId>, t: seq<CardId>, id: CardId)
    ensures CountExact(s + t, id) == CountExact(s, id) + CountExact(t, id)
    decreases |s|
  {
    if s == [] {
      assert s + t == t;
    } else {
      assert (s + t)[1..] == s[1..] + t;
      CountExactAppend(s[1..], t, id);
    }
  }

  lemma {:induction false} CountParsedAnyAppend(s: seq<CardId>, t: seq<CardId>, cat: char, num: int)
    ensures CountParsedAny(s + t, cat, num) == CountParsedAny(s, cat, num) + CountParsedAny(t, cat, num)
    decreases |s|
  {
    if s == [] {
      assert s + t == t;
    } else {
      assert (s + t)[1..] == s[1..] + t;
      CountParsedAnyAppend(s[1..], t, cat, num);
    }
  }

  lemma {:induction false} CountExactIn(s: seq<CardId>, id: CardId)
    ensures CountExact(s, id) > 0 <==> id in s
    decreases |s|
  {
    if s != [] {
      CountExactIn(s[1..], id);
      assert s == [s[0]] + s[1..];
    }
  }

  /** Counting by parse and counting by exact identifier agree. */
  lemma {:induction false} CountParsedIsExact(s: seq<CardId>, c: Card)
    requires ValidCard(c)
    ensures CountParsed(s, c) == CountExact(s, Format(c))
    decreases |s|
  {
    if s != [] {
      ParseIff(s[0], c);
      CountParsedIsExact(s[1..], c);
    }
  }

  // ---------------------------------------------------------------------------
  // Statistics

  function PlainA(cards: seq<CardId>, n: int): nat
    requires 1 <= n <= 4
  {
    CountParsed(cards, Card('A', n, false))
  }

  function PlusA(cards: seq<CardId>, n: int): nat
    requires 1 <= n <= 4
  {
    CountParsed(cards, Card('A', n, true))
  }

  /** `effectiveAcount`: plain A cards count once, upgraded ones twice, numbers 1 to 4. */
  function EffectiveA(cards: seq<CardId>): nat {
    PlainA(cards, 1) + 2 * PlusA(cards, 1) + PlainA(cards, 2) + 2 * PlusA(cards, 2)
    + PlainA(cards, 3) + 2 * PlusA(cards, 3) + PlainA(cards, 4) + 2 * PlusA(cards, 4)
  }

  /** `getBStats().plain[n]`: every B card with number n, the upgraded ones included. */
  function BCount(cards: seq<CardId>, n: int): nat {
    CountParsedAny(cards, 'B', n)
  }

  /** An upgraded B card adds to the same count as a plain one. */
  lemma UpgradedBCountsAsPlain(cards: seq<CardId>, n: int)
    requires 0 <= n <= 9
    ensures BCount(cards + [Format(Card('B', n, true))], n) == BCount(cards, n) + 1
    ensures BCount(cards + [Format(Card('B', n, false))], n) == BCount(cards, n) + 1
  {
    ParseFormat(Card('B', n, true));
    ParseFormat(Card('B', n, false));
    CountParsedAnyAppend(cards, [Format(Card('B', n, true))], 'B', n);
    CountParsedAnyAppend(cards, [Format(Card('B', n, false))], 'B', n);
  }

  // ---------------------------------------------------------------------------
  // Upgrade merge

  function PlainAId(n: int): CardId
    requires 1 <= n <= 4
  {
    Format(Card('A', n, false))
  }

  function UpAId(n: int): CardId
    requires 1 <= n <= 4
  {
    Format(Card('A', n, true))
  }

  /** The identifiers the upgrade merge removes or appends. */
  predicate IsAId(c: CardId) {
    c in {"A1", "A2", "A3", "A4", "A+1", "A+2", "A+3", "A+4"}
  }

  lemma AIdsAreAIds(n: int)
    requires 1 <= n <= 4
    ensures IsAId(PlainAId(n)) && IsAId(UpAId(n))
    ensures PlainAId(n) != UpAId(n)
    ensures PlainAId(n) == ['A', DigitChar(n)] && UpAId(n) == ['A', '+', DigitChar(n)]
  {
    assert PlainAId(n) == ['A', DigitChar(n)] && UpAId(n) == ['A', '+', DigitChar(n)];
    if n == 1 {
      assert PlainAId(n) == "A1" && UpAId(n) == "A+1";
    } else if n == 2 {
      assert PlainAId(n) == "A2" && UpAId(n) == "A+2";
    } else if n == 3 {
      assert PlainAId(n) == "A3" && UpAId(n) == "A+3";
    } else {
      assert PlainAId(n) == "A4" && UpAId(n) == "A+4";
    }
  }

  /** The cards the upgrade merge never touches, in their order. */
  function Keep(cards: seq<CardId>): seq<CardId>
    decreases |cards|
  {
    if cards == [] then [] else (if IsAId(cards[0]) then [] else [cards[0]]) + Keep(cards[1..])
  }

  lemma {:induction false} KeepAppend(s: seq<CardId>, t: seq<CardId>)
    ensures Keep(s + t) == Keep(s) + Keep(t)
    decreases |s|
  {
    if s == [] {
      assert s + t == t;
    } else {
      assert (s + t)[1..] == s[1..] + t;
      KeepAppend(s[1..], t);
    }
  }

  /** `splice` of the first occurrence of `x`. */
  function RemoveFirst(s: seq<CardId>, x: CardId): seq<CardId>
    decreases |s|
  {
    if s == [] then [] else if s[0] == x then s[1..] else [s[0]] + RemoveFirst(s[1..], x)
  }

  lemma {:induction false} RemoveFirstCount(s: seq<CardId>, x: CardId, y: CardId)
    ensures CountExact(RemoveFirst(s, x), y) == CountExact(s, y) - (if x == y && CountExact(s, x) > 0 then 1 else 0)
    decreases |s|
  {
    if s != [] && s[0] != x {
      RemoveFirstCount(s[1..], x, y);
      assert CountExact([s[0]] + RemoveFirst(s[1..], x), y) == (if s[0] == y then 1 else 0) + CountExact(RemoveFirst(s[1..], x), y) by {
        CountExactAppend([s[0]], RemoveFirst(s[1..], x), y);
        assert [s[0]][1..] == [];
      }
    }
  }

  lemma {:induction false} RemoveFirstKeep(s: seq<CardId>, x: CardId)
    requires IsAId(x)
    ensures Keep(RemoveFirst(s, x)) == Keep(s)
    decreases |s|
  {
    if s != [] && s[0] != x {
      RemoveFirstKeep(s[1..], x);
      KeepAppend([s[0]], RemoveFirst(s[1..], x));
      assert [s[0]][1..] == [];
    }
  }

  /** One merge step: the first two copies of "A<n>" leave, one "A+<n>" is appended. */
  function MergeStep(cards: seq<CardId>, n: int): seq<CardId>
    requires 1 <= n <= 4
  {
    RemoveFirst(RemoveFirst(cards, PlainAId(n)), PlainAId(n)) + [UpAId(n)]
  }

  lemma MergeStepCounts(cards: seq<CardId>, n: int, y: CardId)
    requires 1 <= n <= 4 && CountExact(cards, PlainAId(n)) >= 2
    ensures CountExact(MergeStep(cards, n), y) ==
      CountExact(cards, y) - (if y == PlainAId(n) then 2 else 0) + (if y == UpAId(n) then 1 else 0)
    ensures Keep(MergeStep(cards, n)) == Keep(cards)
  {
    var p := PlainAId(n);
    AIdsAreAIds(n);
    var once := RemoveFirst(cards, p);
    RemoveFirstCount(cards, p, y);
    RemoveFirstCount(cards, p, p);
    RemoveFirstCount(once, p, y);
    CountExactAppend(RemoveFirst(once, p), [UpAId(n)], y);
    assert [UpAId(n)][1..] == [];
    RemoveFirstKeep(cards, p);
    RemoveFirstKeep(once, p);
    KeepAppend(RemoveFirst(once, p), [UpAId(n)]);
  }

  /** The merge loop for number n: repeat while two plain copies remain. */
  function MergePairs(cards: seq<CardId>, n: int): seq<CardId>
    requires 1 <= n <= 4
    decreases CountExact(cards, PlainAId(n))
  {
    if CountExact(cards, PlainAId(n)) >= 2 then
      MergeStepCounts(cards, n, PlainAId(n));
      MergePairs(MergeStep(cards, n), n)
    else cards
  }

  /**
   * After the merge loop for n: plain "A<n>" copies are reduced to the parity
   * of their count, each removed pair became one "A+<n>", no other identifier's
   * count changed, and the untouched cards keep their order.
   */
  lemma {:induction false} MergePairsCounts(cards: seq<CardId>, n: int, y: CardId)
    requires 1 <= n <= 4
    ensures CountExact(MergePairs(cards, n), PlainAId(n)) == CountExact(cards, PlainAId(n)) % 2
    ensures CountExact(MergePairs(cards, n), UpAId(n)) == CountExact(cards, UpAId(n)) + CountExact(cards, PlainAId(n)) / 2
    ensures y != PlainAId(n) && y != UpAId(n) ==> CountExact(MergePairs(cards, n), y) == CountExact(cards, y)
    ensures Keep(MergePairs(cards, n)) == Keep(cards)
    decreases CountExact(cards, PlainAId(n))
  {
    if CountExact(cards, PlainAId(n)) >= 2 {
      var next := MergeStep(cards, n);
      AIdsAreAIds(n);
      MergeStepCounts(cards, n, PlainAId(n));
      MergeStepCounts(cards, n, UpAId(n));
      MergeStepCounts(cards, n, y);
      MergePairsCounts(next, n, y);
    }
  }

  /** `tryUpgradeACards`: only when an exact "A3" is owned, merge pairs for numbers 1 to 4 in turn. */
  function TryUpgradeACards(cards: seq<CardId>): seq<CardId> {
    if "A3" in cards then MergePairs(MergePairs(MergePairs(MergePairs(cards, 1), 2), 3), 4) else cards
  }

  /** Upgrading the number-n copies and any other number leaves the other's counts alone. */
  lemma MergeOthers(cards: seq<CardId>, n: int, k: int)
    requires 1 <= n <= 4 && 1 <= k <= 4 && n != k
    ensures CountExact(MergePairs(cards, n), PlainAId(k)) == CountExact(cards, PlainAId(k))
    ensures CountExact(MergePairs(cards, n), UpAId(k)) == CountExact(cards, UpAId(k))
  {
    AIdsAreAIds(n);
    AIdsAreAIds(k);
    MergePairsCounts(cards, n, PlainAId(k));
    MergePairsCounts(cards, n, UpAId(k));
  }

  /** The plain-plus-twice-upgraded tally for one number. */
  function Weight(cards: seq<CardId>, n: int): nat
    requires 1 <= n <= 4
  {
    CountExact(cards, PlainAId(n)) + 2 * CountExact(cards, UpAId(n))
  }

  /** One merge stage m seen from number n: the weight stays, and the plain copies drop to at most one for n == m and stay for the others. */
  lemma StageWeight(cards: seq<CardId>, m: int, n: int)
    requires 1 <= m <= 4 && 1 <= n <= 4
    ensures Weight(MergePairs(cards, m), n) == Weight(cards, n)
    ensures n == m ==> CountExact(MergePairs(cards, m), PlainAId(n)) <= 1
    ensures n != m ==> CountExact(MergePairs(cards, m), PlainAId(n)) == CountExact(cards, PlainAId(n))
  {
    if n == m {
      MergePairsCounts(cards, m, "");
    } else {
      MergeOthers(cards, m, n);
    }
  }

  lemma EffectiveAIsWeights(cards: seq<CardId>)
    ensures EffectiveA(cards) == Weight(cards, 1) + Weight(cards, 2) + Weight(cards, 3) + Weight(cards, 4)
  {
    forall n | 1 <= n <= 4
      ensures PlainA(cards, n) == CountExact(cards, PlainAId(n)) && PlusA(cards, n) == CountExact(cards, UpAId(n))
    {
      CountParsedIsExact(cards, Card('A', n, false));
      CountParsedIsExact(cards, Card('A', n, true));
    }
  }

  /**
   * When an exact "A3" is owned, the upgrade leaves at most one plain copy of
   * each of A1 .. A4 (A3 itself included), keeps plain + 2 x upgraded per
   * number and hence the effective A count, and keeps every other card in order.
   */
  lemma UpgradeInvariants(cards: seq<CardId>)
    requires "A3" in cards
    ensures forall n :: 1 <= n <= 4 ==> CountExact(TryUpgradeACards(cards), PlainAId(n)) <= 1
    ensures forall n :: 1 <= n <= 4 ==> Weight(TryUpgradeACards(cards), n) == Weight(cards, n)
    ensures EffectiveA(TryUpgradeACards(cards)) == EffectiveA(cards)
    ensures Keep(TryUpgradeACards(cards)) == Keep(cards)
  {
    var c1 := MergePairs(cards, 1);
    var c2 := MergePairs(c1, 2);
    var c3 := MergePairs(c2, 3);
    var c4 := MergePairs(c3, 4);
    assert TryUpgradeACards(cards) == c4;
    forall n | 1 <= n <= 4
      ensures CountExact(c4, PlainAId(n)) <= 1 && Weight(c4, n) == Weight(cards, n)
    {
      StageWeight(cards, 1, n);
      StageWeight(c1, 2, n);
      StageWeight(c2, 3, n);
      StageWeight(c3, 4, n);
    }
    MergePairsCounts(cards, 1, "");
    MergePairsCounts(c1, 2, "");
    MergePairsCounts(c2, 3, "");
    MergePairsCounts(c3, 4, "");
    EffectiveAIsWeights(cards);
    EffectiveAIsWeights(c4);
  }

  /** Without an exact "A3" the upgrade changes nothing. */
  lemma NoUpgradeWithoutA3(cards: seq<CardId>)
    requires "A3" !in cards
    ensures TryUpgradeACards(cards) == cards
  {
  }

  /** Two plain "A3" copies merge into one "A+3" like any other pair. */
  lemma A3PairMerges(cards: seq<CardId>)
    requires CountExact(cards, "A3") == 2 && CountExact(cards, "A+3") == 0
    ensures CountExact(TryUpgradeACards(cards), "A3") == 0
    ensures CountExact(TryUpgradeACards(cards), "A+3") == 1
  {
    CountExactIn(cards, "A3");
    AIdsAreAIds(3);
    var c1 := MergePairs(cards, 1);
    var c2 := MergePairs(c1, 2);
    MergeOthers(cards, 1, 3);
    MergeOthers(c1, 2, 3);
    MergePairsCounts(c2, 3, "");
    MergeOthers(MergePairs(c2, 3), 4, 3);
  }

  // ---------------------------------------------------------------------------
  // Score multipliers

  /**
   * `computePerLineMultiplier`: each plain A1 multiplies by 1.08 and each A+1
   * by 1.40; each plain A2 by (1 + 0.03 e) and each A+2 by (1 + 0.15 e), where
   * e is the effective A count. Exact reals stand for the binary doubles.
   */
  function PerLineMultiplier(cards: seq<CardId>): (m: real)
    ensures m >= 1.0
    ensures PlainA(cards, 1) == 0 && PlusA(cards, 1) == 0 && PlainA(cards, 2) == 0 && PlusA(cards, 2) == 0 ==> m == 1.0
    ensures EffectiveA(cards) == 0 ==> m == 1.0
  {
    var eff := EffectiveA(cards) as real;
    var f1 := if PlainA(cards, 1) > 0 then Pow(1.0 + 0.08, PlainA(cards, 1)) else 1.0;
    var f2 := if PlusA(cards, 1) > 0 then Pow(1.0 + 0.08 * 5.0, PlusA(cards, 1)) else 1.0;
    var f3 := if PlainA(cards, 2) > 0 then Pow(1.0 + 0.03 * eff, PlainA(cards, 2)) else 1.0;
    var f4 := if PlusA(cards, 2) > 0 then Pow(1.0 + 0.03 * eff * 5.0, PlusA(cards, 2)) else 1.0;
    PowAtLeastOne(1.0 + 0.08, PlainA(cards, 1));
    PowAtLeastOne(1.0 + 0.08 * 5.0, PlusA(cards, 1));
    PowAtLeastOne(1.0 + 0.03 * eff, PlainA(cards, 2));
    PowAtLeastOne(1.0 + 0.03 * eff * 5.0, PlusA(cards, 2));
    ProductAtLeastOne(f1, f2);
    ProductAtLeastOne(f1 * f2, f3);
    ProductAtLeastOne(f1 * f2 * f3, f4);
    f1 * f2 * f3 * f4
  }

  /**
   * `computeA4LandingBonus`: 100 x level per A4 weight (plain 1, upgraded 5),
   * amplified by 15% per effective A card; 0 without any A4 or A+4.
   */
  function A4LandingBonus(cards: seq<CardId>, level: int): (b: real)
    ensures PlainA(cards, 4) == 0 && PlusA(cards, 4) == 0 ==> b == 0.0
    ensures level >= 0 ==> b >= 0.0
    ensures b == 0.0 <==> (PlainA(cards, 4) == 0 && PlusA(cards, 4) == 0) || level == 0
  {
    var weight := PlainA(cards, 4) * 1 + PlusA(cards, 4) * 5;
    if weight == 0 then 0.0
    else
      var basePerLine := (100 * level) as real;
      var amplify := 1.0 + 0.15 * EffectiveA(cards) as real;
      assert amplify >= 1.0;
      assert weight as real * amplify > 0.0;
      basePerLine * weight as real * amplify
  }

  /** `computeStarThreshold`: 12 minus the B3 count, never below 3. */
  function StarThreshold(cards: seq<CardId>): (t: int)
    ensures 3 <= t <= 12
    ensures BCount(cards, 3) == 0 ==> t == 12
  {
    Max(3, 12 - BCount(cards, 3))
  }

  /** `computeStarPointMultiplier`: 1.25 to the power of the B2 count. */
  function StarMultiplier(cards: seq<CardId>): (m: real)
    ensures m >= 1.0
  {
    PowAtLeastOne(1.25, BCount(cards, 2));
    Pow(1.25, BCount(cards, 2))
  }

  /** `id.replace('+', '')`: the identifier with its first "+" removed. */
  function RemoveFirstPlus(id: string): (r: string)
    ensures |r| == |id| || |r| == |id| - 1
    decreases |id|
  {
    if id == [] then [] else if id[0] == '+' then id[1..] else [id[0]] + RemoveFirstPlus(id[1..])
  }

  /** Some owned card has the same identifier once a "+" is dropped from each. */
  predicate HasBase(cards: seq<CardId>, id: CardId) {
    exists i :: 0 <= i < |cards| && RemoveFirstPlus(cards[i]) == RemoveFirstPlus(id)
  }
}

=== FILE: clear.dfy ===
/**
 * The line clear: the scan that collects the full rows, and the deferred body
 * that removes them and pays out the base score, the colour and marked-cell
 * tallies, the D1, sword, lucky-cat, E-card and pet follow-ups.
 */
module Clear {
  import opened Util
  import opened Board
  import opened Cards
  import opened Generator
  import opened Economy
  import opened Game

  // ---------------------------------------------------------------------------
  // Tallies over the collected row data

  /** Occupied cells of a row whose value satisfies f. */
  function RowWhere(row: seq<int>, f: int -> bool): (n: nat)
    ensures n <= RowCount(row)
    decreases |row|
  {
    if row == [] then 0
    else RowWhere(row[..|row| - 1], f) + (if row[|row| - 1] != 0 && f(row[|row| - 1]) then 1 else 0)
  }

  /** Occupied cells of a matrix whose value satisfies f. */
  function CellsWhere(m: Matrix, f: int -> bool): (n: nat)
    ensures n <= CellCount(m)
    decreases |m|
  {
    if m == [] then 0 else CellsWhere(m[..|m| - 1], f) + RowWhere(m[|m| - 1], f)
  }

  /** The test for one colour index as the clear decodes it. */
  function IsColor(c: int): int -> bool {
    v => DecodeColor(v) == c
  }

  /** `perColorRemoved[c]`. */
  function ColorCount(data: Matrix, c: int): nat {
    CellsWhere(data, IsColor(c))
  }

  /** `markedCleared`. */
  function MarkedCount(data: Matrix): nat {
    CellsWhere(data, v => DecodeMarked(v))
  }

  /** `blueCount`: blue cells, and orange ones while orange is the wildcard. */
  function BlueCount(data: Matrix, wild: bool): nat {
    ColorCount(data, 2) + (if wild then ColorCount(data, 3) else 0)
  }

  /** Every occupied cell decodes to one of the four colours. */
  predicate ColorsInRange(m: Matrix) {
    forall y, x :: 0 <= y < |m| && 0 <= x < |m[y]| && m[y][x] != 0 ==> 0 <= DecodeColor(m[y][x]) < 4
  }

  lemma {:induction false} RowColorsPartition(row: seq<int>)
    requires forall x :: 0 <= x < |row| && row[x] != 0 ==> 0 <= DecodeColor(row[x]) < 4
    ensures RowWhere(row, IsColor(0)) + RowWhere(row, IsColor(1)) + RowWhere(row, IsColor(2)) +
            RowWhere(row, IsColor(3)) == RowCount(row)
    decreases |row|
  {
    if row != [] {
      RowColorsPartition(row[..|row| - 1]);
    }
  }

  /** When every cell decodes to a colour, the four colour tallies add up to the removed blocks. */
  lemma {:induction false} ColorTalliesPartition(m: Matrix)
    requires ColorsInRange(m)
    ensures ColorCount(m, 0) + ColorCount(m, 1) + ColorCount(m, 2) + ColorCount(m, 3) == CellCount(m)
    decreases |m|
  {
    if m != [] {
      assert ColorsInRange(m[..|m| - 1]);
      ColorTalliesPartition(m[..|m| - 1]);
      RowColorsPartition(m[|m| - 1]);
    }
  }

  lemma {:induction false} RowWhereFull(row: seq<int>, f: int -> bool)
    requires forall x :: 0 <= x < |row| ==> row[x] != 0 && f(row[x])
    ensures RowWhere(row, f) == |row|
    decreases |row|
  {
    if row != [] {
      RowWhereFull(row[..|row| - 1], f);
    }
  }

  /** A row of cells merged from colour c, all marked: every tally counts each cell. */
  lemma MergedRowTallies(color: int, shapeId: int)
    requires 0 <= color < 4 && 1 <= shapeId <= 7
    ensures var row := seq(COLS, _ => Encode(color, shapeId, true));
      RowWhere(row, IsColor(color)) == COLS && RowWhere(row, v => DecodeMarked(v)) == COLS
  {
    EncodeDecode(color, shapeId, true);
    var row := seq(COLS, _ => Encode(color, shapeId, true));
    RowWhereFull(row, IsColor(color));
    RowWhereFull(row, v => DecodeMarked(v));
  }

  // ---------------------------------------------------------------------------
  // The scan

  /** The rows the clear collects: in range, and at most one entry per row. */
  predicate ValidRows(rows: seq<int>) {
    forall i :: 0 <= i < |rows| ==> 0 <= rows[i] < ROWS
  }

  /** A deferred effect: the line clear, the star explosion or the pet's eat. */
  datatype Pending = ClearRows(rows: seq<int>, data: Matrix) | Explosion | DinoEat

  /** The copies of the collected rows. */
  function RowsData(a: Matrix, rows: seq<int>): (d: Matrix)
    requires forall i :: 0 <= i < |rows| ==> 0 <= rows[i] < |a|
    ensures |d| == |rows| && forall i :: 0 <= i < |rows| ==> d[i] == a[rows[i]]
  {
    seq(|rows|, i requires 0 <= i < |rows| => a[rows[i]])
  }

  /**
   * The scan half of `sweep`: without a full row nothing happens; otherwise the
   * game pauses and the clear is scheduled with the full rows, bottom first,
   * and copies of them.
   */
  function Sweep(s: Session): (r: (Session, seq<Pending>))
    requires Wf(s)
    ensures FullRows(s.field.arena) == [] ==> r == (s, [])
    ensures FullRows(s.field.arena) != [] ==>
      r.0 == s.(flow := s.flow.(paused := true)) && |r.1| == 1 && r.1[0].ClearRows? &&
      r.1[0].rows == FullRows(s.field.arena) && ValidRows(r.1[0].rows) && |r.1[0].data| == |r.1[0].rows| &&
      forall i :: 0 <= i < |r.1[0].rows| ==> r.1[0].data[i] == s.field.arena[r.1[0].rows[i]]
  {
    var ys := FullRows(s.field.arena);
    if ys == [] then (s, [])
    else (s.(flow := s.flow.(paused := true)), [ClearRows(ys, RowsData(s.field.arena, ys))])
  }

  /** The clear's count of removed blocks is ten per collected row, since each was full. */
  lemma {:induction false} FullDataCount(data: Matrix)
    requires forall i :: 0 <= i < |data| ==> |data[i]| == COLS && RowFull(data[i])
    ensures CellCount(data) == COLS * |data|
    decreases |data|
  {
    if data != [] {
      FullDataCount(data[..|data| - 1]);
      RowCountFull(data[|data| - 1]);
    }
  }

  /** The scheduled clear removes exactly ten blocks per full row the scan found. */
  lemma SweepRemovesFullRows(s: Session)
    requires Wf(s) && FullRows(s.field.arena) != []
    ensures var p := Sweep(s).1[0];
      CellCount(p.data) == COLS * |FullRows(s.field.arena)|
  {
    var a := s.field.arena;
    var p := Sweep(s).1[0];
    forall i | 0 <= i < |p.data|
      ensures |p.data[i]| == COLS && RowFull(p.data[i])
    {
      assert p.data[i] == a[p.rows[i]];
    }
    FullDataCount(p.data);
  }

  // ---------------------------------------------------------------------------
  // Base score

  /** Tetris-style base points for the number of rows: 100, 300, 500, 800. */
  function LineBase(rowCount: int): (b: int)
    ensures rowCount <= 0 ==> b == 0
    ensures rowCount == 1 ==> b == 100
    ensures rowCount == 2 ==> b == 300
    ensures rowCount == 3 ==> b == 500
    ensures rowCount >= 4 ==> b == 800
  {
    if rowCount == 1 then 100 else if rowCount == 2 then 300 else if rowCount == 3 then 500
    else if rowCount >= 4 then 800 else 0
  }

  /** The clear's score gain: base times player level times the A-card multiplier, rounded down. */
  function ClearGain(cards: seq<CardId>, level: int, rowCount: int): (g: int)
    ensures level >= 0 ==> g >= LineBase(rowCount) * level
    ensures EffectiveA(cards) == 0 ==> g == LineBase(rowCount) * level
  {
    var n := LineBase(rowCount) * level;
    var m := PerLineMultiplier(cards);
    assert level >= 0 ==> n >= 0;
    FloorScaled(n, m);
    (n as real * m).Floor
  }

  // ---------------------------------------------------------------------------
  // The loops of the clear

  /** The lucky-cat loop: while the counter holds 100 blocks, take them off and gain a coin. */
  function LuckyLoop(p: Purse, counter: int): (r: (Purse, int))
    ensures r.1 < 100 && r.0.coins >= p.coins && r.0.maxHp == p.maxHp && r.0.items == p.items
    ensures counter < 100 ==> r == (p, counter)
    ensures HpInv(p) ==> HpInv(r.0)
    decreases counter
  {
    if counter >= 100 then LuckyLoop(Earn(p, 1), counter - 100) else (p, counter)
  }

  /** The lucky-cat loop pays one coin per whole hundred and keeps the remainder. */
  lemma {:induction false} LuckyLoopCloses(p: Purse, counter: int)
    ensures counter >= 0 ==> LuckyLoop(p, counter) == (EarnRepeat(p, counter / 100), counter % 100)
    decreases counter
  {
    if counter >= 100 {
      LuckyLoopCloses(Earn(p, 1), counter - 100);
      assert (counter - 100) / 100 == counter / 100 - 1;
      assert (counter - 100) % 100 == counter % 100;
    }
  }

  /** `startSniper`: arm the sniper and pause, unless it is armed already. */
  function StartSniper(s: Session): (r: Session)
    ensures r.effects.sniperActive
    ensures s.effects.sniperActive ==> r == s
    ensures !s.effects.sniperActive ==> r.flow.paused && r == s.(effects := r.effects, flow := r.flow)
  {
    if s.effects.sniperActive then s
    else s.(effects := s.effects.(sniperActive := true), flow := s.flow.(paused := true))
  }

  /** The E3 loop: while 15 marked cells are banked, take them off and arm the sniper. */
  function SniperLoop(s: Session): (r: Session)
    ensures r == s.(effects := s.effects.(totalMarked := r.effects.totalMarked, sniperActive := r.effects.sniperActive),
                    flow := s.flow.(paused := r.flow.paused))
    decreases s.effects.totalMarked
  {
    if s.effects.totalMarked >= 15 then
      var s1 := s.(effects := s.effects.(totalMarked := s.effects.totalMarked - 15));
      SniperLoop(StartSniper(s1))
    else s
  }

  /**
   * The E3 loop keeps the remainder modulo 15 and arms the sniper once when at
   * least 15 were banked; below 15 it does nothing.
   */
  lemma {:induction false} SniperLoopCloses(s: Session)
    ensures s.effects.totalMarked >= 0 ==> SniperLoop(s).effects.totalMarked == s.effects.totalMarked % 15
    ensures s.effects.totalMarked >= 15 ==> SniperLoop(s).effects.sniperActive
    ensures s.effects.totalMarked < 15 ==> SniperLoop(s) == s
    ensures SniperLoop(s).score == s.score && SniperLoop(s).field == s.field && SniperLoop(s).purse == s.purse
    decreases s.effects.totalMarked
  {
    if s.effects.totalMarked >= 15 {
      var s1 := s.(effects := s.effects.(totalMarked := s.effects.totalMarked - 15));
      var s2 := StartSniper(s1);
      SniperLoopCloses(s2);
      assert (s.effects.totalMarked - 15) % 15 == s.effects.totalMarked % 15;
      if s2.effects.totalMarked >= 15 {
        assert SniperLoop(s2).effects.sniperActive;
      }
    }
  }

  // ---------------------------------------------------------------------------
  // The deferred clear, stage by stage

  /** Removal and base score: rows spliced out in collection order, score, lines and level. */
  function ClearRemove(s: Session, rows: seq<int>): (r: Session)
    requires Wf(s) && ValidRows(rows)
    ensures Wf(r)
    ensures r.field == s.field.(arena := RemoveRows(s.field.arena, rows))
    ensures r.score == s.score + ClearGain(s.cards, s.level, |rows|)
    ensures r.lines == s.lines + |rows| && r.level == r.lines / 10 + 1
    ensures r == s.(field := r.field, score := r.score, lines := r.lines, level := r.level)
  {
    var lines := s.lines + |rows|;
    s.(field := s.field.(arena := RemoveRows(s.field.arena, rows)),
       score := s.score + ClearGain(s.cards, s.level, |rows|),
       lines := lines, level := lines / 10 + 1)
  }

  /** Task progress from a clear: removed cells of the task's colour, or cleared rows. */
  function ClearTaskProgress(t: Option<Task>, data: Matrix, rowCount: int): (r: Option<Task>)
    ensures t.None? ==> r.None?
    ensures t.Some? ==> r.Some? && r.value == t.value.(progress := r.value.progress)
    ensures t.Some? && t.value.kind.RemoveColor? && 0 <= t.value.kind.color < 4 ==>
      r.value.progress == t.value.progress + ColorCount(data, t.value.kind.color)
    ensures t.Some? && t.value.kind.ClearLines? ==> r.value.progress == t.value.progress + rowCount
    ensures t.Some? && !(t.value.kind.RemoveColor? && 0 <= t.value.kind.color < 4) && !t.value.kind.ClearLines? ==> r == t
  {
    match t
    case None => None
    case Some(task) =>
      match task.kind
      case RemoveColor(c) =>
        Some(task.(progress := task.progress + (if 0 <= c < 4 then ColorCount(data, c) else 0)))
      case ClearLines => Some(task.(progress := task.progress + rowCount))
      case _ => t
  }

  /** The lucky-cat counter: bank the removed blocks and gain a coin per 100 banked. */
  function LuckyCat(s: Session, removed: nat): (r: Session)
    ensures removed == 0 ==> r == s
    ensures HpInv(s.purse) ==> HpInv(r.purse)
    ensures r.purse.coins >= s.purse.coins
    ensures removed > 0 && s.effects.clearedBlocks >= 0 ==>
      r.effects.clearedBlocks == (s.effects.clearedBlocks + removed) % 100 &&
      r.purse == EarnRepeat(s.purse, (s.effects.clearedBlocks + removed) / 100)
    ensures r == s.(purse := r.purse, effects := s.effects.(clearedBlocks := r.effects.clearedBlocks))
  {
    if removed > 0 then
      var lucky := LuckyLoop(s.purse, s.effects.clearedBlocks + removed);
      LuckyLoopCloses(s.purse, s.effects.clearedBlocks + removed);
      s.(purse := lucky.0, effects := s.effects.(clearedBlocks := lucky.1))
    else s
  }

  /** A product of two counts. */
  function Times(a: nat, b: nat): (c: nat)
    ensures a == 0 || b == 0 ==> c == 0
    ensures b >= 1 ==> c >= a
  {
    a * b
  }

  /** Blue cells, with orange while it is the wildcard, are among the removed blocks. */
  lemma BlueAtMostCells(data: Matrix, wild: bool)
    ensures ColorsInRange(data) ==> BlueCount(data, wild) <= CellCount(data)
  {
    if ColorsInRange(data) {
      ColorTalliesPartition(data);
    }
  }

  /** The arithmetic of the two per-block bonuses, given blue = the bonus-bearing cells of the removed ones. */
  lemma BonusArith(blue: nat, cells: nat, d1: nat, swords: nat, bonus: nat)
    requires bonus == blue * 20 * d1 + cells * 50 * swords
    ensures bonus >= cells * 50 * swords
    ensures d1 == 0 || blue == 0 ==> bonus == cells * 50 * swords
    ensures blue <= cells ==> bonus <= cells * (20 * d1 + 50 * swords)
  {
    if blue <= cells {
      assert blue * (20 * d1) <= cells * (20 * d1);
    }
  }

  /**
   * D1's bonus per blue block and the sword's bonus per removed block: each
   * sword pays exactly 50 per removed block, and each D1 card at most 20 more.
   */
  function BlockBonus(cards: seq<CardId>, swords: nat, data: Matrix, wild: bool): (b: nat)
    ensures CountPrefix(cards, "D1") == 0 && swords == 0 ==> b == 0
    ensures b >= CellCount(data) * 50 * swords
    ensures CountPrefix(cards, "D1") == 0 ==> b == CellCount(data) * 50 * swords
    ensures ColorCount(data, 2) == 0 && (!wild || ColorCount(data, 3) == 0) ==> b == CellCount(data) * 50 * swords
    ensures ColorsInRange(data) ==>
      b <= CellCount(data) * (20 * CountPrefix(cards, "D1") + 50 * swords)
  {
    var d1 := CountPrefix(cards, "D1");
    var b := Times(BlueCount(data, wild) * 20, d1) + Times(CellCount(data) * 50, swords);
    BlueAtMostCells(data, wild);
    BonusArith(BlueCount(data, wild), CellCount(data), d1, swords, b);
    b
  }

  /** D1's blue bonus, the sword's per-block bonus and the lucky-cat coins. */
  function ClearBonuses(s: Session, data: Matrix): (r: Session)
    requires Wf(s)
    ensures Wf(r) && r.field == s.field
    ensures r.score == s.score + BlockBonus(s.cards, ItemCount(s.purse, IronSword), data, OrangeIsWildcard(s.field.colorWeights))
    ensures CellCount(data) == 0 ==> r == s
    ensures HpInv(s.purse) ==> HpInv(r.purse)
    ensures r == LuckyCat(s.(score := r.score), CellCount(data))
  {
    var wild := OrangeIsWildcard(s.field.colorWeights);
    var blue := BlueCount(data, wild);
    var d1 := CountPrefix(s.cards, "D1");
    var s1 := if d1 > 0 && blue > 0 then s.(score := s.score + Times(blue * 20, d1)) else s;
    var sword := ItemCount(s.purse, IronSword);
    var removed := CellCount(data);
    var s2 := if sword > 0 && removed > 0 then s1.(score := s1.score + Times(removed * 50, sword)) else s1;
    LuckyCat(s2, removed)
  }

  /** The E-card points per marked cell: 100 times (1 + 0.5 per E card). */
  function MarkGain(cards: seq<CardId>, marked: nat): (g: int)
    ensures g >= 100 * marked
    ensures CountPrefix(cards, "E") == 0 ==> g == 100 * marked
  {
    var f := 1.0 + 0.5 * CountPrefix(cards, "E") as real;
    FloorScaled(100 * marked, f);
    assert 100.0 * f * marked as real == (100 * marked) as real * f;
    (100.0 * f * marked as real).Floor
  }

  /**
   * The marked-cell effects: points, E2's raise of the mark chance, the banked
   * total, and with an E3 card one sniper per 15 banked.
   */
  function MarkEffects(s: Session, marked: nat): (r: Session)
    ensures marked == 0 ==> r == s
    ensures marked > 0 ==> r.score == s.score + MarkGain(s.cards, marked)
    ensures marked > 0 ==>
      r.effects.markSpawnBonus == s.effects.markSpawnBonus +
        (if CountPrefix(s.cards, "E2") > 0 then 0.01 * marked as real * CountPrefix(s.cards, "E2") as real else 0.0)
    ensures marked > 0 && CountPrefix(s.cards, "E3") == 0 ==> r.effects.totalMarked == s.effects.totalMarked + marked
    ensures marked > 0 && CountPrefix(s.cards, "E3") > 0 && s.effects.totalMarked >= 0 ==>
      r.effects.totalMarked == (s.effects.totalMarked + marked) % 15
    ensures r.field == s.field && r.purse == s.purse && r.cards == s.cards && r.dino == s.dino && r.task == s.task
    ensures r.lines == s.lines && r.level == s.level && r.effects.starLayers == s.effects.starLayers
  {
    if marked == 0 then s
    else
      var s1 := s.(score := s.score + MarkGain(s.cards, marked));
      var e2 := CountPrefix(s.cards, "E2");
      var s2 := if e2 > 0 then s1.(effects := s1.effects.(markSpawnBonus := s1.effects.markSpawnBonus + 0.01 * marked as real * e2 as real)) else s1;
      var s3 := s2.(effects := s2.effects.(totalMarked := s2.effects.totalMarked + marked));
      if CountPrefix(s.cards, "E3") > 0 then
        SniperLoopCloses(s3);
        SniperLoop(s3)
      else s3
  }

  /** The end of the clear: feed the pet, the height task, the level check, and resume. */
  function ClearFinish(s: Session, removed: nat): (r: Session)
    requires Wf(s)
    ensures Wf(r) && r.field == s.field && r.score == s.score
    ensures r.lines == s.lines && r.level == s.level && r.cards == s.cards && r.effects == s.effects
    ensures HpInv(s.purse) ==> HpInv(r.purse)
    ensures !r.flow.paused
    ensures s.dino.has && removed > 0 ==> (r.dino, r.purse) == Feed(s.dino, s.purse, s.cards, removed)
    ensures !(s.dino.has && removed > 0) ==> r.dino == s.dino && r.purse == s.purse
    ensures s.task.Some? && s.task.value.kind.ReachHeight? ==>
      r.task == Some(s.task.value.(progress := Max(s.task.value.progress, MaxColumnHeight(s.field.arena))))
    ensures !(s.task.Some? && s.task.value.kind.ReachHeight?) ==> r.task == s.task
    ensures s.score >= LevelTarget(s.flow.currentLevel) && s.flow.gameStarted ==> !r.flow.gameStarted
    ensures !(s.score >= LevelTarget(s.flow.currentLevel) && s.flow.gameStarted) ==> r.flow.gameStarted == s.flow.gameStarted
  {
    var s1 := if s.dino.has && removed > 0 then FeedDino(s, removed) else s;
    var s2 :=
      if s1.task.Some? && s1.task.value.kind.ReachHeight? then
        s1.(task := Some(s1.task.value.(progress := Max(s1.task.value.progress, MaxColumnHeight(s1.field.arena)))))
      else s1;
    var s3 := CheckLevelProgress(s2);
    s3.(flow := s3.flow.(paused := false))
  }

  /**
   * The deferred body of `sweep`: remove the collected rows in order and score
   * them, then the tallies of the copied row data drive the task, the bonuses,
   * the marked-cell effects and the pet; the game resumes.
   */
  function ResolveClear(s: Session, rows: seq<int>, data: Matrix): (r: Session)
    requires Wf(s) && ValidRows(rows)
    ensures Wf(r)
    ensures r.field == s.field.(arena := RemoveRows(s.field.arena, rows))
    ensures r.lines == s.lines + |rows| && r.level == r.lines / 10 + 1
    ensures s.level >= 0 ==> r.score >= s.score + LineBase(|rows|) * s.level
    ensures s.level >= 0 ==> r.score >= s.score + LineBase(|rows|) * s.level + MarkedCount(data) * 100
    ensures r.cards == s.cards && !r.flow.paused && r.effects.starLayers == s.effects.starLayers
    ensures HpInv(s.purse) ==> HpInv(r.purse)
  {
    var s1 := ClearRemove(s, rows);
    var s2 := s1.(task := ClearTaskProgress(s1.task, data, |rows|));
    var s3 := ClearBonuses(s2, data);
    var s4 := MarkEffects(s3, MarkedCount(data));
    ClearFinish(s4, CellCount(data))
  }

  /**
   * Clearing a single full row removes it: the rows above move down by one, the
   * rows below stay, and an empty row enters at the top.
   */
  lemma ResolveSingleRow(s: Session)
    requires Wf(s) && |FullRows(s.field.arena)| == 1
    ensures var y := FullRows(s.field.arena)[0];
      var a := ResolveClear(s, [y], [s.field.arena[y]]).field.arena;
      a[0] == EmptyRow() &&
      (forall i :: 0 <= i < y ==> a[i + 1] == s.field.arena[i]) &&
      (forall i :: y < i < ROWS ==> a[i] == s.field.arena[i])
  {
    var y := FullRows(s.field.arena)[0];
    assert 0 <= y < ROWS;
    assert RemoveRows(s.field.arena, [y]) == RemoveRow(s.field.arena, y);
    RemoveRowShifts(s.field.arena, y);
  }

  /**
   * When the collected rows lie at or below their rank from the top (in
   * particular when rows 0 .. k-1 are not full), the clear leaves its top
   * rowCount rows empty.
   */
  lemma ResolveClearTopEmpty(s: Session, rows: seq<int>, data: Matrix)
    requires Wf(s) && ValidRows(rows)
    requires forall i :: 0 <= i < |rows| ==> rows[i] >= i
    ensures TopEmpty(ResolveClear(s, rows, data).field.arena, |rows|)
  {
    RemoveRowsTopEmpty(s.field.arena, rows, 0);
  }
}

=== FILE: economy.dfy ===
/**
 * Coins, health and items (the purse), and the pet with its feeding
 * milestones: the parts of a run that card and item effects pay into.
 */
module Economy {
  import opened Util
  import opened Cards

  /** Coins, health, maximum health and the item counts `playerItems`. */
  datatype Purse = Purse(coins: int, hp: int, maxHp: int, items: map<string, nat>)

  const IronSword: string := "iron_sword"
  const IronShield: string := "iron_shield"
  const GemPendant: string := "gem_pendant"
  const ValuableEarring: string := "valuable_earring"
  const HorrorMask: string := "horror_mask"
  const GoldenChalice: string := "golden_chalice"
  const Hourglass: string := "hourglass"

  /** `playerItems[id] || 0`. */
  function ItemCount(p: Purse, id: string): nat {
    if id in p.items then p.items[id] else 0
  }

  /** Health within its bounds. */
  predicate HpInv(p: Purse) {
    0 <= p.hp <= p.maxHp
  }

  // ---------------------------------------------------------------------------
  // Coins

  /** `addCoins(n)`: the coins, and one heal per earring capped at the maximum. */
  function Earn(p: Purse, n: int): (r: Purse)
    ensures r.coins == p.coins + n && r.maxHp == p.maxHp && r.items == p.items
    ensures ItemCount(p, ValuableEarring) == 0 ==> r.hp == p.hp
    ensures ItemCount(p, ValuableEarring) > 0 ==> r.hp == Min(p.maxHp, p.hp + ItemCount(p, ValuableEarring))
    ensures HpInv(p) ==> HpInv(r)
  {
    p.(coins := p.coins + n, hp := EarringHeal(p))
  }

  /** The earring's heal on every coin gain: one per earring, capped at the maximum. */
  function EarringHeal(p: Purse): int {
    var e := ItemCount(p, ValuableEarring);
    if e > 0 then Min(p.maxHp, p.hp + e) else p.hp
  }

  /** k calls of `addCoins(1)`, as the lucky-cat loop makes them. */
  function EarnRepeat(p: Purse, k: nat): Purse
    decreases k
  {
    if k == 0 then p else EarnRepeat(Earn(p, 1), k - 1)
  }

  /**
   * k single-coin gains add k coins and heal k times the earring count, capped
   * at the maximum, and touch nothing else.
   */
  lemma {:induction false} EarnRepeatSum(p: Purse, k: nat)
    requires p.hp <= p.maxHp
    ensures EarnRepeat(p, k).coins == p.coins + k
    ensures EarnRepeat(p, k).hp ==
      if k == 0 || ItemCount(p, ValuableEarring) == 0 then p.hp
      else Min(p.maxHp, p.hp + k * ItemCount(p, ValuableEarring))
    ensures EarnRepeat(p, k).maxHp == p.maxHp && EarnRepeat(p, k).items == p.items
    decreases k
  {
    if k > 0 {
      var q := Earn(p, 1);
      var e := ItemCount(p, ValuableEarring);
      assert ItemCount(q, ValuableEarring) == e;
      EarnRepeatSum(q, k - 1);
      if e > 0 && k > 1 {
        CappedHealStep(p.hp, p.maxHp, e, k - 1);
      }
    }
  }

  /** Healing by e capped at m, then k more times by e capped at m, is healing by (k + 1) * e capped once. */
  lemma CappedHealStep(h: int, m: int, e: nat, k: nat)
    requires h <= m
    ensures Min(m, Min(m, h + e) + k * e) == Min(m, h + (k + 1) * e)
  {
    assert (k + 1) * e == k * e + e;
  }

  /**
   * `spendCoins(n)`: refused without enough coins; otherwise pay, and get
   * floor(n / 5) back per chalice through `addCoins`.
   */
  function Spend(p: Purse, n: int): (r: (Purse, bool))
    ensures r.1 <==> p.coins >= n
    ensures !r.1 ==> r.0 == p
    ensures r.1 && (n / 5) * ItemCount(p, GoldenChalice) <= 0 ==> r.0 == p.(coins := p.coins - n)
    ensures r.1 && (n / 5) * ItemCount(p, GoldenChalice) > 0 ==>
      r.0.coins == p.coins - n + (n / 5) * ItemCount(p, GoldenChalice)
    ensures r.1 && p.coins >= 0 && n >= 0 ==> r.0.coins >= 0
    ensures HpInv(p) ==> HpInv(r.0)
  {
    if p.coins < n then (p, false)
    else
      var p1 := p.(coins := p.coins - n);
      var refund := (n / 5) * ItemCount(p, GoldenChalice);
      (if refund > 0 then Earn(p1, refund) else p1, true)
  }

  /** Six chalices refund more than a 5-coin price: the purchase leaves more coins than before. */
  lemma ChaliceRefundCanExceedPrice(p: Purse)
    requires ItemCount(p, GoldenChalice) == 6 && p.coins >= 5
    ensures Spend(p, 5).1 && Spend(p, 5).0.coins == p.coins + 1
  {
  }

  // ---------------------------------------------------------------------------
  // Items

  /** One more copy of an item. */
  function CountItem(p: Purse, id: string): (r: Purse)
    ensures ItemCount(r, id) == ItemCount(p, id) + 1
    ensures forall other :: other != id ==> ItemCount(r, other) == ItemCount(p, other)
    ensures r == p.(items := r.items)
  {
    p.(items := p.items[id := ItemCount(p, id) + 1])
  }

  /**
   * The purse part of `applyItem(id)`: one more copy, then the pendant's +20
   * maximum and heal, or the mask's -20 maximum (at least 10) and 5 coins.
   */
  function ItemEffect(p: Purse, id: string): (r: Purse)
    ensures ItemCount(r, id) == ItemCount(p, id) + 1
    ensures forall other :: other != id ==> ItemCount(r, other) == ItemCount(p, other)
    ensures HpInv(p) && p.maxHp >= 10 ==> HpInv(r) && r.maxHp >= 10
    ensures id == GemPendant ==> r.maxHp == (if p.maxHp == 0 then 100 else p.maxHp) + 20 && r.coins == p.coins
    ensures id == HorrorMask ==> r.maxHp == Max(10, (if p.maxHp == 0 then 100 else p.maxHp) - 20) && r.coins == p.coins + 5
    ensures id == HorrorMask && ItemCount(p, ValuableEarring) == 0 ==> r.hp == Min(p.hp, r.maxHp)
    ensures id != GemPendant && id != HorrorMask ==> r == CountItem(p, id)
  {
    var p1 := CountItem(p, id);
    if id == GemPendant then
      var m := (if p1.maxHp == 0 then 100 else p1.maxHp) + 20;
      p1.(maxHp := m, hp := Min(m, (if p1.hp == 0 then m else p1.hp) + 20))
    else if id == HorrorMask then
      var m := Max(10, (if p1.maxHp == 0 then 100 else p1.maxHp) - 20);
      Earn(p1.(maxHp := m, hp := Min(p1.hp, m)), 5)
    else p1
  }

  /** The pendant raises a positive health by 20, up to the raised maximum. */
  lemma GemPendantHeals(p: Purse)
    requires HpInv(p) && p.hp > 0 && p.maxHp > 0
    ensures ItemEffect(p, GemPendant).hp == Min(p.maxHp + 20, p.hp + 20) == p.hp + 20
  {
  }

  // ---------------------------------------------------------------------------
  // The pet

  /** The pet: whether it exists, total feeds, stage 0..2, landings seen, badge, coin and heal milestones. */
  datatype Dino = Dino(has: bool, feed: int, stage: int, landings: int, badge: bool, lastC2: int, lastC3: int)

  /** The stage a pet reaches with a given number of feeds. */
  function StageOf(feed: int): int {
    if feed >= 200 then 2 else if feed >= 50 then 1 else 0
  }

  /** What the pet's counters always satisfy. */
  predicate DinoInv(d: Dino) {
    d.has ==>
      d.feed >= 0 && d.stage == StageOf(d.feed) && (d.badge <==> d.stage == 2) &&
      0 <= d.lastC2 <= d.feed / 50 && 0 <= d.lastC3 <= d.feed / 30 && d.landings >= 0
  }

  /** `ensureDino`: a fresh pet if none exists, otherwise nothing. */
  function EnsureDino(d: Dino): (r: Dino)
    ensures r.has && (DinoInv(d) ==> DinoInv(r))
    ensures d.has ==> r == d
    ensures !d.has ==> r.feed == 0 && r.stage == 0 && !r.badge
  {
    if d.has then d else Dino(true, 0, 0, 0, false, 0, 0)
  }

  /** The stage and badge after feeding: evolve at 50 and 200 feeds, the badge with stage 2. */
  function Evolve(d: Dino, f: int): (r: Dino)
    ensures r == d.(feed := f, stage := r.stage, badge := r.badge)
    ensures d.stage >= 0 ==> r.stage >= d.stage
  {
    var st1 := if d.stage < 1 && f >= 50 then 1 else d.stage;
    var badge := if st1 < 2 && f >= 200 then true else d.badge;
    var st2 := if st1 < 2 && f >= 200 then 2 else st1;
    d.(feed := f, stage := st2, badge := badge)
  }

  /** Feeding a well-formed pet more brings stage and badge to the new feed count and keeps its milestones below it. */
  lemma EvolveKeeps(d: Dino, f: int)
    ensures d.has && DinoInv(d) && f >= d.feed ==>
      Evolve(d, f).stage == StageOf(f) && (Evolve(d, f).badge <==> Evolve(d, f).stage == 2) &&
      0 <= d.lastC2 <= f / 50 && 0 <= d.lastC3 <= f / 30
  {
    if d.has && DinoInv(d) && f >= d.feed {
      assert d.feed / 50 <= f / 50 && d.feed / 30 <= f / 30;
    }
  }

  /**
   * `dinoFeed(n)`: add feeds and evolve, pay one coin per new multiple of 50
   * feeds while a C2 card is owned and heal 5 per new multiple of 30 while a
   * C3 card is owned.
   */
  function Feed(d: Dino, p: Purse, cards: seq<CardId>, n: int): (r: (Dino, Purse))
    ensures !d.has ==> r == (d, p)
    ensures d.has ==> r.0.has && r.0.feed == d.feed + n && r.0.landings == d.landings
    ensures d.has && n >= 0 && DinoInv(d) ==> DinoInv(r.0) && r.1.coins >= p.coins
    ensures CountPrefix(cards, "C2") == 0 ==> r.1.coins == p.coins
    ensures r.1.maxHp == p.maxHp && r.1.items == p.items
    ensures HpInv(p) ==> HpInv(r.1)
  {
    if !d.has then (d, p)
    else
      var f := d.feed + n;
      var d1 := Evolve(d, f);
      EvolveKeeps(d, f);
      var c2 := PayC2(d1, p, cards, f);
      HealC3(c2.0, c2.1, cards, f)
  }

  /** The C2 step of a feed: one coin per multiple of 50 feeds not yet paid, while a C2 card is owned. */
  function PayC2(d: Dino, p: Purse, cards: seq<CardId>, f: int): (r: (Dino, Purse))
    ensures r.0 == d.(lastC2 := r.0.lastC2) && r.1.maxHp == p.maxHp && r.1.items == p.items
    ensures CountPrefix(cards, "C2") > 0 ==>
      r.0.lastC2 == Max(d.lastC2, f / 50) && r.1.coins == p.coins + Max(0, f / 50 - d.lastC2)
    ensures CountPrefix(cards, "C2") == 0 ==> r == (d, p)
    ensures HpInv(p) ==> HpInv(r.1)
  {
    var m := f / 50;
    if CountPrefix(cards, "C2") > 0 && m > d.lastC2 then (d.(lastC2 := m), Earn(p, m - d.lastC2)) else (d, p)
  }

  /** The C3 step of a feed: 5 health per multiple of 30 feeds not yet healed, while a C3 card is owned. */
  function HealC3(d: Dino, p: Purse, cards: seq<CardId>, f: int): (r: (Dino, Purse))
    ensures r.0 == d.(lastC3 := r.0.lastC3) && r.1 == p.(hp := r.1.hp)
    ensures CountPrefix(cards, "C3") > 0 ==> r.0.lastC3 == Max(d.lastC3, f / 30)
    ensures CountPrefix(cards, "C3") > 0 && p.hp <= p.maxHp ==>
      r.1.hp == Min(p.maxHp, p.hp + 5 * Max(0, f / 30 - d.lastC3))
    ensures CountPrefix(cards, "C3") == 0 ==> r == (d, p)
    ensures HpInv(p) ==> HpInv(r.1)
  {
    var m := f / 30;
    if CountPrefix(cards, "C3") > 0 && m > d.lastC3 then
      (d.(lastC3 := m), p.(hp := Min(p.maxHp, p.hp + 5 * (m - d.lastC3))))
    else (d, p)
  }

  /** Feeding a, then b. */
  function FeedTwice(d: Dino, p: Purse, cards: seq<CardId>, a: int, b: int): (Dino, Purse) {
    var one := Feed(d, p, cards, a);
    Feed(one.0, one.1, cards, b)
  }

  /**
   * Feeding a and then b pays the same coins and leaves the same feed count,
   * stage, badge and milestones as feeding a + b at once.
   */
  lemma FeedAdditive(d: Dino, p: Purse, cards: seq<CardId>, a: nat, b: nat)
    requires d.has && DinoInv(d)
    ensures FeedTwice(d, p, cards, a, b).1.coins == Feed(d, p, cards, a + b).1.coins
    ensures FeedTwice(d, p, cards, a, b).0.feed == Feed(d, p, cards, a + b).0.feed
    ensures FeedTwice(d, p, cards, a, b).0.stage == Feed(d, p, cards, a + b).0.stage
    ensures FeedTwice(d, p, cards, a, b).0.badge == Feed(d, p, cards, a + b).0.badge
    ensures FeedTwice(d, p, cards, a, b).0.lastC2 == Feed(d, p, cards, a + b).0.lastC2
    ensures FeedTwice(d, p, cards, a, b).0.lastC3 == Feed(d, p, cards, a + b).0.lastC3
  {
    var one := Feed(d, p, cards, a);
    assert FeedTwice(d, p, cards, a, b) == Feed(one.0, one.1, cards, b);
    SameFeedSameStage(FeedTwice(d, p, cards, a, b).0, Feed(d, p, cards, a + b).0);
    FeedCoinsAdditive(d, p, cards, a, b);
    FeedC2Additive(d, p, cards, a, b);
    FeedC3Additive(d, p, cards, a, b);
  }

  lemma FeedCoinsAdditive(d: Dino, p: Purse, cards: seq<CardId>, a: nat, b: nat)
    requires d.has && DinoInv(d)
    ensures FeedTwice(d, p, cards, a, b).1.coins == Feed(d, p, cards, a + b).1.coins
  {
    if CountPrefix(cards, "C2") > 0 {
      var one := Feed(d, p, cards, a);
      FeedC2Coins(d, p, cards, a, b, one, Feed(one.0, one.1, cards, b), Feed(d, p, cards, a + b));
    }
  }

  /** The C2 case of the coin additivity, on named results. */
  lemma FeedC2Coins(d: Dino, p: Purse, cards: seq<CardId>, a: nat, b: nat, one: (Dino, Purse), two: (Dino, Purse), r: (Dino, Purse))
    requires d.has && DinoInv(d) && CountPrefix(cards, "C2") > 0
    requires one == Feed(d, p, cards, a) && two == Feed(one.0, one.1, cards, b) && r == Feed(d, p, cards, a + b)
    ensures two.1.coins == r.1.coins
  {
    FeedClosed(d, p, cards, a, d.feed + a);
    FeedClosed(one.0, one.1, cards, b, d.feed + a + b);
    FeedClosed(d, p, cards, a + b, d.feed + a + b);
    CoinsChain(p.coins, one.1.coins, two.1.coins, d.lastC2, one.0.lastC2, (d.feed + a) / 50, (d.feed + a + b) / 50);
  }

  /** Paying up to milestone q1 and then up to q2 >= q1 pays as much as paying up to q2 at once. */
  lemma CoinsChain(c0: int, c1: int, c2: int, l0: int, l1: int, q1: int, q2: int)
    requires q1 <= q2 && l1 == Max(l0, q1)
    requires c1 == c0 + Max(0, q1 - l0) && c2 == c1 + Max(0, q2 - l1)
    ensures c2 == c0 + Max(0, q2 - l0)
  {
  }

  lemma FeedC2Additive(d: Dino, p: Purse, cards: seq<CardId>, a: nat, b: nat)
    requires d.has && DinoInv(d)
    ensures FeedTwice(d, p, cards, a, b).0.lastC2 == Feed(d, p, cards, a + b).0.lastC2
  {
    var one := Feed(d, p, cards, a);
    var f1, f2 := d.feed + a, d.feed + a + b;
    FeedClosed(d, p, cards, a, f1);
    FeedClosed(one.0, one.1, cards, b, f2);
    FeedClosed(d, p, cards, a + b, f2);
    MaxChain(d.lastC2, f1 / 50, f2 / 50);
  }

  lemma FeedC3Additive(d: Dino, p: Purse, cards: seq<CardId>, a: nat, b: nat)
    requires d.has && DinoInv(d)
    ensures FeedTwice(d, p, cards, a, b).0.lastC3 == Feed(d, p, cards, a + b).0.lastC3
  {
    var one := Feed(d, p, cards, a);
    var f1, f2 := d.feed + a, d.feed + a + b;
    FeedClosed(d, p, cards, a, f1);
    FeedClosed(one.0, one.1, cards, b, f2);
    FeedClosed(d, p, cards, a + b, f2);
    MaxChain(d.lastC3, f1 / 30, f2 / 30);
  }

  /** Two well-formed pets with the same number of feeds have the same stage and badge. */
  lemma SameFeedSameStage(x: Dino, y: Dino)
    requires DinoInv(x) && DinoInv(y) && x.has && y.has && x.feed == y.feed
    ensures x.stage == y.stage && x.badge == y.badge
  {
  }

  /** Raising a milestone to q1 and then to q2 >= q1 is raising it to q2, and the steps paid add up. */
  lemma MaxChain(l: int, q1: int, q2: int)
    requires q1 <= q2
    ensures Max(Max(l, q1), q2) == Max(l, q2)
    ensures Max(0, q1 - l) + Max(0, q2 - Max(l, q1)) == Max(0, q2 - l)
  {
  }

  /** One feed in closed form, with f the new feed count: the milestones move up to its multiples, and C2 pays one coin per milestone passed. */
  lemma FeedClosed(d: Dino, p: Purse, cards: seq<CardId>, n: int, f: int)
    requires d.has && f == d.feed + n
    ensures Feed(d, p, cards, n).0.feed == f
    ensures CountPrefix(cards, "C2") > 0 ==>
      Feed(d, p, cards, n).0.lastC2 == Max(d.lastC2, f / 50) &&
      Feed(d, p, cards, n).1.coins == p.coins + Max(0, f / 50 - d.lastC2)
    ensures CountPrefix(cards, "C2") == 0 ==>
      Feed(d, p, cards, n).0.lastC2 == d.lastC2 && Feed(d, p, cards, n).1.coins == p.coins
    ensures CountPrefix(cards, "C3") > 0 ==> Feed(d, p, cards, n).0.lastC3 == Max(d.lastC3, f / 30)
    ensures CountPrefix(cards, "C3") == 0 ==> Feed(d, p, cards, n).0.lastC3 == d.lastC3
  {
  }
}

=== FILE: game.dfy ===
/**
 * The session state of a run and the operations on it that do not move
 * blocks: coins and items, the pet, collecting a card, level targets and the
 * failure penalty, the clear bonus of the Superman character, tasks, and the
 * piece reset that hands over the next piece.
 */
module Game {
  import opened Util
  import opened Board
  import opened Cards
  import opened Piece
  import opened Generator
  import opened Economy

  datatype Character = Superman | Cowboy | Hunter

  /** The board side of a run; `next` is the preview piece's shape id and colour. */
  datatype Field = Field(arena: Matrix, player: Player, next: Option<(int, int)>, streak: Streak, colorWeights: seq<int>)

  /** The counters of the star, mark, sniper and drop-colour effects. */
  datatype Effects = Effects(
    starLayers: int,
    explosionInProgress: bool,
    clearedBlocks: int,
    markSpawnBonus: real,
    totalMarked: int,
    sniperActive: bool,
    lastDropColor: Option<int>,
    dropConsec: int)

  /** Level flow: the level played, run state, failure and success streaks, the snapshot and the clock. */
  datatype Flow = Flow(
    currentLevel: int,
    gameStarted: bool,
    paused: bool,
    failAttempts: int,
    consecutive: int,
    snapshotScore: int,
    snapshotLines: int,
    timeLimit: int,
    timeLeft: int,
    timerRunning: bool)

  /** The state of a run. */
  datatype Session = Session(
    field: Field,
    score: int,
    level: int,
    lines: int,
    purse: Purse,
    cards: seq<CardId>,
    dino: Dino,
    effects: Effects,
    task: Option<Task>,
    nextTaskIncludesCard: bool,
    flow: Flow,
    character: Character,
    shopLevel: int,
    testClass: Option<CardType>)

  /** The shape of every session the game produces. */
  predicate Wf(s: Session) {
    IsArena(s.field.arena) && |s.field.colorWeights| == 4 &&
    (s.field.next.Some? ==> 1 <= s.field.next.value.0 <= 7 && 0 <= s.field.next.value.1 < 4)
  }

  /** `addCoins(n)` on the session. */
  function AddCoins(s: Session, n: int): (r: Session)
    ensures r.purse.coins == s.purse.coins + n
    ensures r == s.(purse := r.purse)
    ensures HpInv(s.purse) ==> HpInv(r.purse)
  {
    s.(purse := Earn(s.purse, n))
  }

  /** `dinoFeed(n)` on the session. */
  function FeedDino(s: Session, n: int): (r: Session)
    ensures r == s.(dino := r.dino, purse := r.purse)
    ensures (r.dino, r.purse) == Feed(s.dino, s.purse, s.cards, n)
  {
    var f := Feed(s.dino, s.purse, s.cards, n);
    s.(dino := f.0, purse := f.1)
  }

  // ---------------------------------------------------------------------------
  // Items

  /** `applyItem(id)`: one more copy and the immediate effect; the hourglass adds 15 s to the level clock. */
  function ApplyItem(s: Session, id: string): (r: Session)
    ensures r.purse == ItemEffect(s.purse, id)
    ensures id == Hourglass ==> r.flow.timeLimit == (if s.flow.timeLimit == 0 then 90 else s.flow.timeLimit) + 15
    ensures id == Hourglass ==> r.flow.timeLeft == r.flow.timeLimit
    ensures id != Hourglass ==> r.flow == s.flow
    ensures r == s.(purse := r.purse, flow := r.flow)
  {
    var s1 := s.(purse := ItemEffect(s.purse, id));
    if id == Hourglass then
      var l := (if s.flow.timeLimit == 0 then 90 else s.flow.timeLimit) + 15;
      s1.(flow := s.flow.(timeLimit := l, timeLeft := l))
    else s1
  }

  /** `addItem(id)`: counts one copy and then applies the item, which counts another. */
  function AddItem(s: Session, id: string): (r: Session)
    ensures HpInv(s.purse) && s.purse.maxHp >= 10 ==> HpInv(r.purse) && r.purse.maxHp >= 10
    ensures r == s.(purse := r.purse, flow := r.flow)
  {
    ApplyItem(s.(purse := CountItem(s.purse, id)), id)
  }

  /** Every item bought counts twice, so passive effects scale with twice the purchases. */
  lemma AddItemCountsTwice(s: Session, id: string)
    ensures ItemCount(AddItem(s, id).purse, id) == ItemCount(s.purse, id) + 2
    ensures forall other :: other != id ==> ItemCount(AddItem(s, id).purse, other) == ItemCount(s.purse, other)
  {
  }

  // ---------------------------------------------------------------------------
  // Cards

  /** Colour index 3 stands in for the others when its weight is strictly the largest. */
  predicate OrangeIsWildcard(w: seq<int>)
    requires |w| == 4
  {
    w[3] > Max(w[0], Max(w[1], w[2]))
  }

  /** The colour weight a D card of number n raises: D1 blue, D2 red, D3 green, D4 orange. */
  function DColor(n: int): int
    requires 1 <= n <= 4
  {
    if n == 1 then 2 else if n == 2 then 0 else if n == 3 then 1 else 3
  }

  /** The effect of a C card on the pet: C1 creates or feeds 5, C4 creates and feeds 40 before the badge. */
  function CCardEffect(d: Dino, p: Purse, cards: seq<CardId>, num: int): (r: (Dino, Purse))
    ensures DinoInv(d) ==> DinoInv(r.0) && r.1.coins >= p.coins
    ensures num == 1 || num == 4 ==> r.0.has
    ensures num == 1 && !d.has ==> r == (EnsureDino(d), p)
    ensures num == 1 && d.has ==> r == Feed(d, p, cards, 5)
    ensures num == 4 && DinoInv(d) ==> r.0.feed >= (if d.has then d.feed else 0)
    ensures num != 1 && num != 4 ==> r == (d, p)
    ensures HpInv(p) ==> HpInv(r.1)
  {
    var (d3, p3) := if num == 1 then (if !d.has then (EnsureDino(d), p) else Feed(d, p, cards, 5)) else (d, p);
    if num == 4 then
      var e := EnsureDino(d3);
      if !e.badge then Feed(e, p3, cards, 40) else (e, p3)
    else (d3, p3)
  }

  /**
   * `applyCardEffect(id)`: a coin for a new base identifier, the card joins the
   * collection, then the C or D effect, then the A upgrade merge. A C
   * identifier that does not parse stops before the merge.
   */
  function ApplyCardEffect(s: Session, id: CardId): (r: Session)
    requires |s.field.colorWeights| == 4
    ensures |r.field.colorWeights| == 4
    ensures forall k :: 0 <= k < 4 ==> r.field.colorWeights[k] >= s.field.colorWeights[k]
    ensures Keep(r.cards) == Keep(s.cards + [id])
    ensures EffectiveA(r.cards) == EffectiveA(s.cards + [id])
    ensures !HasBase(s.cards, id) && DinoInv(s.dino) ==> r.purse.coins >= s.purse.coins + 1
    ensures DinoInv(s.dino) ==> DinoInv(r.dino) && r.purse.coins >= s.purse.coins
    ensures r == s.(field := r.field, purse := r.purse, cards := r.cards, dino := r.dino)
    ensures r.field == s.field.(colorWeights := r.field.colorWeights)
    ensures HpInv(s.purse) ==> HpInv(r.purse)
    ensures !(|id| > 0 && id[0] == 'C') ==>
      r.dino == s.dino && r.purse == (if HasBase(s.cards, id) then s.purse else Earn(s.purse, 1))
    ensures |id| > 0 && id[0] == 'C' && ParseCard(id).Some? ==>
      (r.dino, r.purse) == CCardEffect(s.dino, if HasBase(s.cards, id) then s.purse else Earn(s.purse, 1),
                                       s.cards + [id], ParseCard(id).value.num)
    ensures !(|id| > 0 && id[0] == 'D') ==> r.field.colorWeights == s.field.colorWeights
    ensures MergeSkipped(id) ==> r.cards == s.cards + [id]
    ensures !MergeSkipped(id) ==> r.cards == TryUpgradeACards(s.cards + [id])
  {
    var s1 := if !HasBase(s.cards, id) then AddCoins(s, 1) else s;
    var s2 := s1.(cards := s1.cards + [id]);
    UpgradeKeeps(s2.cards);
    var e := CardSideEffect(s2.dino, s2.purse, s2.cards, s2.field.colorWeights, id);
    var cards := if MergeSkipped(id) then s2.cards else TryUpgradeACards(s2.cards);
    s2.(dino := e.0, purse := e.1, field := s2.field.(colorWeights := e.2), cards := cards)
  }

  /** A C identifier that does not parse returns before the A upgrade merge. */
  predicate MergeSkipped(id: CardId) {
    |id| > 0 && id[0] == 'C' && ParseCard(id).None?
  }

  /**
   * The category effect of a collected card on the pet, the purse and the
   * colour weights: a parsed C card runs its pet effect, a parsed D card of
   * number 1..4 adds 10 to its colour's weight, and anything else changes nothing.
   */
  function CardSideEffect(d: Dino, p: Purse, cards: seq<CardId>, w: seq<int>, id: CardId): (r: (Dino, Purse, seq<int>))
    requires |w| == 4
    ensures |r.2| == 4 && forall k :: 0 <= k < 4 ==> r.2[k] >= w[k]
    ensures DinoInv(d) ==> DinoInv(r.0) && r.1.coins >= p.coins
    ensures HpInv(p) ==> HpInv(r.1)
    ensures !(|id| > 0 && id[0] == 'C') ==> r.0 == d && r.1 == p
    ensures !(|id| > 0 && id[0] == 'D') ==> r.2 == w
    ensures |id| > 0 && id[0] == 'C' && ParseCard(id).Some? ==> (r.0, r.1) == CCardEffect(d, p, cards, ParseCard(id).value.num)
  {
    if |id| > 0 && id[0] == 'C' && ParseCard(id).Some? then
      var e := CCardEffect(d, p, cards, ParseCard(id).value.num);
      (e.0, e.1, w)
    else if |id| > 0 && id[0] == 'D' && ParseCard(id).Some? && 1 <= ParseCard(id).value.num <= 4 then
      var n := ParseCard(id).value.num;
      (d, p, w[DColor(n) := w[DColor(n)] + 10])
    else (d, p, w)
  }

  /** The merge keeps every non-A card in order and the effective A count, with or without A3. */
  lemma UpgradeKeeps(cards: seq<CardId>)
    ensures Keep(TryUpgradeACards(cards)) == Keep(cards)
    ensures EffectiveA(TryUpgradeACards(cards)) == EffectiveA(cards)
  {
    if "A3" in cards {
      UpgradeInvariants(cards);
    }
  }

  /** A D card of number 1..4 adds 10 to exactly its colour's weight. */
  lemma DCardRaisesItsColor(s: Session, n: int)
    requires |s.field.colorWeights| == 4 && 1 <= n <= 4
    ensures var r := ApplyCardEffect(s, ['D', DigitChar(n)]);
      r.field.colorWeights[DColor(n)] == s.field.colorWeights[DColor(n)] + 10 &&
      forall k :: 0 <= k < 4 && k != DColor(n) ==> r.field.colorWeights[k] == s.field.colorWeights[k]
  {
    var id := ['D', DigitChar(n)];
    assert ParseCard(id) == Some(Card('D', n, false));
  }

  // ---------------------------------------------------------------------------
  // Levels

  const LevelTargets: seq<int> := [600, 1800, 4000, 8000, 14000, 24000, 40000, 70000, 120000, 240000]

  /** `getTargetForLevel(lv)`: levels below 1 count as 1, levels past the table use its last entry. */
  function LevelTarget(lv: int): (t: int)
    ensures lv < 1 ==> t == LevelTargets[0]
    ensures 1 <= lv <= |LevelTargets| ==> t == LevelTargets[lv - 1]
    ensures lv > |LevelTargets| ==> t == LevelTargets[|LevelTargets| - 1]
  {
    var l := if lv < 1 then 1 else lv;
    if l <= |LevelTargets| then LevelTargets[l - 1] else LevelTargets[|LevelTargets| - 1]
  }

  /** Targets never fall as the level rises. */
  lemma LevelTargetMonotone(a: int, b: int)
    requires a <= b
    ensures LevelTarget(a) <= LevelTarget(b)
  {
  }

  /**
   * `checkLevelProgress`: reaching the target of a started level stops it for
   * the reward, and `showRewardModal` stops the level clock, so the next spawn
   * restarts it and takes a fresh snapshot.
   */
  function CheckLevelProgress(s: Session): (r: Session)
    ensures (s.score >= LevelTarget(s.flow.currentLevel) && s.flow.gameStarted) ==>
      !r.flow.gameStarted && r.flow.paused && !r.flow.timerRunning
    ensures !(s.score >= LevelTarget(s.flow.currentLevel) && s.flow.gameStarted) ==> r == s
    ensures r == s.(flow := s.flow.(gameStarted := r.flow.gameStarted, paused := r.flow.paused,
                                    timerRunning := r.flow.timerRunning))
  {
    if s.score >= LevelTarget(s.flow.currentLevel) && s.flow.gameStarted then
      s.(flow := s.flow.(gameStarted := false, paused := true, timerRunning := false))
    else s
  }

  /** Once the reward has stopped the clock, the next spawn restarts it and snapshots the score reached. */
  lemma RewardStopRenewsSnapshot(s: Session, draws: SpawnDraws)
    requires Wf(s) && s.score >= LevelTarget(s.flow.currentLevel) && s.flow.gameStarted
    ensures var r := PlayerReset(CheckLevelProgress(s), draws);
      r.flow.timerRunning && r.flow.snapshotScore == s.score && r.flow.snapshotLines == s.lines
  {
  }

  /** `dropTimeByLevel(lvl)`: 80 ms faster per level from 1000 ms, never below 120 ms. */
  function DropTime(lvl: int): (t: int)
    ensures t >= 120
    ensures lvl >= 1 ==> t <= 1000
    ensures t == 120 <==> lvl >= 12
  {
    Max(1000 - (lvl - 1) * 80, 120)
  }

  /** Higher levels never drop slower. */
  lemma DropTimeMonotone(a: int, b: int)
    requires a <= b
    ensures DropTime(b) <= DropTime(a)
  {
  }

  /** `gameOver`: the run pauses. */
  function GameOver(s: Session): (r: Session)
    ensures r.flow.paused && r == s.(flow := s.flow.(paused := true))
  {
    s.(flow := s.flow.(paused := true))
  }

  /** `startLevelTimer`: the clock restarts from the level's limit. */
  function StartLevelTimer(f: Flow): (r: Flow)
    ensures r.timerRunning && r.timeLeft == f.timeLimit
    ensures r == f.(timerRunning := true, timeLeft := f.timeLimit)
  {
    f.(timerRunning := true, timeLeft := f.timeLimit)
  }

  /** The random values one `playerReset` consumes. */
  datatype SpawnDraws = SpawnDraws(pieceU: real, pieceFallback: nat, colorU: real, nextU: real, nextFallback: nat, nextColorU: real)

  /**
   * The piece part of `playerReset`: the preview piece (or, when there is
   * none, a freshly drawn one) becomes active at the spawn position and a new
   * preview is drawn.
   */
  function NextPiece(f: Field, d: SpawnDraws): (r: Field)
    requires |f.colorWeights| == 4
    requires f.next.Some? ==> 1 <= f.next.value.0 <= 7 && 0 <= f.next.value.1 < 4
    ensures r.next.Some? && 1 <= r.next.value.0 <= 7 && 0 <= r.next.value.1 < 4
    ensures 1 <= r.player.shapeId <= 7 && 0 <= r.player.color < 4
    ensures r.player == Spawn(Shape(r.player.shapeId), r.player.shapeId, r.player.color)
    ensures f.next.Some? ==> (r.player.shapeId, r.player.color) == f.next.value
    ensures r.arena == f.arena && r.colorWeights == f.colorWeights
  {
    var cur: (int, int, Streak) :=
      match f.next
      case Some(p) => (p.0, p.1, f.streak)
      case None =>
        var g := GenPieceId(f.streak, d.pieceU, d.pieceFallback);
        (g.0, SampleColorIndex(f.colorWeights, d.colorU), g.1);
    var g2 := GenPieceId(cur.2, d.nextU, d.nextFallback);
    f.(player := Spawn(Shape(cur.0), cur.0, cur.1), streak := g2.1,
       next := Some((g2.0, SampleColorIndex(f.colorWeights, d.nextColorU))))
  }

  /**
   * `playerReset`: the next piece comes in, and a stopped level clock starts
   * with a snapshot of score and lines.
   */
  function PlayerReset(s: Session, d: SpawnDraws): (r: Session)
    requires Wf(s)
    ensures Wf(r) && r.field == NextPiece(s.field, d)
    ensures !s.flow.timerRunning ==>
      r.flow.timerRunning && r.flow.snapshotScore == s.score && r.flow.snapshotLines == s.lines &&
      r.flow.timeLeft == s.flow.timeLimit
    ensures s.flow.timerRunning ==> r.flow == s.flow
    ensures r.flow == s.flow.(timerRunning := r.flow.timerRunning, timeLeft := r.flow.timeLeft,
                              snapshotScore := r.flow.snapshotScore, snapshotLines := r.flow.snapshotLines)
    ensures r == s.(field := r.field, flow := r.flow)
  {
    var s1 := s.(field := NextPiece(s.field, d));
    if !s.flow.timerRunning then
      s1.(flow := StartLevelTimer(s.flow).(snapshotScore := s.score, snapshotLines := s.lines))
    else s1
  }

  /** The damage of the n-th failure in a row at a level: 10, 20, 40, then 50. */
  function FailDamage(attempts: int): (d: int)
    ensures attempts == 1 ==> d == 10
    ensures attempts == 2 ==> d == 20
    ensures attempts == 3 ==> d == 40
    ensures attempts != 1 && attempts != 2 && attempts != 3 ==> d == 50
  {
    if attempts == 1 then 10 else if attempts == 2 then 20 else if attempts == 3 then 40 else 50
  }

  /** From the first failure on, each further failure hurts at least as much. */
  lemma FailDamageEscalates(a: int, b: int)
    requires 1 <= a <= b
    ensures FailDamage(a) <= FailDamage(b)
  {
  }

  /** Health after a failure: the damage less one per shield, never negative, with health floored at 0. */
  function HpAfterFail(hp: int, attempts: int, shields: nat): (r: int)
    ensures r >= 0
    ensures hp >= 0 ==> r <= hp
    ensures shields >= FailDamage(attempts) ==> r == Max(0, hp)
    ensures shields < FailDamage(attempts) && hp > FailDamage(attempts) - shields ==> r == hp - (FailDamage(attempts) - shields)
  {
    Max(0, hp - Max(0, FailDamage(attempts) - shields))
  }

  /**
   * The restart half of `onLevelFail`: score and lines back to the snapshot (a
   * zero snapshot value keeps the current one), an empty board with no star
   * layers, a new piece and a fresh clock.
   */
  function RestartLevel(s: Session, d: SpawnDraws): (r: Session)
    requires Wf(s)
    ensures Wf(r)
    ensures !r.flow.paused && r.flow.gameStarted && r.field.arena == EmptyArena() && r.effects.starLayers == 0
    ensures r.score == (if s.flow.snapshotScore != 0 then s.flow.snapshotScore else s.score)
    ensures r.lines == (if s.flow.snapshotLines != 0 then s.flow.snapshotLines else s.lines)
    ensures r.flow.timerRunning && r.flow.timeLeft == r.flow.timeLimit
    ensures !s.flow.timerRunning ==> r.flow.snapshotScore == r.score && r.flow.snapshotLines == r.lines
    ensures s.flow.timerRunning ==>
      r.flow.snapshotScore == s.flow.snapshotScore && r.flow.snapshotLines == s.flow.snapshotLines
    ensures r.flow.failAttempts == s.flow.failAttempts && r.flow.consecutive == s.flow.consecutive
    ensures r.level == s.level && r.purse == s.purse && r.cards == s.cards
  {
    var s2 := s.(score := if s.flow.snapshotScore != 0 then s.flow.snapshotScore else s.score,
                 lines := if s.flow.snapshotLines != 0 then s.flow.snapshotLines else s.lines,
                 field := s.field.(arena := EmptyArena()), effects := s.effects.(starLayers := 0));
    var s3 := PlayerReset(s2, d);
    s3.(flow := StartLevelTimer(s3.flow.(paused := false, gameStarted := true)))
  }

  /**
   * `onLevelFail`: count the failure and take the damage; at 0 health the run
   * ends, otherwise the level restarts.
   */
  function OnLevelFail(s: Session, d: SpawnDraws): (r: Session)
    requires Wf(s)
    ensures Wf(r)
    ensures r.flow.failAttempts == s.flow.failAttempts + 1 && r.flow.consecutive == 0
    ensures r.purse == s.purse.(hp := HpAfterFail(s.purse.hp, s.flow.failAttempts + 1, ItemCount(s.purse, IronShield)))
    ensures r.purse.hp == 0 ==> r.flow.paused && r.field == s.field && r.score == s.score
    ensures r.purse.hp > 0 ==> !r.flow.paused && r.field.arena == EmptyArena()
    ensures r.purse.hp > 0 ==> r.score == (if s.flow.snapshotScore != 0 then s.flow.snapshotScore else s.score)
    ensures r.purse.hp > 0 ==> r.lines == (if s.flow.snapshotLines != 0 then s.flow.snapshotLines else s.lines)
    ensures r.purse.hp > 0 ==> r.flow.timerRunning && r.flow.timeLeft == r.flow.timeLimit
    ensures r.purse.hp > 0 && !s.flow.timerRunning ==>
      r.flow.snapshotScore == r.score && r.flow.snapshotLines == r.lines
    ensures r.level == s.level && r.cards == s.cards
  {
    var attempts := s.flow.failAttempts + 1;
    var hp := HpAfterFail(s.purse.hp, attempts, ItemCount(s.purse, IronShield));
    var s1 := s.(flow := s.flow.(failAttempts := attempts, consecutive := 0), purse := s.purse.(hp := hp));
    if hp <= 0 then GameOver(s1) else RestartLevel(s1, d)
  }

  /**
   * `onLevelTimeUp` outside the eleventh level: the clock stops, cleared and
   * forgotten as 1862-1863 do, and the level fails. The restart therefore finds
   * no clock and snapshots the score and lines it rolled back to.
   */
  function OnLevelTimeUp(s: Session, d: SpawnDraws): (r: Session)
    requires Wf(s)
    ensures Wf(r)
    ensures r.flow.failAttempts == s.flow.failAttempts + 1 && r.flow.consecutive == 0
    ensures r.purse == s.purse.(hp := HpAfterFail(s.purse.hp, s.flow.failAttempts + 1, ItemCount(s.purse, IronShield)))
    ensures r.purse.hp == 0 ==> r.flow.paused && !r.flow.timerRunning && r.field == s.field && r.score == s.score
    ensures r.purse.hp > 0 ==> !r.flow.paused && r.field.arena == EmptyArena()
    ensures r.purse.hp > 0 ==> r.score == (if s.flow.snapshotScore != 0 then s.flow.snapshotScore else s.score)
    ensures r.purse.hp > 0 ==> r.lines == (if s.flow.snapshotLines != 0 then s.flow.snapshotLines else s.lines)
    ensures r.purse.hp > 0 ==>
      r.flow.timerRunning && r.flow.snapshotScore == r.score && r.flow.snapshotLines == r.lines
  {
    OnLevelFail(s.(flow := s.flow.(timerRunning := false)), d)
  }

  /**
   * Two time-ups in a row at a level whose start score was 0: the first keeps
   * the score reached and snapshots it, so the second rolls back to it, however
   * much was scored in between.
   */
  lemma SecondTimeUpRollsBackToFirst(s: Session, d1: SpawnDraws, d2: SpawnDraws, gained: nat)
    requires Wf(s) && s.flow.snapshotScore == 0 && s.score > 0
    requires s.purse.hp > FailDamage(s.flow.failAttempts + 1)
    ensures var r1 := OnLevelTimeUp(s, d1);
      var r2 := OnLevelTimeUp(r1.(score := r1.score + gained), d2);
      r2.purse.hp > 0 ==> r2.score == s.score
  {
    var r1 := OnLevelTimeUp(s, d1);
    assert r1.score == s.score;
    assert r1.flow.snapshotScore == s.score;
  }

  /** A run whose level-start score was 0 keeps the score it reached when the level is restarted. */
  lemma ZeroSnapshotKeepsScore(s: Session, d: SpawnDraws)
    requires Wf(s) && s.flow.snapshotScore == 0
    requires s.purse.hp > FailDamage(s.flow.failAttempts + 1)
    ensures OnLevelFail(s, d).score == s.score
  {
  }

  /**
   * `applyCharacterClearEffects`: one more success in a row; from the second on
   * Superman heals 30 below the maximum, or at the maximum raises it by 10 up to
   * 200 and heals 10.
   */
  function ApplyCharacterClearEffects(s: Session): (r: Session)
    ensures r.flow == s.flow.(consecutive := s.flow.consecutive + 1)
    ensures HpInv(s.purse) ==> HpInv(r.purse)
    ensures r == s.(flow := r.flow, purse := r.purse)
    ensures r.purse == s.purse.(hp := r.purse.hp, maxHp := r.purse.maxHp)
    ensures s.character != Superman || s.flow.consecutive + 1 < 2 ==> r.purse == s.purse
    ensures s.character == Superman && s.flow.consecutive + 1 >= 2 && s.purse.hp < s.purse.maxHp ==>
      r.purse.maxHp == s.purse.maxHp && r.purse.hp == Min(s.purse.maxHp, s.purse.hp + 30)
    ensures s.character == Superman && s.flow.consecutive + 1 >= 2 && s.purse.hp >= s.purse.maxHp ==>
      r.purse.maxHp == Min(s.purse.maxHp + 10, 200) && r.purse.hp == Min(r.purse.maxHp, s.purse.hp + 10)
    ensures r.purse.hp >= s.purse.hp || r.purse.hp == r.purse.maxHp
  {
    var s1 := s.(flow := s.flow.(consecutive := s.flow.consecutive + 1));
    var p := s.purse;
    if s.character == Superman && s1.flow.consecutive >= 2 then
      if p.hp < p.maxHp then s1.(purse := p.(hp := Min(p.maxHp, p.hp + 30)))
      else
        var m := Min(p.maxHp + 10, 200);
        s1.(purse := p.(maxHp := m, hp := Min(m, p.hp + 10)))
    else s1
  }

  /** At full health above 200, the Superman bonus lowers the maximum to 200. */
  lemma SupermanCapCanLowerMax(s: Session)
    requires s.character == Superman && s.flow.consecutive >= 1
    requires s.purse.maxHp > 200 && s.purse.hp == s.purse.maxHp
    ensures ApplyCharacterClearEffects(s).purse.maxHp == 200 < s.purse.maxHp
    ensures ApplyCharacterClearEffects(s).purse.hp == 200
  {
  }

  /** Whether finishing a level promises a card in the next task: after levels 2, 5 and 8. */
  predicate CardTaskLevel(lv: int) {
    lv == 2 || lv == 5 || lv == 8
  }

  /**
   * The reward screen's next button: the chosen card, two coins, a card in the
   * next task after levels 2, 5 and 8, and a success for the character.
   */
  function SelectReward(s: Session, id: CardId): (r: Session)
    requires |s.field.colorWeights| == 4
    ensures |r.field.colorWeights| == 4
    ensures r.flow.failAttempts == 0 && r.flow.consecutive == s.flow.consecutive + 1
    ensures CardTaskLevel(s.flow.currentLevel) ==> r.nextTaskIncludesCard
    ensures !CardTaskLevel(s.flow.currentLevel) ==> r.nextTaskIncludesCard == s.nextTaskIncludesCard
    ensures Keep(r.cards) == Keep(s.cards + [id])
    ensures DinoInv(s.dino) ==> DinoInv(r.dino) && r.purse.coins >= s.purse.coins + 2
    ensures HpInv(s.purse) ==> HpInv(r.purse)
  {
    var s1 := AddCoins(ApplyCardEffect(s, id), 2);
    var s2 := if CardTaskLevel(s1.flow.currentLevel) then s1.(nextTaskIncludesCard := true) else s1;
    ApplyCharacterClearEffects(s2.(flow := s2.flow.(failAttempts := 0)))
  }

  // ---------------------------------------------------------------------------
  // Tasks

  /** Choosing an offered task: it starts at progress 0 and consumes the card promise. */
  function ChooseTask(s: Session, t: Task): (r: Session)
    ensures r.task == Some(t.(progress := 0)) && !r.nextTaskIncludesCard
    ensures r == s.(task := r.task, nextTaskIncludesCard := false)
  {
    s.(task := Some(t.(progress := 0)), nextTaskIncludesCard := false)
  }

  /**
   * `awardTaskReward`: coins drawn from the task's range (added directly, with
   * no earring heal), a random card when the task includes one, and the task is
   * done.
   */
  function AwardTaskReward(s: Session, u: real, draw: nat): (r: Session)
    requires |s.field.colorWeights| == 4
    ensures |r.field.colorWeights| == 4
    ensures s.task.None? ==> r == s
    ensures s.task.Some? ==> r.task.None?
    ensures s.task.Some? && !s.task.value.includeCard ==>
      r == s.(purse := s.purse.(coins := s.purse.coins + RandomInRange(s.task.value.coinLo, s.task.value.coinHi, u)), task := None)
    ensures s.task.Some? && s.task.value.coinLo <= s.task.value.coinHi && 0.0 <= u < 1.0 && DinoInv(s.dino) ==>
      r.purse.coins >= s.purse.coins + s.task.value.coinLo
    ensures DinoInv(s.dino) ==> DinoInv(r.dino)
    ensures r.field == s.field.(colorWeights := r.field.colorWeights) && r.score == s.score && r.effects == s.effects
    ensures HpInv(s.purse) ==> HpInv(r.purse)
  {
    match s.task
    case None => s
    case Some(t) =>
      var s1 := s.(purse := s.purse.(coins := s.purse.coins + RandomInRange(t.coinLo, t.coinHi, u)));
      var s2 := if t.includeCard then ApplyCardEffect(s1, GenerateRandomCard(4, s.testClass, draw)) else s1;
      s2.(task := None)
  }

  /** `checkTaskCompletion`: a task whose progress reached its target pays out. */
  function CheckTaskCompletion(s: Session, u: real, draw: nat): (r: Session)
    requires |s.field.colorWeights| == 4
    ensures |r.field.colorWeights| == 4
    ensures s.task.Some? && s.task.value.progress >= s.task.value.target ==> r == AwardTaskReward(s, u, draw)
    ensures !(s.task.Some? && s.task.value.progress >= s.task.value.target) ==> r == s
    ensures r.field == s.field.(colorWeights := r.field.colorWeights) && r.score == s.score && r.effects == s.effects
    ensures DinoInv(s.dino) ==> DinoInv(r.dino)
    ensures HpInv(s.purse) ==> HpInv(r.purse)
  {
    if s.task.Some? && s.task.value.progress >= s.task.value.target then AwardTaskReward(s, u, draw) else s
  }
}

=== FILE: generator.dfy ===
/**
 * The game's random choices: the next shape (with its anti-repeat damping),
 * the colour of a piece, card offers with the shop wish, and task offers.
 *
 * Every call of `Math.random()` becomes a parameter: `u: real` where the value
 * itself is used (a weighted walk, `randomInRange`), and `draw: nat` taken
 * modulo n where the game only uses `Math.floor(Math.random() * n)`, which is
 * some index below n.
 */
module Generator {
  import opened Util
  import opened Cards

  // ---------------------------------------------------------------------------
  // Weighted sampling

  /** Sum of a weight vector. */
  function Sum(w: seq<real>): real {
    if |w| == 0 then 0.0 else Sum(w[..|w| - 1]) + w[|w| - 1]
  }

  lemma PrefixSumStep(w: seq<real>, i: int)
    requires 0 <= i < |w|
    ensures Sum(w[..i + 1]) == Sum(w[..i]) + w[i]
  {
    assert w[..i + 1][..i] == w[..i];
  }

  /** With non-negative weights, longer prefixes never weigh less. */
  lemma {:induction false} PrefixMonotone(w: seq<real>, i: int, j: int)
    requires forall k :: 0 <= k < |w| ==> w[k] >= 0.0
    requires 0 <= i <= j <= |w|
    ensures Sum(w[..i]) <= Sum(w[..j])
    decreases j - i
  {
    if i < j {
      PrefixMonotone(w, i, j - 1);
      PrefixSumStep(w, j - 1);
    }
  }

  /**
   * The walk of `genRandomPieceId` and `sampleColorIndex` from index i, with x the
   * part of `r` not yet subtracted: stop at the first weight that exceeds what is
   * left, otherwise subtract it and go on. The result is the index of the prefix
   * interval holding the original r.
   */
  function Walk(w: seq<real>, x: real, i: nat): (r: Option<nat>)
    requires i <= |w|
    ensures r.Some? ==> i <= r.value < |w|
    ensures r.Some? ==> x < Sum(w[..r.value + 1]) - Sum(w[..i])
    ensures r.Some? && x >= 0.0 ==> Sum(w[..r.value]) - Sum(w[..i]) <= x
    ensures r.None? && i < |w| ==> x >= Sum(w) - Sum(w[..i])
    decreases |w| - i
  {
    if i == |w| then None
    else
      PrefixSumStep(w, i);
      if x < w[i] then Some(i)
      else
        assert i + 1 == |w| ==> w[..i + 1] == w;
        Walk(w, x - w[i], i + 1)
  }

  /** The index r falls on when laid over the weights end to end. */
  function WeightedPick(w: seq<real>, r: real): Option<nat> {
    Walk(w, r, 0)
  }

  /** With non-negative weights the walk stops at i exactly when r lies in i's interval. */
  lemma WeightedPickIff(w: seq<real>, r: real, i: nat)
    requires forall k :: 0 <= k < |w| ==> w[k] >= 0.0
    requires i < |w| && r >= 0.0
    ensures WeightedPick(w, r) == Some(i) <==> Sum(w[..i]) <= r < Sum(w[..i + 1])
  {
    assert w[..0] == [];
    var p := WeightedPick(w, r);
    if Sum(w[..i]) <= r < Sum(w[..i + 1]) {
      match p
      case None =>
        assert w[..|w|] == w;
        PrefixMonotone(w, i + 1, |w|);
      case Some(j) =>
        if j < i {
          PrefixMonotone(w, j + 1, i);
        } else if j > i {
          PrefixMonotone(w, i + 1, j);
        }
    }
  }

  /** Any r in [0, total) of non-negative weights picks some index: the fallbacks never fire. */
  lemma WeightedPickTotal(w: seq<real>, r: real)
    requires 0.0 <= r < Sum(w)
    ensures WeightedPick(w, r).Some?
  {
    assert w[..0] == [];
  }

  /** The random point `Math.random() * sum` for the random value u. */
  function Point(w: seq<real>, u: real): (r: real)
    ensures 0.0 <= u < 1.0 && Sum(w) > 0.0 ==> 0.0 <= r < Sum(w)
  {
    ScaleBelow(u, Sum(w));
    u * Sum(w)
  }

  lemma ScaleBelow(u: real, total: real)
    ensures 0.0 <= u < 1.0 && total > 0.0 ==> 0.0 <= u * total < total
  {
    if 0.0 <= u < 1.0 && total > 0.0 {
      assert u * total < 1.0 * total;
    }
  }

  // ---------------------------------------------------------------------------
  // Shapes

  /** `lastGeneratedId` / `lastGeneratedStreak`. */
  datatype Streak = Streak(last: Option<int>, count: nat)

  /** The streak before any piece was generated. */
  function NoStreak(): Streak { Streak(None, 0) }

  /** Whether the last shape has come up at least twice in a row and is damped. */
  predicate Damped(s: Streak, id: int) {
    s.last == Some(id) && s.count >= 2
  }

  /** One weight per shape: 1, or 0.05 for a shape repeated twice or more. */
  function PieceWeights(s: Streak): (w: seq<real>)
    ensures |w| == 7
  {
    seq(7, i => if Damped(s, i + 1) then 0.05 else 1.0)
  }

  /** The streak update after `chosen` is generated. */
  function NextStreak(s: Streak, chosen: int): (t: Streak)
    ensures t.last == Some(chosen) && t.count >= 1
    ensures s.last == Some(chosen) ==> t.count == s.count + 1
    ensures s.last != Some(chosen) ==> t.count == 1
  {
    if s.last == Some(chosen) then s.(count := s.count + 1) else Streak(Some(chosen), 1)
  }

  /** `genRandomPieceId`: u is the first `Math.random()`, fallback the second. */
  function GenPieceId(s: Streak, u: real, fallback: nat): (r: (int, Streak))
    ensures 1 <= r.0 <= 7
    ensures r.1 == NextStreak(s, r.0)
  {
    var w := PieceWeights(s);
    var chosen := match WeightedPick(w, Point(w, u)) case Some(i) => i + 1 case None => fallback % 7 + 1;
    (chosen, NextStreak(s, chosen))
  }

  /** The prefix sums of the shape weights: one per shape, less 0.95 once past a damped shape. */
  lemma {:induction false} PieceWeightPrefix(s: Streak, i: int)
    requires 0 <= i <= 7
    ensures Sum(PieceWeights(s)[..i]) ==
      i as real - (if s.count >= 2 && s.last.Some? && 1 <= s.last.value <= i then 0.95 else 0.0)
  {
    var w := PieceWeights(s);
    if i == 0 {
      assert w[..0] == [];
    } else {
      PieceWeightPrefix(s, i - 1);
      PrefixSumStep(w, i - 1);
    }
  }

  /** Without a streak of two, every shape takes an equal seventh of [0, 1). */
  lemma GenPieceIdUndamped(s: Streak, u: real, fallback: nat, id: int)
    requires s.count < 2 || s.last.None? || !(1 <= s.last.value <= 7)
    requires 0.0 <= u < 1.0 && 1 <= id <= 7
    ensures GenPieceId(s, u, fallback).0 == id <==> (id - 1) as real <= u * 7.0 < id as real
  {
    var w := PieceWeights(s);
    PieceWeightPrefix(s, 7);
    assert w[..7] == w;
    assert Sum(w) == 7.0;
    assert Point(w, u) == u * 7.0;
    WeightedPickTotal(w, Point(w, u));
    PieceWeightPrefix(s, id - 1);
    PieceWeightPrefix(s, id);
    forall k | 0 <= k < |w| ensures w[k] >= 0.0 {}
    WeightedPickIff(w, Point(w, u), id - 1);
  }

  /**
   * After a shape came up twice in a row, it keeps an interval of width 0.05
   * out of a total weight of 6.05, and no fallback draw is needed.
   */
  lemma GenPieceIdDamped(s: Streak, u: real, fallback: nat)
    requires s.count >= 2 && s.last.Some? && 1 <= s.last.value <= 7
    requires 0.0 <= u < 1.0
    ensures GenPieceId(s, u, fallback).0 == s.last.value <==>
      (s.last.value - 1) as real <= u * 6.05 < (s.last.value - 1) as real + 0.05
  {
    var w := PieceWeights(s);
    var k := s.last.value;
    PieceWeightPrefix(s, 7);
    assert w[..7] == w;
    assert Sum(w) == 6.05;
    assert Point(w, u) == u * 6.05;
    WeightedPickTotal(w, Point(w, u));
    PieceWeightPrefix(s, k - 1);
    PieceWeightPrefix(s, k);
    forall j | 0 <= j < |w| ensures w[j] >= 0.0 {}
    WeightedPickIff(w, Point(w, u), k - 1);
  }

  // ---------------------------------------------------------------------------
  // Colours

  function AsReals(w: seq<int>): (v: seq<real>)
    ensures |v| == |w|
  {
    seq(|w|, i requires 0 <= i < |w| => w[i] as real)
  }

  /** The walk's index for r, or the last index when the walk falls through. */
  function PickOrLast(w: seq<real>, r: real): (i: int)
    requires |w| > 0
    ensures 0 <= i < |w|
  {
    match WeightedPick(w, r)
    case Some(i) => i
    case None => |w| - 1
  }

  /** For r inside the total weight the fallback is never taken. */
  lemma PickOrLastIff(w: seq<real>, r: real, i: int)
    requires forall k :: 0 <= k < |w| ==> w[k] >= 0.0
    requires 0 <= i < |w|
    requires 0.0 <= r < Sum(w)
    ensures PickOrLast(w, r) == i <==> Sum(w[..i]) <= r < Sum(w[..i + 1])
  {
    WeightedPickTotal(w, r);
    WeightedPickIff(w, r, i);
  }

  /** The weighted draw of an index for the random value u. */
  function SampleIndex(w: seq<real>, u: real): (i: int)
    requires |w| > 0
    ensures 0 <= i < |w|
  {
    PickOrLast(w, Point(w, u))
  }

  /** With non-negative weights of positive sum, index i is drawn exactly on its share of [0, 1). */
  lemma SampleIndexIff(w: seq<real>, u: real, i: int)
    requires forall k :: 0 <= k < |w| ==> w[k] >= 0.0
    requires 0 <= i < |w|
    requires Sum(w) > 0.0 && 0.0 <= u < 1.0
    ensures SampleIndex(w, u) == i <==> Sum(w[..i]) <= Point(w, u) < Sum(w[..i + 1])
  {
    PickOrLastIff(w, Point(w, u), i);
  }

  /** `sampleColorIndex` over the integer colour weights. */
  function SampleColorIndex(weights: seq<int>, u: real): (i: int)
    requires |weights| > 0
    ensures 0 <= i < |weights|
  {
    SampleIndex(AsReals(weights), u)
  }

  /** With non-negative colour weights of positive sum, colour i is drawn exactly on its share of [0, 1). */
  lemma SampleColorIndexIff(weights: seq<int>, u: real, i: int)
    requires forall k :: 0 <= k < |weights| ==> weights[k] >= 0
    requires 0 <= i < |weights|
    requires Sum(AsReals(weights)) > 0.0 && 0.0 <= u < 1.0
    ensures SampleColorIndex(weights, u) == i <==>
      Sum(AsReals(weights)[..i]) <= Point(AsReals(weights), u) < Sum(AsReals(weights)[..i + 1])
  {
    var w := AsReals(weights);
    forall k | 0 <= k < |w| ensures w[k] >= 0.0 {}
    SampleIndexIff(w, u, i);
  }

  // ---------------------------------------------------------------------------
  // Cards

  /** A card number a wish can name. */
  type CardNum = n: int | 1 <= n <= 4 witness 1

  /** A card category a wish or the test mode can name. */
  type CardType = c: char | c == 'A' || c == 'B' || c == 'C' || c == 'D' witness 'A'

  /** `Math.max(1, Math.min(4, Math.floor(maxNumber)))` on an integer. */
  function CapMaxNum(maxNumber: int): (m: int)
    ensures 1 <= m <= 4
    ensures 1 <= maxNumber <= 4 ==> m == maxNumber
    ensures maxNumber < 1 ==> m == 1
    ensures maxNumber > 4 ==> m == 4
  {
    Max(1, Min(4, maxNumber))
  }

  /** The number cap of a shop level: 1, 2, and 4 from level three on. */
  function ShopMaxNum(shopLevel: int): (m: int)
    ensures 1 <= m <= 4
  {
    if shopLevel == 1 then 1 else if shopLevel == 2 then 2 else 4
  }

  /** The plain card of a category and number. */
  function PlainCard(t: CardType, n: int): (id: CardId)
    requires 0 <= n <= 9
    ensures ParseCard(id) == Some(Card(t, n, false))
  {
    ParseFormat(Card(t, n, false));
    Format(Card(t, n, false))
  }

  const Types: seq<CardType> := ['A', 'B', 'C', 'D']

  /** The combos list: every category with every number up to maxNum, category-major. */
  function Combos(maxNum: int): (cs: seq<CardId>)
    requires 1 <= maxNum <= 4
    ensures |cs| == 4 * maxNum
  {
    seq(4 * maxNum, k requires 0 <= k < 4 * maxNum => PlainCard(Types[k / maxNum], k % maxNum + 1))
  }

  /** A card the generator can produce under a cap: plain, category A-D, number 1..maxNum. */
  predicate Offerable(id: CardId, maxNum: int) {
    var p := ParseCard(id);
    p.Some? && !p.value.upgraded && p.value.cat in Types && 1 <= p.value.num <= maxNum
  }

  /**
   * `generateRandomCard(maxNumber)`; `testClass` is `testModeClass` when the test
   * mode is on.
   */
  function GenerateRandomCard(maxNumber: int, testClass: Option<CardType>, draw: nat): (id: CardId)
    ensures Offerable(id, CapMaxNum(maxNumber))
    ensures testClass.Some? ==> id[0] == testClass.value
  {
    var maxNum := CapMaxNum(maxNumber);
    match testClass
    case Some(t) => PlainCard(t, draw % maxNum + 1)
    case None => Combos(maxNum)[draw % (4 * maxNum)]
  }

  /** The combo at index t * maxNum + n - 1 is category t with number n. */
  lemma CombosAt(maxNum: int, t: int, n: int)
    requires 1 <= maxNum <= 4 && 0 <= t < 4 && 1 <= n <= maxNum
    ensures 0 <= t * maxNum + n - 1 < 4 * maxNum
    ensures Combos(maxNum)[t * maxNum + n - 1] == PlainCard(Types[t], n)
  {
    var k := t * maxNum + n - 1;
    DivUnique(k, maxNum, t, n - 1);
    assert k / maxNum == t && k % maxNum == n - 1;
  }

  /** Outside the test mode, every offerable card is produced by some draw below the combo count. */
  lemma GenerateRandomCardCovers(maxNumber: int, id: CardId)
    requires Offerable(id, CapMaxNum(maxNumber))
    ensures exists draw: nat :: draw < 4 * CapMaxNum(maxNumber) && GenerateRandomCard(maxNumber, None, draw) == id
  {
    var maxNum := CapMaxNum(maxNumber);
    var c := ParseCard(id).value;
    assert c.cat in Types && !c.upgraded && 1 <= c.num <= maxNum;
    var t := if c.cat == 'A' then 0 else if c.cat == 'B' then 1 else if c.cat == 'C' then 2 else 3;
    assert Types[t] == c.cat && c == Card(Types[t], c.num, false);
    CombosAt(maxNum, t, c.num);
    var draw: nat := t * maxNum + c.num - 1;
    DivUnique(draw, 4 * maxNum, 0, draw);
    ParseIff(id, c);
    assert PlainCard(Types[t], c.num) == id;
    assert GenerateRandomCard(maxNumber, None, draw) == Combos(maxNum)[draw];
  }

  /** Distinct draws below the combo count give distinct cards, so the pick is uniform. */
  lemma CombosDistinct(maxNum: int, i: int, j: int)
    requires 1 <= maxNum <= 4
    requires 0 <= i < 4 * maxNum && 0 <= j < 4 * maxNum && i != j
    ensures Combos(maxNum)[i] != Combos(maxNum)[j]
  {
    var cs := Combos(maxNum);
    var ci := Card(Types[i / maxNum], i % maxNum + 1, false);
    var cj := Card(Types[j / maxNum], j % maxNum + 1, false);
    assert ParseCard(cs[i]) == Some(ci);
    assert ParseCard(cs[j]) == Some(cj);
    assert i == (i / maxNum) * maxNum + i % maxNum;
    assert j == (j / maxNum) * maxNum + j % maxNum;
    if i / maxNum == j / maxNum {
      assert ci.num != cj.num;
    } else {
      assert ci.cat != cj.cat;
    }
  }

  /** `wishPending`: a number or a category asked for at the shop. */
  datatype Wish = NumWish(n: CardNum) | TypeWish(t: CardType)

  /** The `while(out.length < count)` fill; card k of the offer uses `draws(k)`. */
  function Fill(out: seq<CardId>, count: int, maxNum: int, testClass: Option<CardType>, draws: nat -> nat): (r: seq<CardId>)
    ensures |r| == Max(|out|, count)
    ensures r[..|out|] == out
    ensures forall k :: |out| <= k < |r| ==> r[k] == GenerateRandomCard(maxNum, testClass, draws(k))
    decreases count - |out|
  {
    if |out| >= count then out
    else
      var next := out + [GenerateRandomCard(maxNum, testClass, draws(|out|))];
      var r := Fill(next, count, maxNum, testClass, draws);
      assert r[..|out|] == r[..|next|][..|out|] && next[..|out|] == out;
      assert r[|out|] == r[..|next|][|out|] == next[|out|];
      r
  }

  /** The card the wish forces, if it applies under the cap. */
  function WishCard(wish: Option<Wish>, maxNum: int, draw: nat): (r: Option<CardId>)
    requires 1 <= maxNum <= 4
    ensures r.Some? <==> wish.Some? && !(wish.value.NumWish? && wish.value.n > maxNum)
    ensures r.Some? ==> Offerable(r.value, maxNum)
    ensures r.Some? && wish.value.NumWish? ==> ParseCard(r.value).value.num == wish.value.n
    ensures r.Some? && wish.value.TypeWish? ==> |r.value| >= 1 && r.value[0] == wish.value.t
  {
    match wish
    case Some(NumWish(n)) => if n <= maxNum then Some(PlainCard(Types[draw % 4], n)) else None
    case Some(TypeWish(t)) => Some(PlainCard(t, draw % maxNum + 1))
    case None => None
  }

  /**
   * `pickCardsWithWish(count, maxNumber)`: the offer and the wish left pending.
   * A number wish above the cap stays pending; any other wish puts its card first
   * and is consumed.
   */
  function PickCardsWithWish(count: int, maxNumber: int, wish: Option<Wish>, testClass: Option<CardType>, draws: nat -> nat): (r: (seq<CardId>, Option<Wish>))
    ensures |r.0| == Max(count, if wish.Some? && r.1.None? then 1 else 0)
    ensures forall k :: 0 <= k < |r.0| ==> Offerable(r.0[k], CapMaxNum(maxNumber))
    ensures r.1 == None || r.1 == wish
    ensures (wish.Some? && wish.value.NumWish? && wish.value.n > CapMaxNum(maxNumber)) <==> r.1.Some?
    ensures wish.Some? && r.1.None? ==> |r.0| >= 1
    ensures wish.Some? && wish.value.NumWish? && r.1.None? ==>
      ParseCard(r.0[0]).Some? && ParseCard(r.0[0]).value.num == wish.value.n
    ensures wish.Some? && wish.value.TypeWish? ==> |r.0| >= 1 && |r.0[0]| >= 1 && r.0[0][0] == wish.value.t
  {
    var maxNum := CapMaxNum(maxNumber);
    match WishCard(wish, maxNum, draws(0))
    case Some(c) =>
      var out := Fill([c], count, maxNum, testClass, draws);
      assert out[0] == out[..1][0] == c;
      (out, None)
    case None => (Fill([], count, maxNum, testClass, draws), wish)
  }

  /** Without a wish the offer is exactly `count` independent random cards. */
  lemma PickWithoutWish(count: int, maxNumber: int, testClass: Option<CardType>, draws: nat -> nat)
    requires count >= 0
    ensures var r := PickCardsWithWish(count, maxNumber, None, testClass, draws);
      |r.0| == count && forall k :: 0 <= k < count ==> r.0[k] == GenerateRandomCard(maxNumber, testClass, draws(k))
  {
    var r := PickCardsWithWish(count, maxNumber, None, testClass, draws);
    forall k | 0 <= k < count ensures r.0[k] == GenerateRandomCard(maxNumber, testClass, draws(k)) {
      assert r.0[k] == GenerateRandomCard(CapMaxNum(maxNumber), testClass, draws(k));
    }
  }

  // ---------------------------------------------------------------------------
  // Tasks

  /** `randomInRange(min, max)` for the random value u. */
  function RandomInRange(lo: int, hi: int, u: real): (v: int)
    ensures lo <= hi && 0.0 <= u < 1.0 ==> lo <= v <= hi
  {
    assert lo <= hi && 0.0 <= u ==> u * (hi - lo + 1) as real >= 0.0;
    assert lo <= hi && u < 1.0 ==> u * (hi - lo + 1) as real < (hi - lo + 1) as real;
    (u * (hi - lo + 1) as real).Floor + lo
  }

  /** Each value of the range is hit exactly on an interval of width 1/(hi - lo + 1). */
  lemma RandomInRangeIff(lo: int, hi: int, u: real, v: int)
    requires lo <= hi
    ensures RandomInRange(lo, hi, u) == v <==>
      (v - lo) as real <= u * (hi - lo + 1) as real < (v - lo + 1) as real
  {
  }

  /** Every value of the range has a random value producing it. */
  lemma RandomInRangeCovers(lo: int, hi: int, v: int)
    requires lo <= v <= hi
    ensures var u := (v - lo) as real / (hi - lo + 1) as real;
      0.0 <= u < 1.0 && RandomInRange(lo, hi, u) == v
  {
    var n := (hi - lo + 1) as real;
    var u := (v - lo) as real / n;
    assert u * n == (v - lo) as real;
    RandomInRangeIff(lo, hi, u, v);
  }

  /** The four task types with the parameters each carries. */
  datatype TaskKind = RemoveColor(color: int) | ClearLines | DropShape(shape: int) | ReachHeight

  /** An offered or running task; `coinLo..coinHi` is the reward range. */
  datatype Task = Task(kind: TaskKind, target: int, progress: int, coinLo: int, coinHi: int, includeCard: bool)

  /** The bounds each task type's target and parameters are drawn within. */
  predicate WellFormedTask(t: Task) {
    t.progress == 0 && 1 <= t.coinLo <= t.coinHi &&
    match t.kind
    case RemoveColor(c) => 0 <= c < 4 && 8 <= t.target <= 30
    case ClearLines => 1 <= t.target <= 8
    case DropShape(s) => 1 <= s <= 7 && 5 <= t.target <= 20
    case ReachHeight => 6 <= t.target <= 20
  }

  /** The coin range of a task offered at a shop level. */
  function CoinRange(shopLevel: int): (r: (int, int))
    ensures 1 <= r.0 <= r.1
  {
    if shopLevel == 1 then (1, 3) else if shopLevel == 2 then (2, 4) else (3, 6)
  }

  /** One option of `generateTaskOptions`: the type, its parameter and target. */
  function GenerateTask(shopLevel: int, includeCard: bool, kindDraw: nat, paramDraw: nat, u: real): (t: Task)
    ensures 0.0 <= u < 1.0 ==> WellFormedTask(t)
    ensures t.includeCard == includeCard
  {
    var (lo, hi) := CoinRange(shopLevel);
    var k := kindDraw % 4;
    if k == 0 then Task(RemoveColor(paramDraw % 4), RandomInRange(8, 30, u), 0, lo, hi, includeCard)
    else if k == 1 then Task(ClearLines, RandomInRange(1, 8, u), 0, lo, hi, includeCard)
    else if k == 2 then Task(DropShape(paramDraw % 7 + 1), RandomInRange(5, 20, u), 0, lo, hi, includeCard)
    else Task(ReachHeight, RandomInRange(6, 20, u), 0, lo, hi, includeCard)
  }

  /** `generateTaskOptions`: three independent options; option i uses draw and value i. */
  function GenerateTaskOptions(shopLevel: int, includeCard: bool, draws: nat -> nat, params: nat -> nat, us: nat -> real): (opts: seq<Task>)
    ensures |opts| == 3
    ensures forall i :: 0 <= i < 3 && 0.0 <= us(i) < 1.0 ==> WellFormedTask(opts[i])
    ensures forall i :: 0 <= i < 3 ==> opts[i].includeCard == includeCard && (opts[i].coinLo, opts[i].coinHi) == CoinRange(shopLevel)
  {
    seq(3, i requires 0 <= i < 3 => GenerateTask(shopLevel, includeCard, draws(i), params(i), us(i)))
  }

  /** Every well-formed task with the shop's coin range can be offered. */
  lemma GenerateTaskCovers(shopLevel: int, t: Task)
    requires WellFormedTask(t) && (t.coinLo, t.coinHi) == CoinRange(shopLevel)
    ensures exists kd: nat, pd: nat, u: real :: 0.0 <= u < 1.0 && GenerateTask(shopLevel, t.includeCard, kd, pd, u) == t
  {
    match t.kind
    case RemoveColor(c) =>
      RandomInRangeCovers(8, 30, t.target);
      var u := (t.target - 8) as real / (30 - 8 + 1) as real;
      assert GenerateTask(shopLevel, t.includeCard, 0, c, u) == t;
    case ClearLines =>
      RandomInRangeCovers(1, 8, t.target);
      var u := (t.target - 1) as real / (8 - 1 + 1) as real;
      assert GenerateTask(shopLevel, t.includeCard, 1, 0, u) == t;
    case DropShape(s) =>
      RandomInRangeCovers(5, 20, t.target);
      var u := (t.target - 5) as real / (20 - 5 + 1) as real;
      assert GenerateTask(shopLevel, t.includeCard, 2, s - 1, u) == t;
    case ReachHeight =>
      RandomInRangeCovers(6, 20, t.target);
      var u := (t.target - 6) as real / (20 - 6 + 1) as real;
      assert GenerateTask(shopLevel, t.includeCard, 3, 0, u) == t;
  }
}

=== FILE: landing.dfy ===
/**
 * What happens when a piece lands: the merge with its mark rolls and A4
 * bonus, the star meter, task progress, the D2 and D3 colour bonuses, the
 * piece reset and line-clear scan, the explosion check, the pet's landing
 * count and the game-over check; then the deferred effects it schedules (line
 * clear, star explosion, pet eat), the sniper shot and the Enter hard drop.
 */
module Landing {
  import opened Util
  import opened Board
  import opened Cards
  import opened Piece
  import opened Generator
  import opened Economy
  import opened Game
  import opened Clear

  /** The random values one landing consumes: a mark roll per piece cell, the task reward's, and the reset's. */
  datatype LandingDraws = LandingDraws(rolls: (int, int) -> real, taskU: real, taskDraw: nat, spawn: SpawnDraws)

  // ---------------------------------------------------------------------------
  // Merge

  /** The chance that a landed cell is marked: 5% per E card plus the E2 bonus. */
  function MarkChance(s: Session): real {
    CountPrefix(s.cards, "E") as real * 0.05 + s.effects.markSpawnBonus
  }

  /** The mark decision for each piece cell: its roll is below the chance. */
  function Marks(rolls: (int, int) -> real, chance: real): (int, int) -> bool {
    (y, x) => rolls(y, x) < chance
  }

  /** The A4 landing bonus as paid: rounded down, and only when positive. */
  function A4Paid(cards: seq<CardId>, level: int): (b: int)
    ensures b >= 0
    ensures PlainA(cards, 4) == 0 && PlusA(cards, 4) == 0 ==> b == 0
  {
    var f := A4LandingBonus(cards, level).Floor;
    if f > 0 then f else 0
  }

  /**
   * `merge(arena, player)`: the piece's occupied cells inside the arena take
   * the packed colour, shape and mark; every other cell keeps its value; then
   * the A4 landing bonus.
   */
  function MergePiece(s: Session, rolls: (int, int) -> real): (r: Session)
    requires Wf(s)
    ensures Wf(r)
    ensures var p := s.field.player;
      forall y, x :: PieceCell(p.matrix, y, x) && 0 <= y + p.y < ROWS && 0 <= x + p.x < COLS ==>
        r.field.arena[y + p.y][x + p.x] == Encode(p.color, p.shapeId, rolls(y, x) < MarkChance(s))
    ensures var p := s.field.player;
      forall ay, ax :: 0 <= ay < ROWS && 0 <= ax < COLS && !PieceCell(p.matrix, ay - p.y, ax - p.x) ==>
        r.field.arena[ay][ax] == s.field.arena[ay][ax]
    ensures r.score == s.score + A4Paid(s.cards, s.level)
    ensures r == s.(field := r.field, score := r.score) && r.field == s.field.(arena := r.field.arena)
  {
    var p := s.field.player;
    var a := Merge(s.field.arena, p.matrix, p.x, p.y, p.color, p.shapeId, Marks(rolls, MarkChance(s)));
    s.(field := s.field.(arena := a), score := s.score + A4Paid(s.cards, s.level))
  }

  // ---------------------------------------------------------------------------
  // Star meter

  /** The points per filled star meter: 200 times the B2 multiplier, rounded down. */
  function StarAward(cards: seq<CardId>): (a: int)
    ensures a >= 200
    ensures BCount(cards, 2) == 0 ==> a == 200
  {
    var m := StarMultiplier(cards);
    FloorScaled(200, m);
    (200.0 * m).Floor
  }

  /** The star loop: while the layers reach the threshold, take it off and add the award. */
  function StarLoop(layers: int, threshold: int, award: int, score: int): (r: (int, int))
    requires threshold > 0
    ensures r.0 < threshold
    decreases layers
  {
    if layers >= threshold then StarLoop(layers - threshold, threshold, award, score + award)
    else (layers, score)
  }

  /** The star loop leaves the remainder and pays the award once per whole threshold. */
  lemma {:induction false} StarLoopCloses(layers: int, threshold: int, award: int, score: int)
    requires threshold > 0
    ensures layers >= 0 ==>
      StarLoop(layers, threshold, award, score) == (layers % threshold, score + (layers / threshold) * award)
    decreases layers
  {
    if layers >= threshold {
      StarLoopCloses(layers - threshold, threshold, award, score + award);
      DivStep(layers, threshold);
      var q := layers / threshold;
      assert (q - 1) * award + award == q * award;
    } else if layers >= 0 {
      DivUnique(layers, threshold, 0, layers);
    }
  }

  /**
   * The star meter: each B1 card adds a layer per landing, and each time the
   * layers reach the threshold it is taken off and the award is paid.
   */
  function StarMeter(s: Session): (r: Session)
    ensures BCount(s.cards, 1) == 0 ==> r == s
    ensures BCount(s.cards, 1) > 0 && s.effects.starLayers >= 0 ==>
      var total := s.effects.starLayers + BCount(s.cards, 1);
      r.effects.starLayers == total % StarThreshold(s.cards) &&
      r.score == s.score + (total / StarThreshold(s.cards)) * StarAward(s.cards)
    ensures r.score >= s.score || s.effects.starLayers < 0
    ensures r == s.(score := r.score, effects := s.effects.(starLayers := r.effects.starLayers))
  {
    var b1 := BCount(s.cards, 1);
    if b1 > 0 then
      var total := s.effects.starLayers + b1;
      var t := StarThreshold(s.cards);
      var award := StarAward(s.cards);
      var loop := StarLoop(total, t, award, s.score);
      StarLoopCloses(total, t, award, s.score);
      PaidNonnegative(total, t, award);
      s.(score := loop.1, effects := s.effects.(starLayers := loop.0))
    else s
  }

  /** Whole thresholds in a non-negative total, times a non-negative award, pay nothing negative. */
  lemma PaidNonnegative(total: int, t: int, award: int)
    requires t > 0 && award >= 0
    ensures total >= 0 ==> (total / t) * award >= 0
  {
    if total >= 0 {
      assert total / t >= 0;
    }
  }

  /** A meter below the threshold after the B1 layers pays nothing and keeps the layers. */
  lemma StarMeterBelowThreshold(s: Session)
    requires BCount(s.cards, 1) > 0 && s.effects.starLayers >= 0
    requires s.effects.starLayers + BCount(s.cards, 1) < StarThreshold(s.cards)
    ensures StarMeter(s).score == s.score
    ensures StarMeter(s).effects.starLayers == s.effects.starLayers + BCount(s.cards, 1)
  {
  }

  // ---------------------------------------------------------------------------
  // Task progress and colour bonuses of a landing

  /** Landing progress: a drop of the task's shape counts one, the height task takes the new height. */
  function LandingTaskProgress(t: Option<Task>, shapeId: int, height: int): (r: Option<Task>)
    ensures t.None? ==> r.None?
    ensures t.Some? ==> r.Some? && r.value == t.value.(progress := r.value.progress)
    ensures t.Some? && t.value.kind.DropShape? ==>
      r.value.progress == t.value.progress + (if shapeId == t.value.kind.shape then 1 else 0)
    ensures t.Some? && t.value.kind.ReachHeight? ==> r.value.progress == Max(t.value.progress, height)
    ensures t.Some? && !t.value.kind.DropShape? && !t.value.kind.ReachHeight? ==> r == t
  {
    match t
    case None => None
    case Some(task) =>
      match task.kind
      case DropShape(shape) => Some(task.(progress := task.progress + (if shapeId == shape then 1 else 0)))
      case ReachHeight => Some(task.(progress := Max(task.progress, height)))
      case _ => t
  }

  /** The task step of a landing: progress, then the completion check. */
  function LandingTasks(s: Session, d: LandingDraws): (r: Session)
    requires Wf(s)
    ensures Wf(r)
    ensures r.field.arena == s.field.arena && r.field.player == s.field.player && r.score == s.score
    ensures r.effects == s.effects
    ensures HpInv(s.purse) ==> HpInv(r.purse)
  {
    var s1 := s.(task := LandingTaskProgress(s.task, s.field.player.shapeId, MaxColumnHeight(s.field.arena)));
    CheckTaskCompletion(s1, d.taskU, d.taskDraw)
  }

  /** Whether a landed colour counts as red for D2 or green for D3, orange counting while it is the wildcard. */
  predicate CountsAs(color: int, target: int, wild: bool) {
    color == target || (color == 3 && wild)
  }

  /**
   * D2 pays 100 per card for a red landing; D3 pays 50 per card from the
   * second green landing in a row. Any other colour resets the run to 1.
   */
  function ColorBonuses(s: Session, color: int, wild: bool, d2: nat, d3: nat): (r: Session)
    ensures r.effects.lastDropColor == Some(color)
    ensures !CountsAs(color, 1, wild) ==> r.effects.dropConsec == 1
    ensures CountsAs(color, 1, wild) && s.effects.lastDropColor == Some(color) ==> r.effects.dropConsec == s.effects.dropConsec + 1
    ensures CountsAs(color, 1, wild) && s.effects.lastDropColor != Some(color) ==> r.effects.dropConsec == 1
    ensures r.score == s.score + (if d2 > 0 && CountsAs(color, 0, wild) then 100 * d2 else 0) +
      (if CountsAs(color, 1, wild) && r.effects.dropConsec >= 2 && d3 > 0 then 50 * d3 else 0)
    ensures r == s.(score := r.score, effects := s.effects.(lastDropColor := Some(color), dropConsec := r.effects.dropConsec))
  {
    var s1 := if d2 > 0 && CountsAs(color, 0, wild) then s.(score := s.score + 100 * d2) else s;
    if CountsAs(color, 1, wild) then
      var c := if s1.effects.lastDropColor == Some(color) then s1.effects.dropConsec + 1 else 1;
      var s2 := s1.(effects := s1.effects.(dropConsec := c, lastDropColor := Some(color)));
      if c >= 2 && d3 > 0 then s2.(score := s2.score + 50 * d3) else s2
    else s1.(effects := s1.effects.(lastDropColor := Some(color), dropConsec := 1))
  }

  /** Two green landings in a row with a D3 card pay the D3 bonus on the second. */
  lemma SecondGreenPays(s: Session, d3: nat)
    requires d3 > 0 && s.effects.dropConsec >= 0
    ensures var once := ColorBonuses(s, 1, false, 0, d3);
      ColorBonuses(once, 1, false, 0, d3).score == once.score + 50 * d3
  {
  }

  // ---------------------------------------------------------------------------
  // Explosion check and the pet's landing count

  /** `triggerStarExplosion`: unless one is running, mark it running, pause and schedule it. */
  function TriggerExplosion(s: Session): (r: (Session, seq<Pending>))
    ensures s.effects.explosionInProgress ==> r == (s, [])
    ensures !s.effects.explosionInProgress ==>
      r.1 == [Explosion] && r.0.effects.explosionInProgress && r.0.flow.paused &&
      r.0 == s.(effects := r.0.effects, flow := r.0.flow)
  {
    if s.effects.explosionInProgress then (s, [])
    else (s.(effects := s.effects.(explosionInProgress := true), flow := s.flow.(paused := true)), [Explosion])
  }

  /** The explosion threshold: 35 layers for the hunter, 45 otherwise. */
  function ExplosionThreshold(c: Character): (t: int)
    ensures 35 <= t <= 45
    ensures t == 35 <==> c == Hunter
    ensures c != Hunter ==> t == 45
  {
    if c == Hunter then 35 else 45
  }

  /**
   * The post-landing check: with a B4 card and at least the threshold of
   * layers, trigger the explosion, and the hunter gains a coin even when one is
   * already running.
   */
  function ExplosionCheck(s: Session): (r: (Session, seq<Pending>))
    ensures !(BCount(s.cards, 4) > 0 && s.effects.starLayers >= ExplosionThreshold(s.character)) ==> r == (s, [])
    ensures BCount(s.cards, 4) > 0 && s.effects.starLayers >= ExplosionThreshold(s.character) ==>
      (r.1 == [Explosion] <==> !s.effects.explosionInProgress) &&
      r.0.purse.coins == s.purse.coins + (if s.character == Hunter then 1 else 0)
    ensures r.1 == [] || r.1 == [Explosion]
    ensures r.0.field == s.field && r.0.score == s.score && r.0.cards == s.cards && r.0.dino == s.dino
    ensures HpInv(s.purse) ==> HpInv(r.0.purse)
  {
    if BCount(s.cards, 4) > 0 && s.effects.starLayers >= ExplosionThreshold(s.character) then
      var t := TriggerExplosion(s);
      (if s.character == Hunter then AddCoins(t.0, 1) else t.0, t.1)
    else (s, [])
  }

  /** The hunter's check fires at exactly 35 layers and never below. */
  lemma ExplosionThresholdInclusive(s: Session)
    requires BCount(s.cards, 4) > 0 && s.character == Hunter && !s.effects.explosionInProgress
    ensures s.effects.starLayers == 35 ==> ExplosionCheck(s).1 == [Explosion]
    ensures s.effects.starLayers < 35 ==> ExplosionCheck(s).1 == []
  {
  }

  /** `handleDinoLandingEat`: the pet counts the landing and, from stage 1, schedules an eat every 15th. */
  function DinoLanding(s: Session): (r: (Session, seq<Pending>))
    ensures !s.dino.has ==> r == (s, [])
    ensures s.dino.has ==> r.0 == s.(dino := s.dino.(landings := s.dino.landings + 1))
    ensures s.dino.has ==> (r.1 == [DinoEat] <==> s.dino.stage >= 1 && (s.dino.landings + 1) % 15 == 0)
    ensures r.1 == [] || r.1 == [DinoEat]
  {
    if !s.dino.has then (s, [])
    else
      var n := s.dino.landings + 1;
      var s1 := s.(dino := s.dino.(landings := n));
      (s1, if s.dino.stage >= 1 && n % 15 == 0 then [DinoEat] else [])
  }

  // ---------------------------------------------------------------------------
  // The landing

  /** The first half of a landing, up to the colour bonuses; the piece is still the landed one. */
  function LandFirst(s: Session, d: LandingDraws): (r: Session)
    requires Wf(s)
    ensures Wf(r)
    ensures r.field.arena == MergePiece(s, d.rolls).field.arena
    ensures r.field.player == s.field.player
    ensures s.effects.starLayers >= 0 && s.level >= 0 ==> r.score >= s.score
    ensures HpInv(s.purse) ==> HpInv(r.purse)
  {
    var s1 := MergePiece(s, d.rolls);
    var s2 := StarMeter(s1);
    var wild := OrangeIsWildcard(s2.field.colorWeights);
    var d2 := CountPrefix(s2.cards, "D2");
    var d3 := CountPrefix(s2.cards, "D3");
    var s3 := LandingTasks(s2, d);
    ColorBonuses(s3, s.field.player.color, wild, d2, d3)
  }

  /** The next piece comes in and the line-clear scan runs on the merged arena. */
  function ResetAndScan(s: Session, d: SpawnDraws): (r: (Session, seq<Pending>))
    requires Wf(s)
    ensures Wf(r.0) && r.0.field == NextPiece(s.field, d)
    ensures r.0.score == s.score && r.0.cards == s.cards && r.0.dino == s.dino && r.0.effects == s.effects
    ensures r.0.purse == s.purse
    ensures FullRows(s.field.arena) == [] ==> r.1 == []
    ensures FullRows(s.field.arena) != [] ==> |r.1| == 1 && r.1[0].ClearRows? && ValidRows(r.1[0].rows)
  {
    Sweep(PlayerReset(s, d))
  }

  /** The explosion check, the pet's landing count and the game-over check. */
  function AfterScan(s: Session): (r: (Session, seq<Pending>, seq<Pending>))
    requires Wf(s)
    ensures Wf(r.0) && r.0.field == s.field && r.0.score == s.score
    ensures r.1 == [] || r.1 == [DinoEat]
    ensures r.2 == [] || r.2 == [Explosion]
    ensures Hits(s.field.arena, s.field.player) ==> r.0.flow.paused
    ensures HpInv(s.purse) ==> HpInv(r.0.purse)
  {
    var ex := ExplosionCheck(s);
    var dl := DinoLanding(ex.0);
    var s9 := if Hits(dl.0.field.arena, dl.0.field.player) then GameOver(dl.0) else dl.0;
    (s9, dl.1, ex.1)
  }

  /**
   * The second half: the next piece, the line-clear scan, the explosion check,
   * the pet's count, and game over when the new piece collides. Deferred
   * effects are listed in the order their timers fire: the eat after 800 ms,
   * then the clear and the explosion, both after 1000 ms.
   */
  function LandSecond(s: Session, d: LandingDraws): (r: (Session, seq<Pending>))
    requires Wf(s)
    ensures Wf(r.0) && r.0.field == NextPiece(s.field, d.spawn)
    ensures r.0.score == s.score
    ensures Hits(s.field.arena, r.0.field.player) ==> r.0.flow.paused
    ensures PendingOk(r.1)
    ensures forall i :: 0 < i < |r.1| ==> r.1[i] != DinoEat
    ensures FullRows(s.field.arena) != [] <==> exists i :: 0 <= i < |r.1| && r.1[i].ClearRows?
    ensures HpInv(s.purse) ==> HpInv(r.0.purse)
  {
    var sw := ResetAndScan(s, d.spawn);
    var af := AfterScan(sw.0);
    PendingOrder(af.1, sw.1, af.2);
    (af.0, af.1 + sw.1 + af.2)
  }

  /** An optional eat, an optional clear, an optional explosion: the eat comes first, and the clear is there exactly when scheduled. */
  lemma PendingOrder(a: seq<Pending>, b: seq<Pending>, c: seq<Pending>)
    requires a == [] || a == [DinoEat]
    requires b == [] || (|b| == 1 && b[0].ClearRows? && ValidRows(b[0].rows))
    requires c == [] || c == [Explosion]
    ensures PendingOk(a + b + c)
    ensures forall i :: 0 < i < |a + b + c| ==> (a + b + c)[i] != DinoEat
    ensures b != [] <==> exists i :: 0 <= i < |a + b + c| && (a + b + c)[i].ClearRows?
  {
    var ps := a + b + c;
    assert forall i :: 0 <= i < |ps| ==> ps[i] == (if i < |a| then a[i] else if i < |a| + |b| then b[i - |a|] else c[i - |a| - |b|]);
    if b != [] {
      assert ps[|a|] == b[0];
    }
  }

  /** A landing: the piece is written into the arena and every landing effect follows. */
  function Land(s: Session, d: LandingDraws): (r: (Session, seq<Pending>))
    requires Wf(s)
    ensures Wf(r.0)
    ensures r.0.field.arena == MergePiece(s, d.rolls).field.arena
    ensures 1 <= r.0.field.player.shapeId <= 7 && r.0.field.player.y == -1
    ensures s.field.next.Some? ==> (r.0.field.player.shapeId, r.0.field.player.color) == s.field.next.value
    ensures s.effects.starLayers >= 0 && s.level >= 0 ==> r.0.score >= s.score
    ensures Hits(r.0.field.arena, r.0.field.player) ==> r.0.flow.paused
    ensures forall i :: 0 <= i < |r.1| && r.1[i].ClearRows? ==> ValidRows(r.1[i].rows)
    ensures HpInv(s.purse) ==> HpInv(r.0.purse)
  {
    LandSecond(LandFirst(s, d), d)
  }

  /**
   * `playerDrop`: one row down; when that collides the piece stays and lands.
   */
  function PlayerDrop(s: Session, d: LandingDraws): (r: (Session, seq<Pending>))
    requires Wf(s)
    ensures Wf(r.0)
    ensures !Hits(s.field.arena, s.field.player.(y := s.field.player.y + 1)) ==>
      r == (s.(field := s.field.(player := s.field.player.(y := s.field.player.y + 1))), [])
    ensures Hits(s.field.arena, s.field.player.(y := s.field.player.y + 1)) ==> r == Land(s, d)
  {
    var moved := s.field.player.(y := s.field.player.y + 1);
    if Hits(s.field.arena, moved) then Land(s, d)
    else (s.(field := s.field.(player := moved)), [])
  }

  // ---------------------------------------------------------------------------
  // Deferred effects

  /**
   * The explosion's timeout body: the bottom three rows are emptied, 300 points
   * per removed block, 40 layers spent (never below 0), and the game resumes.
   */
  function ExplosionBody(s: Session): (r: Session)
    requires Wf(s)
    ensures Wf(r)
    ensures r.field.arena == ClearBottom3(s.field.arena)
    ensures r.score == s.score + 300 * (CellCount(s.field.arena) - CellCount(r.field.arena))
    ensures r.effects.starLayers == Max(0, s.effects.starLayers - 40)
    ensures !r.effects.explosionInProgress && !r.flow.paused
    ensures r.purse == s.purse && r.cards == s.cards
  {
    var removed := Bottom3Count(s.field.arena);
    Bottom3CountIsLoss(s.field.arena);
    s.(field := s.field.(arena := ClearBottom3(s.field.arena)),
       score := s.score + removed * 300,
       effects := s.effects.(starLayers := Max(0, s.effects.starLayers - 40), explosionInProgress := false),
       flow := s.flow.(paused := false))
  }

  /** The eat's points per block: 200 (+50% per C4), plus with the badge 200 (+30% per C4) per C card. */
  function EatPerBlock(cards: seq<CardId>, badge: bool): (p: real)
    ensures p >= 200.0
    ensures !badge && CountPrefix(cards, "C4") == 0 ==> p == 200.0
  {
    var c4 := CountPrefix(cards, "C4") as real;
    var base := 200.0 * (1.0 + 0.5 * c4);
    var bonus := if badge then CountPrefix(cards, "C") as real * 200.0 * (1.0 + 0.3 * c4) else 0.0;
    assert bonus >= 0.0;
    base + bonus
  }

  /** The eat's points for `removed` blocks, rounded down. */
  function EatGain(cards: seq<CardId>, badge: bool, removed: nat): (g: int)
    ensures g >= 200 * removed
    ensures removed == 0 ==> g == 0
  {
    var per := EatPerBlock(cards, badge);
    FloorScaled(200 * removed, per / 200.0);
    assert removed as real * per == (200 * removed) as real * (per / 200.0);
    (removed as real * per).Floor
  }

  /** The eat itself: the bottom row goes and the rest shift down; the eaten blocks are paid and fed to the pet. */
  function EatRow(s: Session): (r: Session)
    requires Wf(s)
    ensures Wf(r)
    ensures r.field == s.field.(arena := EatBottomRow(s.field.arena))
    ensures r.score >= s.score + 200 * RowCount(s.field.arena[ROWS - 1])
    ensures RowCount(s.field.arena[ROWS - 1]) == CellCount(s.field.arena) - CellCount(r.field.arena)
    ensures RowCount(s.field.arena[ROWS - 1]) == 0 ==> r == s.(field := r.field)
    ensures RowCount(s.field.arena[ROWS - 1]) > 0 ==>
      (r.dino, r.purse) == Feed(s.dino, s.purse, s.cards, RowCount(s.field.arena[ROWS - 1]))
    ensures HpInv(s.purse) ==> HpInv(r.purse)
  {
    var removed := RowCount(s.field.arena[ROWS - 1]);
    EatCountIsLoss(s.field.arena);
    var s1 := s.(field := s.field.(arena := EatBottomRow(s.field.arena)));
    if removed > 0 then FeedDino(s1.(score := s1.score + EatGain(s.cards, s.dino.badge, removed)), removed) else s1
  }

  /** The eat's timeout body: the eat, then a new line-clear scan of the shifted arena. */
  function EatBody(s: Session): (r: (Session, seq<Pending>))
    requires Wf(s)
    ensures Wf(r.0) && r == Sweep(EatRow(s))
    ensures r.0.field.arena == EatBottomRow(s.field.arena)
    ensures r.0.score >= s.score + 200 * RowCount(s.field.arena[ROWS - 1])
    ensures r.1 == [] || (|r.1| == 1 && r.1[0].ClearRows? && ValidRows(r.1[0].rows))
    ensures HpInv(s.purse) ==> HpInv(r.0.purse)
  {
    Sweep(EatRow(s))
  }

  /** The number of pending eats, which bounds how many more clears can be scheduled. */
  function EatCount(ps: seq<Pending>): nat
    decreases |ps|
  {
    if ps == [] then 0 else (if ps[0] == DinoEat then 1 else 0) + EatCount(ps[1..])
  }

  lemma {:induction false} EatCountAppend(a: seq<Pending>, b: seq<Pending>)
    ensures EatCount(a + b) == EatCount(a) + EatCount(b)
    decreases |a|
  {
    if a != [] {
      assert (a + b)[0] == a[0];
      assert (a + b)[1..] == a[1..] + b;
      EatCountAppend(a[1..], b);
    } else {
      assert a + b == b;
    }
  }

  /** At most one scheduled clear, as a scan produces: valid, and no eat among it. */
  lemma ClearOnly(ps: seq<Pending>)
    requires ps == [] || (|ps| == 1 && ps[0].ClearRows? && ValidRows(ps[0].rows))
    ensures PendingOk(ps) && EatCount(ps) == 0
  {
    if ps != [] {
      assert ps[1..] == [];
    }
  }

  /** Every scheduled clear names rows inside the arena. */
  predicate PendingOk(ps: seq<Pending>) {
    forall i :: 0 <= i < |ps| && ps[i].ClearRows? ==> ValidRows(ps[i].rows)
  }

  /** One deferred effect fires; an eat may schedule a clear, which fires after everything already waiting. */
  function Fire(s: Session, p: Pending): (r: (Session, seq<Pending>))
    requires Wf(s)
    requires p.ClearRows? ==> ValidRows(p.rows)
    ensures Wf(r.0) && PendingOk(r.1)
    ensures p != DinoEat ==> r.1 == []
    ensures EatCount(r.1) == 0
    ensures HpInv(s.purse) ==> HpInv(r.0.purse)
  {
    match p
    case ClearRows(rows, data) => (ResolveClear(s, rows, data), [])
    case Explosion => (ExplosionBody(s), [])
    case DinoEat =>
      var e := EatBody(s);
      ClearOnly(e.1);
      e
  }

  /** Fire every waiting effect in order until none is left. */
  function Settle(s: Session, ps: seq<Pending>): (r: Session)
    requires Wf(s) && PendingOk(ps)
    ensures Wf(r)
    ensures ps == [] ==> r == s
    ensures HpInv(s.purse) ==> HpInv(r.purse)
    decreases EatCount(ps), |ps|
  {
    if ps == [] then s
    else
      var f := Fire(s, ps[0]);
      SettleStep(ps, f.1);
      Settle(f.0, ps[1..] + f.1)
  }

  /** Replacing the first effect by what it schedules keeps the list valid and lowers (eats, length). */
  lemma SettleStep(ps: seq<Pending>, more: seq<Pending>)
    requires ps != [] && PendingOk(ps) && PendingOk(more) && EatCount(more) == 0
    requires ps[0] != DinoEat ==> more == []
    ensures PendingOk(ps[1..] + more)
    ensures EatCount(ps[1..] + more) < EatCount(ps)
      || (EatCount(ps[1..] + more) == EatCount(ps) && |ps[1..] + more| < |ps|)
  {
    EatCountAppend(ps[1..], more);
    var qs := ps[1..] + more;
    forall i | 0 <= i < |qs| && qs[i].ClearRows? ensures ValidRows(qs[i].rows) {
      if i < |ps| - 1 {
        assert qs[i] == ps[i + 1];
      } else {
        assert qs[i] == more[i - |ps| + 1];
      }
    }
  }

  // ---------------------------------------------------------------------------
  // Sniper and hard drop

  /**
   * `sniperFire` at cell (cx, cy): without an armed sniper nothing happens;
   * otherwise it disarms, clears the marked cells of the 3 x 3 window and pays
   * 100 (+50% per E card) per cleared cell, and the game resumes.
   */
  method SniperFire(s: Session, cx: int, cy: int) returns (r: Session)
    requires Wf(s)
    ensures Wf(r)
    ensures !s.effects.sniperActive ==> r == s
    ensures s.effects.sniperActive ==> !r.effects.sniperActive && !r.flow.paused
    ensures s.effects.sniperActive ==>
      forall y, x :: 0 <= y < ROWS && 0 <= x < COLS ==>
        r.field.arena[y][x] == (if InWindow(y, x, cx, cy) && s.field.arena[y][x] >= MARK_FLAG then 0 else s.field.arena[y][x])
    ensures CellCount(r.field.arena) <= CellCount(s.field.arena)
    ensures s.effects.sniperActive ==>
      r.score == s.score + MarkGain(s.cards, CellCount(s.field.arena) - CellCount(r.field.arena))
    ensures r.purse == s.purse && r.cards == s.cards
  {
    if !s.effects.sniperActive {
      return s;
    }
    var a, removed := SniperClear(s.field.arena, cx, cy);
    var gain := if removed > 0 then MarkGain(s.cards, removed) else 0;
    r := s.(field := s.field.(arena := a), score := s.score + gain,
            effects := s.effects.(sniperActive := false), flow := s.flow.(paused := false));
  }

  /**
   * The Enter hard drop: the piece falls to rest, merges with its marks and
   * A4 bonus, the next piece comes in and the line-clear scan runs. No star
   * meter, colour bonus, task progress, pet count or game-over check.
   */
  function HardDropLanding(s: Session, rolls: (int, int) -> real, spawn: SpawnDraws): (r: (Session, seq<Pending>))
    requires Wf(s) && HasCell(s.field.player.matrix)
    ensures Wf(r.0)
    ensures var p := HardDrop(s.field.arena, s.field.player);
      r.0.field.arena == MergePiece(s.(field := s.field.(player := p)), rolls).field.arena
    ensures r.0.score == s.score + A4Paid(s.cards, s.level)
    ensures r.0.effects == s.effects && r.0.dino == s.dino && r.0.task == s.task && r.0.purse == s.purse
    ensures r.0.flow.paused <==> s.flow.paused || r.1 != []
    ensures PendingOk(r.1) && EatCount(r.1) == 0
  {
    var p := HardDrop(s.field.arena, s.field.player);
    assert Wf(s.(field := s.field.(player := p)));
    var s1 := MergePiece(s.(field := s.field.(player := p)), rolls);
    var s2 := PlayerReset(s1, spawn);
    assert s1.flow == s.flow;
    var sw := Sweep(s2);
    ClearOnly(sw.1);
    sw
  }

  // ---------------------------------------------------------------------------
  // The star layers stay below the explosion thresholds

  /**
   * The star layers a session can hold: the meter only ever leaves fewer than
   * its threshold, which is at most 12, and every other write resets or lowers
   * them. Both explosion thresholds (35 and 45) lie above this range.
   */
  predicate StarsLow(s: Session) {
    0 <= s.effects.starLayers < 12
  }

  /** The star meter keeps the layers low: what it leaves is below the threshold. */
  lemma StarMeterKeepsStarsLow(s: Session)
    requires StarsLow(s)
    ensures StarsLow(StarMeter(s))
    ensures StarMeter(s).effects.starLayers < StarThreshold(s.cards) || BCount(s.cards, 1) == 0
  {
    if BCount(s.cards, 1) > 0 {
      var total := s.effects.starLayers + BCount(s.cards, 1);
      assert StarMeter(s).effects.starLayers == total % StarThreshold(s.cards);
    }
  }

  /** With low layers the post-landing check neither schedules an explosion nor pays the hunter. */
  lemma LowStarsNeverExplode(s: Session)
    requires StarsLow(s)
    ensures ExplosionCheck(s) == (s, [])
  {
    assert s.effects.starLayers < 35 <= ExplosionThreshold(s.character);
  }

  /** The first half of a landing keeps the layers low: only the star meter touches them. */
  lemma LandFirstKeepsStarsLow(s: Session, d: LandingDraws)
    requires Wf(s) && StarsLow(s)
    ensures StarsLow(LandFirst(s, d))
  {
    var s1 := MergePiece(s, d.rolls);
    StarMeterKeepsStarsLow(s1);
    var s2 := StarMeter(s1);
    var s3 := LandingTasks(s2, d);
    assert s3.effects.starLayers == s2.effects.starLayers;
  }

  /** The second half of a landing leaves the layers alone and, with them low, schedules no explosion. */
  lemma LandSecondKeepsStarsLow(s: Session, d: LandingDraws)
    requires Wf(s) && StarsLow(s)
    ensures StarsLow(LandSecond(s, d).0)
    ensures forall i :: 0 <= i < |LandSecond(s, d).1| ==> LandSecond(s, d).1[i] != Explosion
  {
    var sw := ResetAndScan(s, d.spawn);
    LowStarsNeverExplode(sw.0);
    var dl := DinoLanding(sw.0);
    var af := AfterScan(sw.0);
    assert af.0.effects == s.effects && af.1 == dl.1 && af.2 == [];
    var ps := af.1 + sw.1 + af.2;
    assert LandSecond(s, d) == (af.0, ps);
    forall i | 0 <= i < |ps| ensures ps[i] != Explosion {
      if i < |af.1| {
        assert ps[i] == af.1[i];
      } else {
        assert ps[i] == sw.1[i - |af.1|];
      }
    }
  }

  /** A landing keeps the layers low and never schedules the explosion. */
  lemma LandKeepsStarsLow(s: Session, d: LandingDraws)
    requires Wf(s) && StarsLow(s)
    ensures StarsLow(Land(s, d).0)
    ensures forall i :: 0 <= i < |Land(s, d).1| ==> Land(s, d).1[i] != Explosion
  {
    LandFirstKeepsStarsLow(s, d);
    LandSecondKeepsStarsLow(LandFirst(s, d), d);
  }

  /** A deferred effect keeps the layers low: the explosion only lowers them, the others leave them. */
  lemma FireKeepsStarsLow(s: Session, p: Pending)
    requires Wf(s) && StarsLow(s)
    requires p.ClearRows? ==> ValidRows(p.rows)
    ensures StarsLow(Fire(s, p).0)
  {
    match p
    case ClearRows(rows, data) =>
    case Explosion =>
    case DinoEat =>
  }

  /** Firing every waiting effect keeps the layers low. */
  lemma {:induction false} SettleKeepsStarsLow(s: Session, ps: seq<Pending>)
    requires Wf(s) && PendingOk(ps) && StarsLow(s)
    ensures StarsLow(Settle(s, ps))
    decreases EatCount(ps), |ps|
  {
    if ps != [] {
      var f := Fire(s, ps[0]);
      FireKeepsStarsLow(s, ps[0]);
      SettleStep(ps, f.1);
      SettleKeepsStarsLow(f.0, ps[1..] + f.1);
    }
  }

  /** The hard drop and a level restart keep the layers low as well. */
  lemma RestartAndHardDropKeepStarsLow(s: Session, rolls: (int, int) -> real, spawn: SpawnDraws)
    requires Wf(s) && StarsLow(s)
    ensures HasCell(s.field.player.matrix) ==> StarsLow(HardDropLanding(s, rolls, spawn).0)
    ensures StarsLow(RestartLevel(s, spawn)) && StarsLow(OnLevelFail(s, spawn)) && StarsLow(OnLevelTimeUp(s, spawn))
  {
  }
}

=== FILE: leaderboard.dfy ===
/**
 * The list part of `saveLeaderboardEntry`: append the new entry, sort by
 * score from high to low keeping equal scores in their earlier order, and keep
 * the first 50.
 */
module Leaderboard {
  import opened Util

  /** A leaderboard entry: the rounded-down score and the time stamp. */
  datatype Entry = Entry(score: int, ts: int)

  const Capacity: nat := 50

  predicate SortedDesc(xs: seq<Entry>) {
    forall i, j :: 0 <= i < j < |xs| ==> xs[i].score >= xs[j].score
  }

  /** Insert after every entry scoring at least as much: the stable place for a later entry. */
  function Insert(sorted: seq<Entry>, e: Entry): (r: seq<Entry>)
    ensures |r| == |sorted| + 1
    ensures multiset(r) == multiset(sorted) + multiset{e}
    ensures SortedDesc(sorted) ==> SortedDesc(r)
    decreases |sorted|
  {
    if sorted == [] then [e]
    else if sorted[0].score >= e.score then
      var rest := Insert(sorted[1..], e);
      assert sorted == [sorted[0]] + sorted[1..];
      assert multiset([sorted[0]] + rest) == multiset{sorted[0]} + multiset(rest);
      InsertHeadSorted(sorted, e, rest);
      [sorted[0]] + rest
    else
      PrependSorted(e, sorted);
      [e] + sorted
  }

  /** An entry scoring more than the head of a sorted list can go in front of it. */
  lemma PrependSorted(e: Entry, sorted: seq<Entry>)
    requires sorted != [] && e.score > sorted[0].score
    ensures SortedDesc(sorted) ==> SortedDesc([e] + sorted)
  {
    if SortedDesc(sorted) {
      var r := [e] + sorted;
      forall i, j | 0 <= i < j < |r| ensures r[i].score >= r[j].score {
        assert r[j] == sorted[j - 1];
        if i > 0 {
          assert r[i] == sorted[i - 1];
        }
      }
    }
  }

  /** Putting the head back in front of the rest's insertion keeps the order. */
  lemma InsertHeadSorted(sorted: seq<Entry>, e: Entry, rest: seq<Entry>)
    requires sorted != [] && sorted[0].score >= e.score
    requires multiset(rest) == multiset(sorted[1..]) + multiset{e}
    ensures SortedDesc(sorted) && SortedDesc(rest) ==> SortedDesc([sorted[0]] + rest)
  {
    if SortedDesc(sorted) && SortedDesc(rest) {
      forall k | 0 <= k < |rest| ensures sorted[0].score >= rest[k].score {
        assert rest[k] in multiset(rest);
        if rest[k] != e {
          assert rest[k] in multiset(sorted[1..]);
          var m :| 0 <= m < |sorted[1..]| && sorted[1..][m] == rest[k];
          assert sorted[1 + m] == rest[k];
        }
      }
      var r := [sorted[0]] + rest;
      forall i, j | 0 <= i < j < |r| ensures r[i].score >= r[j].score {
        if i > 0 {
          assert r[i] == rest[i - 1] && r[j] == rest[j - 1];
        } else {
          assert r[j] == rest[j - 1];
        }
      }
    }
  }

  /** `list.sort((a, b) => b.score - a.score)`: a stable sort by descending score. */
  function Sort(xs: seq<Entry>): (r: seq<Entry>)
    ensures |r| == |xs|
    ensures multiset(r) == multiset(xs)
    ensures SortedDesc(r)
    decreases |xs|
  {
    if xs == [] then []
    else
      assert xs == xs[..|xs| - 1] + [xs[|xs| - 1]];
      Insert(Sort(xs[..|xs| - 1]), xs[|xs| - 1])
  }

  /** The new list: the entry appended, the list sorted, the first 50 kept. */
  function SaveEntry(list: seq<Entry>, score: int, ts: int): (r: seq<Entry>)
    ensures |r| == Min(Capacity, |list| + 1)
    ensures SortedDesc(r)
    ensures multiset(r) <= multiset(list + [Entry(score, ts)])
  {
    var all := Sort(list + [Entry(score, ts)]);
    var k := Min(Capacity, |all|);
    assert all == all[..k] + all[k..];
    all[..k]
  }

  /** While the board has room, the new entry is kept. */
  lemma SaveKeepsNewWhenRoom(list: seq<Entry>, score: int, ts: int)
    requires |list| < Capacity
    ensures Entry(score, ts) in SaveEntry(list, score, ts)
  {
    var all := Sort(list + [Entry(score, ts)]);
    assert all[..|all|] == all;
    assert Entry(score, ts) in multiset(list + [Entry(score, ts)]);
  }

  /** Whatever the truncation drops scores no higher than anything it keeps. */
  lemma SaveKeepsTheBest(list: seq<Entry>, score: int, ts: int, x: Entry)
    requires x in list + [Entry(score, ts)] && x !in SaveEntry(list, score, ts)
    ensures forall i :: 0 <= i < |SaveEntry(list, score, ts)| ==> SaveEntry(list, score, ts)[i].score >= x.score
  {
    var all := Sort(list + [Entry(score, ts)]);
    var k := Min(Capacity, |all|);
    assert x in multiset(all);
    var j :| 0 <= j < |all| && all[j] == x;
    assert forall i :: 0 <= i < k ==> all[..k][i] == all[i];
    assert j >= k;
  }

  /** A full sorted board whose last entry scores at least as much drops the new one. */
  lemma FullBoardDropsTies(list: seq<Entry>, score: int, ts: int)
    requires |list| == Capacity && SortedDesc(list)
    requires list[Capacity - 1].score >= score
    requires Entry(score, ts) !in list
    ensures Entry(score, ts) !in SaveEntry(list, score, ts)
  {
    var e := Entry(score, ts);
    SortSorted(list);
    assert (list + [e])[..|list|] == list;
    InsertLast(list, e);
    var all := Sort(list + [e]);
    assert all == list + [e];
    assert all[..Capacity] == list;
  }

  /** A new entry no higher than the last of a sorted list goes to its end. */
  lemma {:induction false} InsertLast(sorted: seq<Entry>, e: Entry)
    requires SortedDesc(sorted) && sorted != [] && sorted[|sorted| - 1].score >= e.score
    ensures Insert(sorted, e) == sorted + [e]
    decreases |sorted|
  {
    if |sorted| > 1 {
      InsertLast(sorted[1..], e);
      assert sorted == [sorted[0]] + sorted[1..];
    } else {
      assert sorted == [sorted[0]];
    }
  }

  /** Sorting a sorted list changes nothing, since equal scores keep their order. */
  lemma {:induction false} SortSorted(xs: seq<Entry>)
    requires SortedDesc(xs)
    ensures Sort(xs) == xs
    decreases |xs|
  {
    if xs != [] {
      var init, last := xs[..|xs| - 1], xs[|xs| - 1];
      SortedInit(xs);
      SortSorted(init);
      if init != [] {
        InsertLast(init, last);
      }
      assert init + [last] == xs;
    }
  }

  /** Dropping the last entry of a sorted list leaves it sorted, and the new last is no lower. */
  lemma SortedInit(xs: seq<Entry>)
    requires SortedDesc(xs) && xs != []
    ensures SortedDesc(xs[..|xs| - 1])
    ensures |xs| > 1 ==> xs[..|xs| - 1][|xs| - 2].score >= xs[|xs| - 1].score
  {
    var init := xs[..|xs| - 1];
    forall i, j | 0 <= i < j < |init| ensures init[i].score >= init[j].score {
      assert init[i] == xs[i] && init[j] == xs[j];
    }
  }
}

=== FILE: piece.dfy ===
/**
 * The active piece and the moves a player makes with it: sideways moves,
 * rotation with the wall-kick search, the spawn position and the hard-drop
 * descent.
 */
module Piece {
  import opened Board

  /** The active piece: its matrix, position (y may be negative), shape id and colour index. */
  datatype Player = Player(matrix: Matrix, x: int, y: int, shapeId: int, color: int)

  /** `collide(arena, player)`. */
  predicate Hits(a: Matrix, p: Player) {
    Collides(a, p.matrix, p.x, p.y)
  }

  /** `playerMove`: shift by dir columns and undo the shift when it collides. */
  function PlayerMove(a: Matrix, p: Player, dir: int): (r: Player)
    ensures r.matrix == p.matrix && r.y == p.y && r.shapeId == p.shapeId && r.color == p.color
    ensures !Hits(a, p.(x := p.x + dir)) ==> r.x == p.x + dir
    ensures Hits(a, p.(x := p.x + dir)) ==> r == p
  {
    var moved := p.(x := p.x + dir);
    if Hits(a, moved) then p else moved
  }

  function Abs(n: int): nat { if n < 0 then -n else n }

  /**
   * The kick loop of `playerRotate`, entered with the rotated piece `p`:
   * while it collides, shift by `offset` and turn the offset into
   * -(offset + sign(offset)) (1, -2, 3, -4, ...); once that next offset exceeds
   * the matrix width, rotate back by -dir and restore column `origX`.
   */
  function Kick(a: Matrix, p: Player, origX: int, dir: int, offset: int): (r: Player)
    requires IsSquare(p.matrix)
    requires offset != 0
    requires offset > 0 ==> offset <= |p.matrix|
    requires offset < 0 ==> -offset <= |p.matrix| + 1
    ensures r.y == p.y && r.shapeId == p.shapeId && r.color == p.color
    ensures r.matrix == p.matrix || r.matrix == Rotate(p.matrix, -dir)
    ensures !Hits(a, r) || (r.matrix == Rotate(p.matrix, -dir) && r.x == origX)
    decreases |p.matrix| + 2 - Abs(offset)
  {
    if !Hits(a, p) then p
    else
      var shifted := p.(x := p.x + offset);
      var next := -(offset + (if offset > 0 then 1 else -1));
      if next > |p.matrix| then
        p.(matrix := Rotate(p.matrix, -dir), x := origX)
      else
        var r := Kick(a, shifted, origX, dir, next);
        assert shifted.matrix == p.matrix;
        r
  }

  /**
   * `playerRotate`: afterwards either the piece does not collide, holding the
   * rotated matrix at some column, or it is back to the original matrix and column.
   */
  function PlayerRotate(a: Matrix, p: Player, dir: int): (r: Player)
    requires IsSquare(p.matrix)
    requires dir == 1 || dir == -1
    ensures r.y == p.y && r.shapeId == p.shapeId && r.color == p.color
    ensures r.matrix == Rotate(p.matrix, dir) || r.matrix == p.matrix
    ensures !Hits(a, r) || (r.matrix == p.matrix && r.x == p.x)
    ensures r.matrix == Rotate(p.matrix, dir) && Rotate(p.matrix, dir) != p.matrix ==> !Hits(a, r)
  {
    var rotated := p.(matrix := Rotate(p.matrix, dir));
    RotateInverse(p.matrix, dir);
    Kick(a, rotated, p.x, dir, 1)
  }

  /** A matrix with at least one occupied cell. */
  predicate HasCell(m: Matrix) {
    exists y, x :: 0 <= y < |m| && 0 <= x < |m[y]| && m[y][x] != 0
  }

  /**
   * The Enter hard drop's descent: move down while the piece does not collide,
   * then step back one row. Every row passed through was free and the next one
   * collides.
   */
  function HardDrop(a: Matrix, p: Player): (r: Player)
    requires HasCell(p.matrix)
    ensures r == p.(y := r.y)
    ensures r.y >= p.y - 1
    ensures Hits(a, r.(y := r.y + 1))
    ensures forall k :: p.y <= k <= r.y ==> !Hits(a, p.(y := k))
    decreases |a| - p.y
  {
    if Hits(a, p) then p.(y := p.y - 1)
    else
      var cy, cx :| 0 <= cy < |p.matrix| && 0 <= cx < |p.matrix[cy]| && p.matrix[cy][cx] != 0;
      assert p.y < |a| by {
        if cy + p.y >= 0 {
          assert !Blocked(a, cy + p.y, cx + p.x);
        }
      }
      var r := HardDrop(a, p.(y := p.y + 1));
      assert r == p.(y := r.y);
      r
  }

  /** `Math.floor((COLS - width) / 2)`: the spawn column. */
  function SpawnColumn(m: Matrix): (x: int)
    requires |m| > 0 && |m[0]| <= COLS
    ensures 0 <= x && x + |m[0]| <= COLS
    ensures COLS - 1 <= 2 * x + |m[0]| <= COLS
  {
    (COLS - |m[0]|) / 2
  }

  /** The position part of `playerReset`: the new piece enters at row -1, centred. */
  function Spawn(matrix: Matrix, shapeId: int, color: int): (p: Player)
    requires |matrix| > 0 && |matrix[0]| <= COLS
    ensures p.y == -1 && p.matrix == matrix && p.shapeId == shapeId && p.color == color
    ensures p.x == SpawnColumn(matrix)
  {
    Player(matrix, SpawnColumn(matrix), -1, shapeId, color)
  }

  /** Every piece spawns without a collision on an empty arena. */
  lemma SpawnFitsEmptyArena(id: int, color: int)
    requires 1 <= id <= 7
    ensures !Hits(EmptyArena(), Spawn(Shape(id), id, color))
  {
    var m := Shape(id);
    var p := Spawn(m, id, color);
    var a := EmptyArena();
    forall y, x | 0 <= y < |m| && 0 <= x < |m[y]| && m[y][x] != 0 && y + p.y >= 0
      ensures !Blocked(a, y + p.y, x + p.x)
    {
      assert 0 <= x + p.x < COLS;
      assert a[y + p.y][x + p.x] == 0;
    }
  }
}

=== FILE: util.dfy ===
/** Small shared definitions: an optional value, integer min/max and real powers. */
module Util {

  /** The conventional Some/None datatype, used where the game uses `null`. */
  datatype Option<+T> = None | Some(value: T)

  function Min(a: int, b: int): int { if a <= b then a else b }

  function Max(a: int, b: int): int { if a >= b then a else b }

  /** x^n for a natural exponent, standing for `Math.pow(x, n)` on exact reals. */
  function Pow(x: real, n: nat): real
    decreases n
  {
    if n == 0 then 1.0 else x * Pow(x, n - 1)
  }

  /** A base of at least one never yields a power below one. */
  lemma {:induction false} PowAtLeastOne(x: real, n: nat)
    requires x >= 1.0
    ensures Pow(x, n) >= 1.0
    decreases n
  {
    if n > 0 {
      PowAtLeastOne(x, n - 1);
      assert x * Pow(x, n - 1) >= 1.0 * Pow(x, n - 1);
    }
  }

  /** A whole number scaled by a factor of at least one and rounded down keeps at least the number, and exactly it at factor one. */
  lemma FloorScaled(n: int, m: real)
    requires m >= 1.0
    ensures n >= 0 ==> (n as real * m).Floor >= n
    ensures m == 1.0 ==> (n as real * m).Floor == n
  {
    if n >= 0 {
      assert n as real * m - n as real == n as real * (m - 1.0);
      assert n as real * (m - 1.0) >= 0.0;
    }
    if m == 1.0 {
      assert n as real * m == n as real;
    }
  }

  /** Multiplying two factors that are each at least one stays at least one. */
  lemma ProductAtLeastOne(a: real, b: real)
    requires a >= 1.0 && b >= 1.0
    ensures a * b >= 1.0
  {
    assert a * b >= 1.0 * b;
  }

  /** Division by a positive t is determined by any quotient and remainder in range. */
  lemma DivUnique(n: int, t: int, q: int, r: int)
    requires t > 0 && 0 <= r < t && n == t * q + r
    ensures n / t == q && n % t == r
  {
    var q', r' := n / t, n % t;
    assert n == t * q' + r';
    assert t * q - t * q' == r' - r;
    if q > q' {
      assert t * (q - q') == t * q - t * q';
      MulAtLeast(t, q - q');
    } else if q < q' {
      assert t * (q' - q) == t * q' - t * q;
      MulAtLeast(t, q' - q);
    }
  }

  /** A positive multiple of t is at least t. */
  lemma {:induction false} MulAtLeast(t: int, d: int)
    requires t > 0 && d >= 1
    ensures t * d >= t
    decreases d
  {
    if d > 1 {
      MulAtLeast(t, d - 1);
      assert t * d == t * (d - 1) + t;
    }
  }

  /** Taking t away lowers the quotient by one and keeps the remainder. */
  lemma DivStep(a: int, t: int)
    requires t > 0
    ensures (a - t) / t == a / t - 1 && (a - t) % t == a % t
  {
    var q, r := a / t, a % t;
    assert a - t == t * (q - 1) + r;
    DivUnique(a - t, t, q - 1, r);
  }
}
